=== FILE: README.md ===
# StarPlan in Dafny

StarPlan is a job-application assistant: an Android client that lists job
offers, lets the user build or upload a résumé, and shows a scored feedback
report; and a Flask backend that looks jobs up in a listings file, checks
requests and hands résumé text to a language model. This project models the
deterministic rules of both sides and proves what they promise:

- the client's form checks (the résumé builder's required sections, the apply
  form's three fields);
- the in-place list edits with de-duplication and selection (skill chips,
  language rows, the picked résumé file inserted at the front and selected);
- the string and path helpers (company initials, criteria names, file names
  taken from a URI path, display names, bullet text);
- the small decision tables (HTTP status to error kind, error kind to
  message, bottom-navigation items, tab to visible panel);
- the feedback screen's alignment percentage in Java `int` arithmetic;
- the backend's request checks (400 before 404), its first-match job lookup
  and the plain-text résumé that `/submit_data` builds.

One Dafny module stands for each source file. A screen whose fields the
source updates in place is a `class` whose methods carry `modifies` clauses.
Widgets are reduced to their visible state: texts, enabled and visible
flags, and ordered child lists. Pure rules are functions, with lemmas about
them. Shared helpers are in these modules:

- `Wrappers`: `Option` and Java `int` wrap-around.
- `JString`: Java `String` behaviour, over Unicode code points rather than UTF-16 units, with ASCII case mapping only.
- `Widgets`: intents, extras, chip groups.
- `JsonModel`: parsed `org.json` objects, with an entry order.

`Flows` (integration.dfy) states two facts that span several screens.

## Model

| member | source | states |
|---|---|---|
| JobModel.CompanyInitials | app/src/main/java/com/example/starplan/Job.java:25-33 | a null or empty company gives "??"; otherwise the initials hold no lower-case ASCII letter (they are upper-cased); defined only when `split("\\s+")` cannot throw |
| JobModel.InitialsDefinedIff | app/src/main/java/com/example/starplan/Job.java:27-31 | for a non-empty company, getCompanyInitials returns normally exactly when the company does not start with whitespace (an empty first word makes `substring(0, 1)` throw) |
| JobModel.InitialsSafeDefined | app/src/main/java/com/example/starplan/Job.java:26-31 | the cheap precondition used by callers (null, empty, or no leading whitespace) is equivalent to "does not throw" |
| JobModel.InitialsShape | app/src/main/java/com/example/starplan/Job.java:27-31 | a company not starting with whitespace gets one or two initials, the first being its upper-cased first char |
| JobModel.OneWordInitials | app/src/main/java/com/example/starplan/Job.java:28-29 | a single-word company gives its first min(2, length) chars upper-cased |
| JobModel.TwoWordInitials | app/src/main/java/com/example/starplan/Job.java:30-31 | a company of two or more words gives the upper-cased first letters of the first two words; later words are ignored |
| JobModel.FirstWord | app/src/main/java/com/example/starplan/Job.java:27 | the first piece of the whitespace split of a company starting with a non-space is its maximal non-space prefix |
| JobModel.TwoWords | app/src/main/java/com/example/starplan/Job.java:27 | splitting `a`, a whitespace char and `b` gives `a` as first piece and a second piece starting with the first char of `b` |
| ResumeModel.NewResume | app/src/main/java/com/example/starplan/Resume.java:15-25 | the seven-argument constructor stores every argument unchanged and the entry starts active |
| ResumeModel.DisplayName | app/src/main/java/com/example/starplan/Resume.java:27-29 | a non-null name is returned as is; otherwise the result starts with "Resume_" |
| ResumeModel.DisplayNameFallback | app/src/main/java/com/example/starplan/Resume.java:28 | with a null name the display name is "Resume_" followed by the created date up to its first '-' |
| ResumeModel.DisplayNameDefinedIff | app/src/main/java/com/example/starplan/Resume.java:28 | with a null name, getDisplayName throws exactly when the created date is non-empty and made only of '-' (the split leaves no piece) |
| ResumeModel.Before | app/src/main/java/com/example/starplan/Resume.java:28 | the text before the first occurrence of a char holds no such char, is a prefix, and is followed by that char when shorter |
| Home.FirstJobs | app/src/main/java/com/example/starplan/HomeActivity.java:66-69 | the job list is the first min(n, 10) parsed jobs, in their original order |
| Home.FirstJobsIdempotent | app/src/main/java/com/example/starplan/HomeActivity.java:66-69 | a list of at most ten jobs is kept whole, and truncating twice equals truncating once |
| Home.HomeNav | app/src/main/java/com/example/starplan/HomeActivity.java:82-103 | home and résumé items are selected, dashboard, profile and unknown items are not; exactly the résumé item starts the library, and a screen is finished exactly when one is started; dashboard and profile show their "Coming Soon" toasts and every other item shows none |
| Home.HomeUploadUri | app/src/main/java/com/example/starplan/HomeActivity.java:121-131 | an upload starts exactly for request code 1001, RESULT_OK, non-null data and a non-null URI |
| Home.HomeActivity.LoadJobData | app/src/main/java/com/example/starplan/HomeActivity.java:48-80 | a parsed listing becomes the truncated job list; a read failure leaves an empty list and shows "Error loading job data" |
| Home.HomeActivity.constructor | app/src/main/java/com/example/starplan/HomeActivity.java:24-28 | before `loadJobData` runs, the screen holds no jobs and shows no toast |
| JobCards.AvatarColorIndex | app/src/main/java/com/example/starplan/JobAdapter.java:46-54 | the colour index `position % 6` always lies inside the six-colour palette and equals the position for the first six cards |
| JobCards.AvatarColorsCycle | app/src/main/java/com/example/starplan/JobAdapter.java:54 | neighbouring cards never share a colour, and the colours repeat every six cards |
| JobCards.CardSkills | app/src/main/java/com/example/starplan/JobAdapter.java:57-68 | a card shows the first min(3, |skills|) skills, in order |
| JobCards.JobAdapter.constructor | app/src/main/java/com/example/starplan/JobAdapter.java:24-27 | the adapter keeps the job list it is given |
| JobCards.JobAdapter.GetItemCount | app/src/main/java/com/example/starplan/JobAdapter.java:81-84 | the item count is the length of the job list |
| JobCards.JobAdapter.OnBindViewHolder | app/src/main/java/com/example/starplan/JobAdapter.java:37-79 | the card shows the job's title, company, initials and salary, the palette colour of its position, the first three skills as chips, "Posted 3 days ago", and a click that starts the detail screen with the job's id under "job_id" |
| JobCards.JobViewHolder.constructor | app/src/main/java/com/example/starplan/JobAdapter.java:92-101 | a new card holder has its own empty skills chip group and no click handler yet |
| JobDetail.RequestedJobId | app/src/main/java/com/example/starplan/JobDetailActivity.java:57 | the requested job id is the value last put under "job_id" when that is an int, and 1 when it is not an int or the intent carries no "job_id" |
| JobDetail.FindJob | app/src/main/java/com/example/starplan/JobDetailActivity.java:77-80 | the shown job is a job of the list: one with the requested id when there is one, otherwise the first job |
| JobDetail.FindJobFirst | app/src/main/java/com/example/starplan/JobDetailActivity.java:77-79 | among several jobs with the requested id the first in the list is shown |
| JobDetail.FirstWithId | app/src/main/java/com/example/starplan/JobDetailActivity.java:77-79 | the filter/findFirst search: the index of a job with the id, and no earlier job has it; None when no job has it |
| JobDetail.BulletLines | app/src/main/java/com/example/starplan/JobDetailActivity.java:147-150 | the untrimmed bullet text is empty exactly for no items, otherwise ends with a newline, and has at least three chars per item |
| JobDetail.BulletLinesJoin | app/src/main/java/com/example/starplan/JobDetailActivity.java:147-150 | the bullet loop's text is the "• item" lines joined by newlines, plus a final newline |
| JobDetail.BulletTextShape | app/src/main/java/com/example/starplan/JobDetailActivity.java:147-158 | after trim(), no items give ""; otherwise the text starts with the bullet, and when the last item ends in a visible char it ends with that item |
| JobDetail.BulletLinesStart | app/src/main/java/com/example/starplan/JobDetailActivity.java:149 | the untrimmed text of a non-empty list starts with "• " |
| JobDetail.Bulleted | app/src/main/java/com/example/starplan/JobDetailActivity.java:149 | each item, prefixed with "• ", in order |
| JobDetail.SummarySkill | app/src/main/java/com/example/starplan/JobDetailActivity.java:171 | the summary names the first skill, or "technical" when there are none |
| JobDetail.TabPanels | app/src/main/java/com/example/starplan/JobDetailActivity.java:194-210 | each panel is visible exactly for its own tab position |
| JobDetail.TabPanelsExclusive | app/src/main/java/com/example/starplan/JobDetailActivity.java:194-210 | exactly one panel is visible for positions 0, 1 and 2, and none for any other position |
| JobDetail.JobDetailActivity.ShowTabContent | app/src/main/java/com/example/starplan/JobDetailActivity.java:194-210 | the three panel flags become those of the tab position; nothing else changes |
| JobDetail.JobDetailActivity.BuildBulletText | app/src/main/java/com/example/starplan/JobDetailActivity.java:147-151 | the loop's trimmed text is the trimmed bullet text of the items |
| JobDetail.JobDetailActivity.PopulateSkills | app/src/main/java/com/example/starplan/JobDetailActivity.java:121-132 | the chip group is cleared, then gets one chip per skill, in order |
| JobDetail.JobDetailActivity.PopulateJobDetails | app/src/main/java/com/example/starplan/JobDetailActivity.java:90-174 | the initials, skills chips, bullet texts of responsibilities and qualifications, and summary skill of the shown job |
| JobDetail.JobDetailActivity.LoadJobData | app/src/main/java/com/example/starplan/JobDetailActivity.java:56-88 | a parsed listing shows the job found for the requested id with its initials, skill chips, both bullet texts and summary skill; a read failure shows "Error loading job data" and leaves the job, initials, chips, texts and summary skill as they were |
| JobDetail.JobDetailActivity.constructor | app/src/main/java/com/example/starplan/JobDetailActivity.java:25-29 | before `loadJobData` runs, no job is shown: empty texts and initials, no panel visible, no toast and an empty chip group of its own |
| ApplyForm.NameError | app/src/main/java/com/example/starplan/ApplyFormActivity.java:60-65 | the name error is cleared exactly when the trimmed name is non-empty, and is "Name is required" otherwise |
| ApplyForm.EmailError | app/src/main/java/com/example/starplan/ApplyFormActivity.java:67-75 | an empty trimmed email reports "Email is required" without consulting the pattern; a non-matching one reports "Enter a valid email address"; the error is cleared exactly when it is non-empty and matches |
| ApplyForm.ContactError | app/src/main/java/com/example/starplan/ApplyFormActivity.java:77-82 | the contact error is cleared exactly when the trimmed number is non-empty |
| ApplyForm.BlankFieldRejected | app/src/main/java/com/example/starplan/ApplyFormActivity.java:54-82 | a field made only of spaces and control chars fails the name and contact checks, and exactly such fields do; as an email it reports "Email is required" |
| ApplyForm.ApplyFormActivity.constructor | app/src/main/java/com/example/starplan/ApplyFormActivity.java:24-51 | the form starts with empty fields, no errors, and nothing started |
| ApplyForm.ApplyFormActivity.HandleNextButtonClick | app/src/main/java/com/example/starplan/ApplyFormActivity.java:53-92 | all three field errors are set on every click; the upload screen is started, with no extras, exactly when all three pass; otherwise "Please correct the errors." is shown |
| ResumeUpload.FileNameFromUri | app/src/main/java/com/example/starplan/ResumeUploadActivity.java:125-134 | the name after the last '/' of the path, or "UnnamedFile" for a null path or one without '/'; the name never holds '/' |
| ResumeUpload.FileNameOfPath | app/src/main/java/com/example/starplan/ResumeUploadActivity.java:128-130 | a directory, a '/' and a plain name give back that name |
| ResumeUpload.FirstIndex | app/src/main/java/com/example/starplan/ResumeUploadActivity.java:113 | `indexOf`: the first index holding the name, or -1 exactly when it is absent |
| ResumeUpload.Picked | app/src/main/java/com/example/starplan/ResumeUploadActivity.java:106-116 | a new name is inserted at the front and selected, the others shifting by one in order; a known name leaves the list unchanged and selects its first index |
| ResumeUpload.PickedKeepsDistinct | app/src/main/java/com/example/starplan/ResumeUploadActivity.java:107-108 | picking never introduces a duplicate, and picking the same name twice is the same as once |
| ResumeUpload.FeedbackIntent | app/src/main/java/com/example/starplan/ResumeUploadActivity.java:159-162 | the feedback intent carries the job id under "selected_job_id" and the file under "selected_resume_file" |
| ResumeUpload.ResumeUploadActivity.constructor | app/src/main/java/com/example/starplan/ResumeUploadActivity.java:52-123 | the job id is the "job_id" extra, -1 when absent; the list starts empty with nothing selected and the next button disabled |
| ResumeUpload.ResumeUploadActivity.UpdateNextButtonState | app/src/main/java/com/example/starplan/ResumeUploadActivity.java:150-154 | next is enabled and fully opaque exactly when a file is selected (alpha 0.5 otherwise) |
| ResumeUpload.ResumeUploadActivity.OnFilePicked | app/src/main/java/com/example/starplan/ResumeUploadActivity.java:97-119 | a cancelled pick changes nothing; otherwise the file name is picked into the list and selected, and the button follows the selection |
| ResumeUpload.ResumeUploadActivity.OnItemClick | app/src/main/java/com/example/starplan/ResumeUploadActivity.java:141-144 | the tapped row is selected and the next button is enabled |
| ResumeUpload.ResumeUploadActivity.HandleNextButtonClick | app/src/main/java/com/example/starplan/ResumeUploadActivity.java:156-168 | with a selection the feedback screen is started with the job id and the selected file; without one only "Please select a file first." is shown |
| ResumeUpload.ResumeUploadActivity.OnPostExecute | app/src/main/java/com/example/starplan/ResumeUploadActivity.java:250-272 | a non-empty result replaces the list; an empty result or a failure empties it with its own toast; the selection is cleared |
| ResumeLibrary.GeneratedDisplayName | app/src/main/java/com/example/starplan/ResumeLibraryActivity.java:98 | the title of a generated file holds no '_' |
| ResumeLibrary.PlainDisplayName | app/src/main/java/com/example/starplan/ResumeLibraryActivity.java:98 | a file name with neither '_' nor ".docx" is its own title |
| ResumeLibrary.DisplayNameSubstitutes | app/src/main/java/com/example/starplan/ResumeLibraryActivity.java:98 | for a file name without ".docx", the title has the same length, each '_' becomes a space and every other char is kept |
| ResumeLibrary.FileTypeOf | app/src/main/java/com/example/starplan/ResumeLibraryActivity.java:100 | the file type is "pdf" exactly when the name ends with ".pdf", otherwise "docx" |
| ResumeLibrary.GeneratedResume | app/src/main/java/com/example/starplan/ResumeLibraryActivity.java:96-110 | a generated entry has id "gen_" + hash, the title followed by " Resume" as name, the file name and path, "Generated " + date, the derived type, industry "Generated Resume", and is active |
| ResumeLibrary.GeneratedEntriesSound | app/src/main/java/com/example/starplan/ResumeLibraryActivity.java:95-114 | there is one generated entry per regular file and every entry comes from a regular file of the listing |
| ResumeLibrary.GeneratedEntriesAppend | app/src/main/java/com/example/starplan/ResumeLibraryActivity.java:95-114 | entries follow the listing order: a listing split in two gives the entries of each part in turn |
| ResumeLibrary.GeneratedEntries | app/src/main/java/com/example/starplan/ResumeLibraryActivity.java:95-114 | never more entries than directory entries, and none for a listing without regular files |
| ResumeLibrary.DemoResumes | app/src/main/java/com/example/starplan/ResumeLibraryActivity.java:52-80 | three demo entries, ids "1", "2", "3", all PDF, without thumbnail, active |
| ResumeLibrary.LibraryEntries | app/src/main/java/com/example/starplan/ResumeLibraryActivity.java:45-85 | the list ends with the three demo entries, and is exactly them when the folder cannot be listed |
| ResumeLibrary.LibraryEntriesShape | app/src/main/java/com/example/starplan/ResumeLibraryActivity.java:45-85 | the list is exactly the generated entries followed by the three demos (ids "1", "2", "3"); a missing folder leaves only the demos |
| ResumeLibrary.LibraryNav | app/src/main/java/com/example/starplan/ResumeLibraryActivity.java:119-140 | home and résumé items are selected, the others not; exactly home starts the home screen, and this screen is finished exactly then; dashboard and profile show their "Coming Soon" toasts and every other item shows none |
| ResumeLibrary.ResumeLibraryActivity.LoadGeneratedResumes | app/src/main/java/com/example/starplan/ResumeLibraryActivity.java:87-117 | appends the generated entries of a readable folder to the list, nothing for a missing one |
| ResumeLibrary.ResumeLibraryActivity.LoadMockResumeData | app/src/main/java/com/example/starplan/ResumeLibraryActivity.java:45-85 | rebuilds the list from scratch: generated entries first, then the demos |
| ResumeLibrary.ResumeLibraryActivity.constructor | app/src/main/java/com/example/starplan/ResumeLibraryActivity.java:46 | the list starts empty, as `new ArrayList<>()` |
| ResumeBuilder.Toggled | app/src/main/java/com/example/starplan/ResumeBuilderActivity.java:82-92 | a card flips its visibility, with the icon at 180 degrees when expanded and 0 when collapsed |
| ResumeBuilder.ToggleTwice | app/src/main/java/com/example/starplan/ResumeBuilderActivity.java:82-92 | toggling twice restores the visibility, and the whole state once icon and visibility agree |
| ResumeBuilder.AddSkill | app/src/main/java/com/example/starplan/ResumeBuilderActivity.java:174-193 | afterwards the text is present ignoring case; the old chips are kept in order; a chip is appended (the text itself, at the end) exactly when none matched ignoring case |
| ResumeBuilder.AddSkillKeepsDistinct | app/src/main/java/com/example/starplan/ResumeBuilderActivity.java:176-192 | adding a skill keeps the chips free of case-insensitive duplicates |
| ResumeBuilder.AddSkillIdempotent | app/src/main/java/com/example/starplan/ResumeBuilderActivity.java:176-184 | adding the same skill again in any letter case changes nothing |
| ResumeBuilder.RemoveAt | app/src/main/java/com/example/starplan/ResumeBuilderActivity.java:191 | removal drops exactly one entry and the rest keep their order |
| ResumeBuilder.RemoveKeepsDistinct | app/src/main/java/com/example/starplan/ResumeBuilderActivity.java:191 | removing a chip keeps the chips free of case-insensitive duplicates |
| ResumeBuilder.AddLanguage | app/src/main/java/com/example/starplan/ResumeBuilderActivity.java:232-279 | afterwards a row carries the tag; old rows are kept; a row tagged with the language showing "L (P)" is appended exactly when no row had that exact tag |
| ResumeBuilder.AddLanguageKeepsDistinct | app/src/main/java/com/example/starplan/ResumeBuilderActivity.java:234-240 | adding a language keeps the row tags distinct |
| ResumeBuilder.RemoveRowKeepsDistinct | app/src/main/java/com/example/starplan/ResumeBuilderActivity.java:274 | removing a row keeps the row tags distinct |
| ResumeBuilder.RowTexts | app/src/main/java/com/example/starplan/ResumeBuilderActivity.java:420-429 | the texts of the rows, one per row, in row order |
| ResumeBuilder.HasExperienceData | app/src/main/java/com/example/starplan/ResumeBuilderActivity.java:343-346 | experience counts as filled exactly when the company field holds a char above U+0020 |
| ResumeBuilder.HasEducationData | app/src/main/java/com/example/starplan/ResumeBuilderActivity.java:348-352 | education counts as filled exactly when the university or the degree field holds a char above U+0020 |
| ResumeBuilder.ValidationErrors | app/src/main/java/com/example/starplan/ResumeBuilderActivity.java:313-352 | no message is reported exactly when the trimmed name and email are non-empty and experience or education has data |
| ResumeBuilder.ValidationErrorsOrder | app/src/main/java/com/example/starplan/ResumeBuilderActivity.java:317-334 | each message is reported exactly when its rule fails, and the messages come in the fixed name, email, section order |
| ResumeBuilder.ErrorText | app/src/main/java/com/example/starplan/ResumeBuilderActivity.java:320-332 | the dialog text is empty exactly without messages; otherwise it starts with "• " and ends with a newline |
| ResumeBuilder.ErrorTextAppend | app/src/main/java/com/example/starplan/ResumeBuilderActivity.java:320-332 | each failed rule adds its own "• message" line at the end of the dialog text |
| ResumeBuilder.ErrorTextLines | app/src/main/java/com/example/starplan/ResumeBuilderActivity.java:314-337 | the dialog text has exactly one line per reported message |
| ResumeBuilder.CollectedData | app/src/main/java/com/example/starplan/ResumeBuilderActivity.java:364-434 | the trimmed name and email, empty address and job title, and the checkbox state are sent |
| ResumeBuilder.CollectedListsRoundTrip | app/src/main/java/com/example/starplan/ResumeBuilderActivity.java:404-431 | the "skills" and "languages" texts split at ", " give back the chip texts and row texts in order (when no entry holds a comma); no chips give "" |
| ResumeBuilder.ResumeBuilderActivity.constructor | app/src/main/java/com/example/starplan/ResumeBuilderActivity.java:137-155 | the builder starts with every card in its layout state, no chips, no rows and all twelve suggestions |
| ResumeBuilder.ResumeBuilderActivity.ToggleSection | app/src/main/java/com/example/starplan/ResumeBuilderActivity.java:82-92 | only the toggled card changes, to its toggled state |
| ResumeBuilder.ResumeBuilderActivity.OnCurrentJobChanged | app/src/main/java/com/example/starplan/ResumeBuilderActivity.java:99-106 | checking sets the to-date to "Present" and disables it; unchecking sets "" and enables it |
| ResumeBuilder.ResumeBuilderActivity.AddSkillChip | app/src/main/java/com/example/starplan/ResumeBuilderActivity.java:174-193 | the chips become AddSkill of the old chips, keeping them duplicate-free |
| ResumeBuilder.ResumeBuilderActivity.OnSkillEditorAction | app/src/main/java/com/example/starplan/ResumeBuilderActivity.java:159-170 | the action is consumed exactly for Done or Enter with non-blank trimmed text; then the trimmed skill is added and the input cleared, otherwise nothing changes |
| ResumeBuilder.ResumeBuilderActivity.OnSuggestionClicked | app/src/main/java/com/example/starplan/ResumeBuilderActivity.java:150-153 | the suggestion's skill is added and that suggestion chip is removed either way |
| ResumeBuilder.ResumeBuilderActivity.RemoveSkillChip | app/src/main/java/com/example/starplan/ResumeBuilderActivity.java:191 | exactly the closed chip is removed |
| ResumeBuilder.ResumeBuilderActivity.AddLanguageItem | app/src/main/java/com/example/starplan/ResumeBuilderActivity.java:232-279 | the rows become AddLanguage of the old rows; an existing tag shows "Language already added" |
| ResumeBuilder.ResumeBuilderActivity.OnAddLanguageClicked | app/src/main/java/com/example/starplan/ResumeBuilderActivity.java:216-228 | with both trimmed inputs non-empty the rows become AddLanguage of the old rows, both inputs are cleared, and "Language already added" is shown exactly when the tag already exists; otherwise only "Please select both language and proficiency" is shown |
| ResumeBuilder.ResumeBuilderActivity.RemoveLanguageRow | app/src/main/java/com/example/starplan/ResumeBuilderActivity.java:274 | exactly the removed row goes |
| ResumeBuilder.ResumeBuilderActivity.ValidateRequiredSections | app/src/main/java/com/example/starplan/ResumeBuilderActivity.java:313-341 | the verdict is "no messages"; when invalid the dialog shows one line per message in order, when valid no dialog is shown |
| ResumeBuilder.ResumeBuilderActivity.CollectResumeData | app/src/main/java/com/example/starplan/ResumeBuilderActivity.java:364-434 | the collected data of the current form, checkbox, chips and rows |
| ResumeBuilder.ResumeBuilderActivity.CreateResume | app/src/main/java/com/example/starplan/ResumeBuilderActivity.java:281-311 | an invalid form sends nothing and shows the validation dialog; a valid one sends the collected data |
| Feedback.ShouldFinishEarly | app/src/main/java/com/example/starplan/FeedbackActivity.java:59-64 | the screen finishes early when the résumé name is null or the job id is -1, and only then |
| Feedback.UsesPdfIcon | app/src/main/java/com/example/starplan/FeedbackActivity.java:74-76 | the PDF icon needs at least four chars, and a name ending in ".pdf" or ".PDF" gets it |
| Feedback.PdfIconIgnoresCase | app/src/main/java/com/example/starplan/FeedbackActivity.java:74-76 | the PDF icon is chosen exactly when the last four chars are ".pdf" ignoring case |
| Feedback.JavaDiv | app/src/main/java/com/example/starplan/FeedbackActivity.java:233 | Java `int` division: the magnitude is the quotient of the magnitudes and the sign follows the operands' signs, except that MIN_VALUE / -1 wraps to MIN_VALUE |
| Feedback.JavaDivTruncates | app/src/main/java/com/example/starplan/FeedbackActivity.java:233 | Java `int` division by a positive divisor rounds toward zero: the Euclidean quotient for non-negative dividends, minus the quotient of the magnitude for negative ones |
| Feedback.Percent | app/src/main/java/com/example/starplan/FeedbackActivity.java:233 | `score * 100 / maxScore` in `int`: for a positive maximum, the floor quotient of the wrapped product when that is non-negative, and at most 0 when the wrapped product is negative |
| Feedback.PercentIsQuotient | app/src/main/java/com/example/starplan/FeedbackActivity.java:233 | for a score whose product by 100 fits in an `int`, the percentage is the quotient of score * 100 by the maximum |
| Feedback.PercentBounds | app/src/main/java/com/example/starplan/FeedbackActivity.java:233 | a score between 0 and the maximum gives a percentage between 0 and 100; a full score gives 100 and a zero score 0 |
| Feedback.PercentWraps | app/src/main/java/com/example/starplan/FeedbackActivity.java:233 | past 21474836 the product wraps: a full score of 21474837 shows as -99 |
| Feedback.SummaryText | app/src/main/java/com/example/starplan/FeedbackActivity.java:232-233 | the summary starts with the percentage in decimal, whose end is the first '%', and ends with the justification |
| Feedback.ParseOverall | app/src/main/java/com/example/starplan/FeedbackActivity.java:222-228 | parsing succeeds exactly when "feedback" is an object whose "overall_score" object has an int "score" and a string "justification"; the maximum defaults to 100 |
| Feedback.DetailSource | app/src/main/java/com/example/starplan/FeedbackActivity.java:236-242 | "detailed_feedback" is used when present, else "feedback", else the list is untouched; a non-object value is a parse error |
| Feedback.FeedbackActivity.constructor | app/src/main/java/com/example/starplan/FeedbackActivity.java:52-81 | a missing résumé name or the -1 job id finishes the screen before any fetch; otherwise the PDF icon follows the name and the fetch starts |
| Feedback.FeedbackActivity.ToggleDetails | app/src/main/java/com/example/starplan/FeedbackActivity.java:118-126 | the list visibility flips and the label is "Hide Details" exactly when the list is visible |
| Feedback.FeedbackActivity.OnPostExecute | app/src/main/java/com/example/starplan/FeedbackActivity.java:216-253 | a null response shows "Failed to get feedback."; a parse error "Failed to parse feedback."; otherwise the bar gets max and score, the summary the percentage and justification, and the adapter the chosen criteria |
| Feedback.FeedbackActivity.ShowFeedback | app/src/main/java/com/example/starplan/FeedbackActivity.java:229-242 | the bar gets the maximum and the score; the summary text; the cards of "detailed_feedback", else of "feedback", else the old cards; a non-object criteria value shows the parse error instead |
| FeedbackCards.Capitalized | app/src/main/java/com/example/starplan/FeedbackAdapter.java:73 | a word with its first char upper-cased and the rest lower-cased, same length |
| FeedbackCards.FormatCriteriaName | app/src/main/java/com/example/starplan/FeedbackAdapter.java:68-77 | the word loop computes the readable label of the key |
| FeedbackCards.CriteriaLabel | app/src/main/java/com/example/starplan/FeedbackAdapter.java:68-77 | the readable name neither starts nor ends with a blank char, and an empty key gives an empty name |
| FeedbackCards.CriteriaLabelNoUnderscore | app/src/main/java/com/example/starplan/FeedbackAdapter.java:69-76 | a formatted criteria name holds no '_' |
| FeedbackCards.CriteriaLabelOfWords | app/src/main/java/com/example/starplan/FeedbackAdapter.java:68-77 | for non-empty words of visible chars other than '_', joined by '_', the label is the capitalised words joined by single spaces |
| FeedbackCards.ParseEntry | app/src/main/java/com/example/starplan/FeedbackAdapter.java:53-62 | an entry yields a card exactly when its value is an object with an int "score" and a string "justification"; the card has the formatted name; "max_score" defaults to 10 |
| FeedbackCards.ParseItemsAppend | app/src/main/java/com/example/starplan/FeedbackAdapter.java:50-63 | entries are read independently: a malformed entry does not stop the ones after it |
| FeedbackCards.ParseItems | app/src/main/java/com/example/starplan/FeedbackAdapter.java:50-63 | there are never more cards than keys |
| FeedbackCards.ParseItemsAllWellFormed | app/src/main/java/com/example/starplan/FeedbackAdapter.java:50-63 | when every entry is well formed there is exactly one card per key, in key order |
| FeedbackCards.FeedbackAdapter.constructor | app/src/main/java/com/example/starplan/FeedbackAdapter.java:22-25 | the adapter starts with no cards |
| FeedbackCards.FeedbackAdapter.GetItemCount | app/src/main/java/com/example/starplan/FeedbackAdapter.java:43-45 | the item count is the number of cards |
| FeedbackCards.FeedbackAdapter.UpdateData | app/src/main/java/com/example/starplan/FeedbackAdapter.java:47-66 | the old cards are dropped; a null object leaves none, otherwise the cards are those of the well-formed entries in key order |
| Api.UserFriendlyError | app/src/main/java/com/example/starplan/ApiService.java:171-188 | each of the six known kinds gets its own message and every other kind the generic one |
| Api.UserFriendlyErrorDistinct | app/src/main/java/com/example/starplan/ApiService.java:171-188 | different known kinds give different messages, none of them the generic one |
| Api.GenerateErrorKind | app/src/main/java/com/example/starplan/ApiService.java:85-87 | a failed generation is "server" exactly for codes of 500 and above, "generation" otherwise |
| Api.GeneratedFileName | app/src/main/java/com/example/starplan/ApiService.java:75-77 | the saved name is "generated_resume_", the timestamp, then ".pdf" |
| Api.GenerateOutcome | app/src/main/java/com/example/starplan/ApiService.java:61-91 | a network failure, a failed status (by kind) and a save failure map to their messages; success gives the saved file name |
| Api.UploadErrorKind | app/src/main/java/com/example/starplan/ApiService.java:130-132 | a failed upload is "invalid_pdf" exactly for code 400, "server" otherwise |
| Api.UploadOutcome | app/src/main/java/com/example/starplan/ApiService.java:97-141 | a request is sent exactly when the file is readable; an unreadable file is "file_read", a network failure "network", success "Resume uploaded successfully!", a failed status its kind |
| Api.FailuresAreSpecific | app/src/main/java/com/example/starplan/ApiService.java:61-141 | every failure of either call reports the message of one of the known kinds, never the generic one |
| JsonModel.Lookup | app/src/main/java/com/example/starplan/FeedbackAdapter.java:54 | the value under a key, absent exactly when no entry has the key |
| JsonModel.GetObject | app/src/main/java/com/example/starplan/FeedbackActivity.java:222 | `getJSONObject`: the nested entries, or the exception when the key is absent or not an object |
| JsonModel.GetInt | app/src/main/java/com/example/starplan/FeedbackAdapter.java:56 | `getInt`: the int value, or the exception when absent or not an int |
| JsonModel.GetString | app/src/main/java/com/example/starplan/FeedbackAdapter.java:58 | `getString`: the string value, or the exception when absent or not a string |
| JsonModel.OptInt | app/src/main/java/com/example/starplan/FeedbackAdapter.java:57 | `optInt`: the int value, or the default when absent or not an int |
| Widgets.IntExtraOr | app/src/main/java/com/example/starplan/JobDetailActivity.java:57 | `getIntExtra`: the value last put under the key when that is an int; the default when it is not an int or no extra has the key |
| Widgets.StringExtraOf | app/src/main/java/com/example/starplan/FeedbackActivity.java:56 | `getStringExtra`: the value last put under the key when that is a string; null when it is not a string or no extra has the key |
| Widgets.PickedUri | app/src/main/java/com/example/starplan/ResumeLibraryActivity.java:159-169 | a picked URI is handed on exactly for the screen's request code and RESULT_OK, with non-null data |
| Widgets.ChipGroup.RemoveAllViews | app/src/main/java/com/example/starplan/JobDetailActivity.java:122 | the group is left without children |
| Widgets.ChipGroup.AddView | app/src/main/java/com/example/starplan/JobDetailActivity.java:131 | the chip is appended after the existing children |
| Widgets.ChipGroup.constructor | app/src/main/java/com/example/starplan/JobAdapter.java:100 | a chip group starts without children |
| Backend.FirstListing | backend/app.py:45-47 | the index of a listing with the id, with no earlier listing having it; None when none has it |
| Backend.LookupJob | backend/app.py:38-50 | the first listing with an equal id is returned as text; None when none matches; the load-error variant exactly when the file cannot be loaded |
| Backend.LookupFirstMatch | backend/app.py:45-47 | with several listings for one id the first is returned |
| Backend.ParseJobId | backend/app.py:109 | `int(text)` for an optional sign and ASCII decimal digits, `None` for every other text; a parse only succeeds on non-empty text |
| Backend.ParseJobIdRoundTrip | backend/app.py:109 | the decimal text of any id, as the app sends it, parses back to that id |
| Backend.StatusCode | backend/app.py:106-111 | a bad request is 400, an unknown job 404, a server error 500 |
| Backend.JobCheckAsWritten | backend/app.py:109-111 | as written, every lookup result except "not found" lets the request proceed |
| Backend.LoadFailureProceeds | backend/app.py:48-49 | as written, a listings file that fails to load lets the request proceed with the error tuple as job description |
| Backend.JobCheck | backend/app.py:109-111 | corrected: a load failure is a 500, an unknown job a 404, a found job proceeds with its text; the same as written whenever the file loads |
| Backend.FormGate | backend/app.py:103-111 | /get_feedback and /upload as written: a missing or empty id or a missing file is a 400; a 500 exactly when the id is not an integer; otherwise the answer is exactly the as-written job check of the parsed id, so a load failure of the listings goes on with the error tuple |
| Backend.FormGateCorrected | backend/app.py:103-111 | corrected: the same answer as written whenever the listings load; where the as-written gate proceeds on a load failure it answers 500; it never proceeds with the error tuple |
| Backend.FormGateLoadFailure | backend/app.py:109-111 | with the listings file missing, the id the app sends proceeds with the error tuple as written and gets 500 once corrected |
| Backend.FormGateRejectsBeforeLookup | backend/app.py:106-107 | a missing id or file is refused with 400 whatever the listings hold |
| Backend.UnknownJobIs404 | backend/app.py:178-180 | an id the app sends, for a job not in the listings, is answered with 404 |
| Backend.ListedJobProceeds | backend/app.py:103-111 | the id the app sends, for a listed job, gets through with the JSON text of the first listing with that id |
| Backend.SubmitGate | backend/app.py:216-224 | /submit_data as written: 400 exactly when "job_id" is falsy; a 500 exactly when `int()` raises; otherwise the answer is exactly the as-written job check of `int(job_id)`, so a load failure of the listings goes on with the error tuple |
| Backend.SubmitGateCorrected | backend/app.py:216-224 | corrected: the same answer as written whenever the listings load; where the as-written gate proceeds on a load failure it answers 500; it never proceeds with the error tuple |
| Backend.SubmitGateLoadFailure | backend/app.py:222-224 | with the listings file missing, a usable id proceeds with the error tuple as written and gets 500 once corrected |
| Backend.SubmitUnknownJobIs404 | backend/app.py:222-224 | a usable id of a job not in the listings is answered with 404 |
| Backend.SubmitListedJobProceeds | backend/app.py:216-224 | a usable id of a listed job gets through with the JSON text of the first listing with that id |
| Backend.PyToInt | backend/app.py:222 | Python `int()` on a JSON value: ints as is, booleans as 0 or 1, None and other values raise |
| Backend.GenerateText | backend/app.py:58-67 | the text of an uploaded ".pdf" file, else the dumped JSON body, else nothing |
| Backend.GenerateGate | backend/app.py:69-70 | /generate_resume answers 400 with its message exactly when there is no text, and otherwise goes on with no job description |
| Backend.OrNA | backend/app.py:236-243 | an absent field is rendered as "N/A", a present one as its value |
| Backend.AppendExperience | backend/app.py:247-249 | the experience loop appends the two lines of each experience in order |
| Backend.AppendEducation | backend/app.py:254-255 | the education loop appends one "- degree at university" line per education |
| Backend.AppendItems | backend/app.py:260-267 | the skills and languages loops append one "- x" line per entry |
| Backend.ResumeText | backend/app.py:234-267 | the text opens with the personal-information and objective block and ends with the "Languages:" heading and the language lines |
| Backend.BuildResumeText | backend/app.py:234-267 | the built text is the opening followed by each section's heading and lines |
| Backend.OpeningLines | backend/app.py:234-246 | with single-line values the fixed opening holds 12 line breaks |
| Backend.AllExperienceLines | backend/app.py:247-249 | each experience adds exactly two lines |
| Backend.AllEducationLines | backend/app.py:254-255 | each education adds exactly one line |
| Backend.AllItemsLines | backend/app.py:260-267 | each skill or language adds exactly one line |
| Backend.ResumeTextLineCount | backend/app.py:234-267 | with single-line values the text has 18 + 2e + n + k + l line breaks for e experiences, n educations, k skills, l languages |
| Backend.SkillLinesInOrder | backend/app.py:257-261 | one more skill adds exactly its own line after the other skills, before the languages heading |
| JString.Trim | app/src/main/java/com/example/starplan/ApplyFormActivity.java:54-56 | `trim()`: never longer than the text, and a non-empty result neither starts nor ends with a char at or below U+0020 |
| JString.EqualsIgnoreCase | app/src/main/java/com/example/starplan/ResumeBuilderActivity.java:180 | `equalsIgnoreCase`: same length and the same chars after lower-casing, position by position |
| JString.IndexOf | app/src/main/java/com/example/starplan/Resume.java:28 | `indexOf(c)`: the first index holding c, or -1 exactly when c is absent |
| JString.LastIndexOf | app/src/main/java/com/example/starplan/ResumeUploadActivity.java:128 | `lastIndexOf(c)`: the last index holding c, or -1 exactly when c is absent |
| JString.ReplaceAll | app/src/main/java/com/example/starplan/ResumeLibraryActivity.java:98 | `replace(target, replacement)`: text in which the target never occurs is returned unchanged |
| JString.JavaSplitChar | app/src/main/java/com/example/starplan/FeedbackAdapter.java:69 | `split` on a one-char pattern: text without the char is one piece; no piece holds the char; trailing empty pieces are dropped |
| JString.JavaSplitSpaces | app/src/main/java/com/example/starplan/Job.java:27 | `split("\\s+")`: text without whitespace is one piece, and no piece holds whitespace |
| JString.IntToString | app/src/main/java/com/example/starplan/FeedbackActivity.java:190 | `String.valueOf(int)`: non-empty, starting with '-' exactly for a negative value, all other chars decimal digits |
| Flows.ApplyFlowLosesJobId | app/src/main/java/com/example/starplan/ApplyFormActivity.java:84-88 | the apply form starts the upload screen without a job id, so the upload screen holds -1 and the feedback screen it starts finishes at once |
| Flows.GeneratedResumeListedAsPdf | app/src/main/java/com/example/starplan/ApiService.java:77 | a résumé saved by the generate call is listed in the library as a PDF |

## Left out

- Networking, threading and callbacks: the OkHttp calls, `HttpURLConnection`, `AsyncTask` and UI-thread posting. A reply is a parameter: `Api.Reply`, the response object handed to `onPostExecute`, or the list fetched for the upload screen.
- File and asset I/O: reading `job_listings.json`, the app's `resumes` folder, saving a response body, creating the dummy upload file. These are parameters: the parsed listing, the directory listing, whether saving succeeded.
- JSON and Gson parsing itself. Parsed objects are datatypes. Gson returning null for an empty assets file is not modelled, and neither are duplicate keys.
- JsonModel.GetInt, JsonModel.GetString: org.json's coercions are not modelled. `getInt` also reads numeric strings and truncates doubles, and `getString` also renders numbers and booleans as text; here both fail on a value of another kind.
- Timestamps and dates: the generated file's timestamp and the library's "MMM dd, yyyy" label are given as text.
- The email pattern `android.util.Patterns.EMAIL_ADDRESS` is not visible to the model. It is the parameter `matches`.
- Locale-sensitive `toUpperCase`/`toLowerCase`: only ASCII letters change case.
- Display-only code: dialogs, their buttons, layout parameters, colours other than the card palette, view inflation, the random avatar colour of the detail screen, the progress dialog, the dropdown lists, the company and AI-summary paragraph texts (only the summary's skill word is modelled), and `ProgressBar` clamping of the score.
- The résumé list adapter of the upload screen is not part of this model. The selected position it holds is the `selected` field of `ResumeUpload.ResumeUploadActivity`. The model assumes that refreshing its list clears the selection.
- The feedback screen's cover-letter and next buttons only show placeholder toasts, and are not modelled. The body of its background task is left out: the dummy file, the multipart request, and the logging.
- The backend's calls to the language model, `pdfplumber` text extraction, `DocxTemplate` rendering (`save_to_word`) and the Flask request and response objects. Extracted PDF text and the dumped JSON body are parameters. A request that passes the checks is `Proceed`.
- Backend.PyToInt, Backend.ParseJobId, Backend.FormGate, Backend.SubmitGate: Python `int()` on strings is modelled for an optional sign and ASCII digits only. Surrounding whitespace, `_` separators between digits, other Unicode digits and float values are not modelled: such an id parses in Python, while here it is rejected and the gates answer 500.
- Backend.ResumeText: submitted values are taken as already rendered text. Python's `str()` of nested lists and objects is not modelled. The line count is stated for single-line values.
- Backend.ResumeText: only well-shaped /submit_data bodies are represented. The résumé text is built after the job check and outside the `try` (app.py:226-267), so each of the following raises an unhandled exception, which Flask answers with 500: `"personal_info": null` or `"objective": null` (`.get` on `None`); null or a number under "experience", "education", "skills" or "languages" (iterating `None` or an int); and an experience or education element that is not an object (`.get` on it). A body that is not a JSON object already fails at `data.get` (app.py:217). A string under "skills" or "languages" is iterated character by character, giving one `- c` line per character. None of these is modelled.
- Feedback.FeedbackActivity.OnPostExecute: requires a non-zero maximum score. A zero maximum makes `score * 100 / maxScore` throw an `ArithmeticException`, which is not caught.
- Feedback.FeedbackActivity.ShowFeedback: requires a non-zero maximum score, for the same reason.
- Feedback.SummaryText: the percentage is written with ASCII digits. `String.format(Locale.getDefault(), "%d%% …")` at FeedbackActivity.java:232-233 writes the default locale's own digits (Arabic-Indic digits, for example), which the model does not capture.
- Backend.LookupJob: a listing's "id" matches only when it is an integer. Python's `job.get('id') == job_id` at app.py:46 also matches a float id such as `1.0` or the boolean `True` to the id 1; such listings never match here (`ListedJob.id` is `None` for them).
- JobModel.CompanyInitials: requires that the call does not throw. A company starting with whitespace makes `substring` throw. `JobModel.InitialsDefinedIff` characterises the excluded case exactly.
- JobModel.CompanyInitials, JobCards.JobAdapter.OnBindViewHolder, JobDetail.JobDetailActivity.PopulateJobDetails: a `char` here is a Unicode code point, while Java's `length()` and `substring()` count UTF-16 units. The initials therefore differ for companies with characters outside the Basic Multilingual Plane. For U+1F600 followed by "x", Job.java:29 keeps only the emoji (its two units), while the model gives the emoji followed by "X". For U+1F600 followed by " Corp", Job.java:31 takes a lone high surrogate followed by "C", which the model cannot represent.
- JString.IndexOf, JString.LastIndexOf: indices and lengths count code points, not UTF-16 units. Each caller uses them with a substring in the same units, so the results agree with Java's except where the text holds characters outside the Basic Multilingual Plane.
- ResumeModel.DisplayName: requires that the call does not throw, i.e. a null name with a created date made only of '-'. `ResumeModel.DisplayNameDefinedIff` characterises it.
- JobDetail.FindJob: requires a non-empty job list, because `jobs.get(0)` throws on an empty one.
- JobDetail.JobDetailActivity.LoadJobData, JobDetail.JobDetailActivity.PopulateJobDetails: the requires exclude the two inputs on which the detail screen crashes. The first is an empty parsed listing: `orElse(jobs.get(0))` at JobDetailActivity.java:77-80 evaluates `get(0)` eagerly, and the `IndexOutOfBoundsException` is not caught by the `IOException` handler. The second is a shown job whose company starts with whitespace, where the initials' `substring` throws.
- JobCards.JobAdapter.OnBindViewHolder: requires that the card's company initials are defined, for the same reason as `CompanyInitials`.

## Findings

| source | as written | input that shows it | evidently intended | confidence | as-written member | corrected member |
|---|---|---|---|---|---|---|
| backend/app.py:48-49,110-111 | when `job_listings.json` is missing or invalid, `get_job_description_by_id` returns the tuple `(error response, 500)`, which is truthy, so `if not job_desc` lets the request go on with that tuple as the job description | any request with a well-formed job id while the listings file is missing | answer 500 when the listings cannot be loaded | not executed | Backend.JobCheckAsWritten, Backend.LoadFailureProceeds, Backend.FormGate, Backend.SubmitGate, Backend.FormGateLoadFailure, Backend.SubmitGateLoadFailure | Backend.JobCheck, Backend.FormGateCorrected, Backend.SubmitGateCorrected |

=== FILE: api_service.dfy ===
/**
 * The HTTP client's decisions: which error kind a response maps to, the
 * message shown for each kind, and the name a generated résumé is saved under.
 */
module Api {
  import opened JString

  const NetworkMessage := "Unable to connect. Please check your internet connection and try again."
  const ServerMessage := "Server error occurred. Please try again later."
  const GenerationMessage := "Resume generation failed. Please check your information and try again."
  const InvalidPdfMessage := "Invalid PDF file. Please select a valid PDF document."
  const FileReadMessage := "Unable to read the selected file. Please try again."
  const SaveFileMessage := "Error saving resume. Please try again."
  const DefaultError := "An unexpected error occurred. Please try again."

  /** The error kinds the client names. */
  const KnownErrors: set<string> := {"network", "server", "generation", "invalid_pdf", "file_read", "save_file"}

  /** `getUserFriendlyError`: the message for an error kind; unknown kinds get a generic message. */
  function UserFriendlyError(errorType: string): (m: string)
    ensures errorType == "network" ==> m == NetworkMessage
    ensures errorType == "server" ==> m == ServerMessage
    ensures errorType == "generation" ==> m == GenerationMessage
    ensures errorType == "invalid_pdf" ==> m == InvalidPdfMessage
    ensures errorType == "file_read" ==> m == FileReadMessage
    ensures errorType == "save_file" ==> m == SaveFileMessage
    ensures errorType !in KnownErrors ==> m == DefaultError
  {
    match errorType
    case "network" => NetworkMessage
    case "server" => ServerMessage
    case "generation" => GenerationMessage
    case "invalid_pdf" => InvalidPdfMessage
    case "file_read" => FileReadMessage
    case "save_file" => SaveFileMessage
    case _ => DefaultError
  }

  /** The messages have pairwise different lengths: 71, 46, 70, 53, 51, 38 and 47 chars. */
  lemma MessageLengths()
    ensures |NetworkMessage| == 71 && |ServerMessage| == 46 && |GenerationMessage| == 70
    ensures |InvalidPdfMessage| == 53 && |FileReadMessage| == 51 && |SaveFileMessage| == 38
    ensures |DefaultError| == 47
  {
  }

  /** Different known kinds show different messages, and none shows the generic one. */
  lemma UserFriendlyErrorDistinct(a: string, b: string)
    requires a in KnownErrors && b in KnownErrors && a != b
    ensures UserFriendlyError(a) != UserFriendlyError(b)
    ensures UserFriendlyError(a) != DefaultError
  {
    MessageLengths();
  }

  /** What came back for a request: a transport failure, or a response with its status code. */
  datatype Reply = NetworkFailure | Response(code: int)

  /** OkHttp's `isSuccessful`: a 2xx status. */
  predicate IsSuccessful(code: int) {
    200 <= code < 300
  }

  /** What the callback receives: success with a value, or an error message. */
  datatype Outcome = Success(value: string) | Failure(message: string)

  /** The error kind of a failed generation response. */
  function GenerateErrorKind(code: int): (kind: string)
    ensures kind == "server" <==> code >= 500
    ensures kind in KnownErrors
  {
    if code >= 500 then "server" else "generation"
  }

  /** The file a generated résumé is saved as. */
  function GeneratedFileName(timestamp: string): (name: string)
    ensures |name| == |timestamp| + 21
    ensures name[..17] == "generated_resume_" && name[17..|name| - 4] == timestamp
    ensures EndsWith(name, ".pdf")
  {
    "generated_resume_" + timestamp + ".pdf"
  }

  /**
   * `generateResume`'s callback, given the reply, the formatted timestamp and
   * whether saving the body succeeded: the saved file's name, or an error message.
   */
  function GenerateOutcome(reply: Reply, timestamp: string, saved: bool): (o: Outcome)
    ensures reply.NetworkFailure? ==> o == Failure(UserFriendlyError("network"))
    ensures reply.Response? && !IsSuccessful(reply.code) ==>
      o == Failure(UserFriendlyError(if reply.code >= 500 then "server" else "generation"))
    ensures reply.Response? && IsSuccessful(reply.code) ==>
      o == if saved then Success(GeneratedFileName(timestamp)) else Failure(UserFriendlyError("save_file"))
  {
    match reply
    case NetworkFailure => Failure(UserFriendlyError("network"))
    case Response(code) =>
      if IsSuccessful(code) then
        if saved then Success(GeneratedFileName(timestamp)) else Failure(UserFriendlyError("save_file"))
      else Failure(UserFriendlyError(GenerateErrorKind(code)))
  }

  /** What opening and reading the picked file gave: a null stream, a read error, or the bytes. */
  datatype FileInput = NullStream | ReadError | Readable

  /** The result of `uploadPdf`: whether a request was sent, and what the callback received. */
  datatype UploadResult = UploadResult(sent: bool, outcome: Outcome)

  /** The error kind of a failed upload response. */
  function UploadErrorKind(code: int): (kind: string)
    ensures kind == "invalid_pdf" <==> code == 400
    ensures kind in KnownErrors
  {
    if code == 400 then "invalid_pdf" else "server"
  }

  /**
   * `uploadPdf`: an unreadable file fails before any request; otherwise the
   * reply decides. `reply` is ignored when no request is sent.
   */
  function UploadOutcome(input: FileInput, reply: Reply): (r: UploadResult)
    ensures r.sent <==> input.Readable?
    ensures !input.Readable? ==> r.outcome == Failure(UserFriendlyError("file_read"))
    ensures input.Readable? && reply.NetworkFailure? ==> r.outcome == Failure(UserFriendlyError("network"))
    ensures input.Readable? && reply.Response? ==>
      r.outcome == if IsSuccessful(reply.code) then Success("Resume uploaded successfully!")
                   else Failure(UserFriendlyError(if reply.code == 400 then "invalid_pdf" else "server"))
  {
    if !input.Readable? then UploadResult(false, Failure(UserFriendlyError("file_read")))
    else match reply
      case NetworkFailure => UploadResult(true, Failure(UserFriendlyError("network")))
      case Response(code) =>
        if IsSuccessful(code) then UploadResult(true, Success("Resume uploaded successfully!"))
        else UploadResult(true, Failure(UserFriendlyError(UploadErrorKind(code))))
  }

  /** Every error either call reports is one of the specific messages, never the generic one. */
  lemma FailuresAreSpecific(reply: Reply, timestamp: string, saved: bool, input: FileInput)
    ensures GenerateOutcome(reply, timestamp, saved).Failure? ==>
      exists k :: k in KnownErrors && GenerateOutcome(reply, timestamp, saved).message == UserFriendlyError(k)
    ensures GenerateOutcome(reply, timestamp, saved).Failure? ==>
      GenerateOutcome(reply, timestamp, saved).message != DefaultError
    ensures UploadOutcome(input, reply).outcome.Failure? ==>
      exists k :: k in KnownErrors && UploadOutcome(input, reply).outcome.message == UserFriendlyError(k)
    ensures UploadOutcome(input, reply).outcome.Failure? ==>
      UploadOutcome(input, reply).outcome.message != DefaultError
  {
    var g := GenerateOutcome(reply, timestamp, saved);
    if g.Failure? {
      var k := if reply.NetworkFailure? then "network"
               else if IsSuccessful(reply.code) then "save_file"
               else GenerateErrorKind(reply.code);
      assert g.message == UserFriendlyError(k);
      UserFriendlyErrorDistinct(k, if k == "network" then "server" else "network");
    }
    var u := UploadOutcome(input, reply).outcome;
    if u.Failure? {
      var k := if !input.Readable? then "file_read"
               else if reply.NetworkFailure? then "network"
               else UploadErrorKind(reply.code);
      assert u.message == UserFriendlyError(k);
      UserFriendlyErrorDistinct(k, if k == "network" then "server" else "network");
    }
  }
}

=== FILE: apply_form.dfy ===
/** The apply form: three required contact fields checked together before moving on to the upload screen. */
module ApplyForm {
  import opened Wrappers
  import opened JString
  import opened Widgets

  /** The name field's error for the raw text typed: required after trimming. */
  function NameError(name: string): (e: Option<string>)
    ensures e.None? <==> Trim(name) != ""
    ensures e.Some? ==> e.value == "Name is required"
  {
    if Trim(name) == "" then Some("Name is required") else None
  }

  /**
   * The email field's error. `matches` stands for the platform's email
   * address pattern, which is consulted only for a non-empty trimmed email.
   */
  function EmailError(email: string, matches: string -> bool): (e: Option<string>)
    ensures Trim(email) == "" ==> e == Some("Email is required")
    ensures Trim(email) != "" && !matches(Trim(email)) ==> e == Some("Enter a valid email address")
    ensures e.None? <==> Trim(email) != "" && matches(Trim(email))
  {
    var t := Trim(email);
    if t == "" then Some("Email is required")
    else if !matches(t) then Some("Enter a valid email address")
    else None
  }

  /** The contact number field's error: required after trimming. */
  function ContactError(contact: string): (e: Option<string>)
    ensures e.None? <==> Trim(contact) != ""
    ensures e.Some? ==> e.value == "Contact number is required"
  {
    if Trim(contact) == "" then Some("Contact number is required") else None
  }

  /** The form may move on: every trimmed field is non-empty and the email matches the pattern. */
  predicate FormValid(name: string, email: string, contact: string, matches: string -> bool) {
    Trim(name) != "" && Trim(email) != "" && matches(Trim(email)) && Trim(contact) != ""
  }

  /**
   * A field made only of spaces and control characters is rejected like an
   * empty one, and a field with any visible character passes the required check.
   */
  lemma BlankFieldRejected(text: string, matches: string -> bool)
    ensures (forall i :: 0 <= i < |text| ==> IsTrimmable(text[i])) <==> NameError(text).Some?
    ensures (forall i :: 0 <= i < |text| ==> IsTrimmable(text[i])) <==> ContactError(text).Some?
    ensures (forall i :: 0 <= i < |text| ==> IsTrimmable(text[i])) ==>
      EmailError(text, matches) == Some("Email is required")
  {
    TrimFacts(text);
  }

  /** The apply form's fields, their error labels and what the next button started. */
  class ApplyFormActivity {
    var nameText: string
    var emailText: string
    var contactText: string
    var nameError: Option<string>
    var emailError: Option<string>
    var contactError: Option<string>
    /** The intents started so far, oldest first. */
    var started: seq<Intent>
    var toast: Option<string>

    constructor ()
      ensures nameText == "" && emailText == "" && contactText == ""
      ensures nameError == None && emailError == None && contactError == None
      ensures started == [] && toast == None
    {
      nameText, emailText, contactText := "", "", "";
      nameError, emailError, contactError := None, None, None;
      started, toast := [], None;
    }

    /**
     * `handleNextButtonClick`: every field is checked on every click, each
     * passing field has its error cleared, and the upload screen is started,
     * with no extras, exactly when all three pass.
     */
    method HandleNextButtonClick(matches: string -> bool)
      modifies this`nameError, this`emailError, this`contactError, this`started, this`toast
      ensures nameError == NameError(nameText)
      ensures emailError == EmailError(emailText, matches)
      ensures contactError == ContactError(contactText)
      ensures FormValid(nameText, emailText, contactText, matches) ==>
        started == old(started) + [Intent(ResumeUploadScreen, [])] && toast == old(toast)
      ensures !FormValid(nameText, emailText, contactText, matches) ==>
        started == old(started) && toast == Some("Please correct the errors.")
    {
      var name := Trim(nameText);
      var email := Trim(emailText);
      var contactNo := Trim(contactText);
      var isValid := true;

      if name == "" {
        nameError := Some("Name is required");
        isValid := false;
      } else {
        nameError := None;
      }

      if email == "" {
        emailError := Some("Email is required");
        isValid := false;
      } else if !matches(email) {
        emailError := Some("Enter a valid email address");
        isValid := false;
      } else {
        emailError := None;
      }

      if contactNo == "" {
        contactError := Some("Contact number is required");
        isValid := false;
      } else {
        contactError := None;
      }

      if isValid {
        started := started + [Intent(ResumeUploadScreen, [])];
      } else {
        toast := Some("Please correct the errors.");
      }
    }
  }
}

=== FILE: backend.dfy ===
/**
 * The Flask backend's own logic: reading the job id of a request, looking the
 * job up in the listings file, the order in which the endpoints reject a
 * request, and the plain-text résumé that /submit_data builds.
 */
module Backend {
  import opened Wrappers
  import opened JString

  // ------------------------------------------------------------ job lookup

  /** A listing of job_listings.json: its "id" (None when absent or not an integer) and its `json.dumps` text. */
  datatype ListedJob = ListedJob(id: Option<int>, dumped: string)

  /** What `get_job_description_by_id` returns: the job's JSON text, None, or the (error response, 500) tuple. */
  datatype Lookup = Found(desc: string) | NotFound | LoadFailed

  /** The index of the first listing whose id equals `jobId`. */
  function FirstListing(jobs: seq<ListedJob>, jobId: int): (k: Option<nat>)
    ensures k.Some? ==> k.value < |jobs| && jobs[k.value].id == Some(jobId)
    ensures k.Some? ==> forall j :: 0 <= j < k.value ==> jobs[j].id != Some(jobId)
    ensures k.None? ==> forall j :: 0 <= j < |jobs| ==> jobs[j].id != Some(jobId)
  {
    if jobs == [] then None
    else if jobs[0].id == Some(jobId) then Some(0)
    else
      var k := FirstListing(jobs[1..], jobId);
      if k.None? then None else Some(k.value + 1)
  }

  /**
   * `get_job_description_by_id`, given the parsed listings file (`None` when
   * the file is missing or is not valid JSON).
   */
  function LookupJob(listing: Option<seq<ListedJob>>, jobId: int): (r: Lookup)
    ensures listing.None? <==> r.LoadFailed?
    ensures r.Found? ==> exists i :: 0 <= i < |listing.value| && listing.value[i].id == Some(jobId) &&
                                    r.desc == listing.value[i].dumped &&
                                    forall j :: 0 <= j < i ==> listing.value[j].id != Some(jobId)
    ensures r.NotFound? <==> listing.Some? && forall j :: 0 <= j < |listing.value| ==> listing.value[j].id != Some(jobId)
  {
    if listing.None? then LoadFailed
    else
      var k := FirstListing(listing.value, jobId);
      if k.None? then NotFound else Found(listing.value[k.value].dumped)
  }

  /** With several listings for one id, the first one is returned. */
  lemma LookupFirstMatch(jobs: seq<ListedJob>, jobId: int, i: nat)
    requires i < |jobs| && jobs[i].id == Some(jobId)
    requires forall j :: 0 <= j < i ==> jobs[j].id != Some(jobId)
    ensures LookupJob(Some(jobs), jobId) == Found(jobs[i].dumped)
  {
    var k := FirstListing(jobs, jobId);
    assert k.Some?;
  }

  // ---------------------------------------------------------- job id text

  predicate IsDigit(c: char) {
    '0' <= c <= '9'
  }

  predicate AllDigits(s: string) {
    forall i :: 0 <= i < |s| ==> IsDigit(s[i])
  }

  function DigitsValue(s: string): nat
    requires AllDigits(s)
  {
    if s == [] then 0 else DigitsValue(s[..|s| - 1]) * 10 + (s[|s| - 1] as int - '0' as int)
  }

  /**
   * Python's `int(text)` on a form field, restricted to an optional sign
   * followed by ASCII decimal digits: `None` for every other text, including
   * padded or underscored numbers that Python accepts.
   */
  function ParseJobId(s: string): (r: Option<int>)
    ensures r.Some? ==> s != []
  {
    if s != [] && (s[0] == '-' || s[0] == '+') then
      var digits := s[1..];
      if digits != [] && AllDigits(digits) then
        var v: int := DigitsValue(digits);
        Some(if s[0] == '-' then -v else v)
      else None
    else if s != [] && AllDigits(s) then Some(DigitsValue(s))
    else None
  }

  lemma DigitCharValue(d: nat)
    requires d < 10
    ensures IsDigit(DigitChar(d)) && DigitChar(d) as int - '0' as int == d
  {
  }

  lemma {:induction false} NatToStringDigits(n: nat)
    ensures AllDigits(NatToString(n)) && DigitsValue(NatToString(n)) == n
    decreases n
  {
    DigitCharValue(n % 10);
    if n >= 10 {
      NatToStringDigits(n / 10);
      var s := NatToString(n);
      assert s[..|s| - 1] == NatToString(n / 10);
    }
  }

  /** The job id the app sends as `String.valueOf(id)` reads back as that id. */
  lemma ParseJobIdRoundTrip(i: int)
    ensures ParseJobId(IntToString(i)) == Some(i)
  {
    if i < 0 {
      var n: nat := -i;
      assert IntToString(i) == "-" + NatToString(n);
      ParseNegative(n);
    } else {
      var n: nat := i;
      assert IntToString(i) == NatToString(n);
      ParseNonNegative(n);
    }
  }

  lemma ParseNegative(n: nat)
    ensures ParseJobId("-" + NatToString(n)) == Some(-(n as int))
  {
    var digits := NatToString(n);
    NatToStringDigits(n);
    var s := "-" + digits;
    assert s[0] == '-' && s[1..] == digits;
    assert IsDigit(digits[0]);
    var v: int := DigitsValue(digits);
    assert ParseJobId(s) == Some(-v);
  }

  lemma ParseNonNegative(n: nat)
    ensures ParseJobId(NatToString(n)) == Some(n)
  {
    var s := NatToString(n);
    NatToStringDigits(n);
    assert IsDigit(s[0]);
    assert ParseJobId(s) == Some(DigitsValue(s));
  }

  // ---------------------------------------------------------------- gates

  /**
   * The job description a request goes on with: the job's JSON text, (as
   * written) the error tuple, or none for /generate_resume, which looks up no job.
   */
  datatype JobDesc = JobJson(text: string) | ErrorTuple | NoJob

  /** How an endpoint handles a request before the language-model call. */
  datatype Gate = BadRequest(error: string) | JobNotFound | ServerError | Proceed(jobDesc: JobDesc)

  /** The status code of a request that stops at the gate. */
  function StatusCode(g: Gate): (code: int)
    requires !g.Proceed?
    ensures g.BadRequest? <==> code == 400
    ensures g.JobNotFound? <==> code == 404
    ensures g.ServerError? <==> code == 500
  {
    match g
    case BadRequest(_) => 400
    case JobNotFound => 404
    case ServerError => 500
  }

  /**
   * The job check as the endpoints run it: `if not job_desc` is false for
   * the error tuple, so a listings file that fails to load lets the request
   * go on with that tuple as its job description.
   */
  function JobCheckAsWritten(listing: Option<seq<ListedJob>>, jobId: int): (g: Gate)
    ensures g.Proceed? <==> !LookupJob(listing, jobId).NotFound?
  {
    match LookupJob(listing, jobId)
    case Found(desc) => Proceed(JobJson(desc))
    case NotFound => JobNotFound
    case LoadFailed => Proceed(ErrorTuple)
  }

  /** A missing or unreadable listings file is answered as found, and the error tuple reaches the prompt. */
  lemma LoadFailureProceeds(jobId: int)
    ensures JobCheckAsWritten(None, jobId) == Proceed(ErrorTuple)
  {
  }

  /** The job check as evidently intended: the lookup's error becomes a 500 response. */
  function JobCheck(listing: Option<seq<ListedJob>>, jobId: int): (g: Gate)
    ensures g.ServerError? <==> listing.None?
    ensures g.JobNotFound? <==> LookupJob(listing, jobId).NotFound?
    ensures g.Proceed? ==> g.jobDesc == JobJson(LookupJob(listing, jobId).desc)
    ensures listing.Some? ==> g == JobCheckAsWritten(listing, jobId)
  {
    match LookupJob(listing, jobId)
    case Found(desc) => Proceed(JobJson(desc))
    case NotFound => JobNotFound
    case LoadFailed => ServerError
  }

  /**
   * /get_feedback and /upload as written: `jobIdField` is the "job_id" form
   * field, `hasFile` whether a "resume" file with a name was sent. Python's
   * `int()` raising on a malformed id is an unhandled error, a 500.
   */
  function FormGate(jobIdField: Option<string>, hasFile: bool, listing: Option<seq<ListedJob>>): (g: Gate)
    ensures jobIdField.None? || jobIdField.value == "" || !hasFile ==> g == BadRequest("Missing job_id or resume file.")
    ensures g.ServerError? <==> jobIdField.Some? && jobIdField.value != "" && hasFile && ParseJobId(jobIdField.value).None?
    ensures g.Proceed? ==> jobIdField.Some? && hasFile && ParseJobId(jobIdField.value).Some? &&
                           g == JobCheckAsWritten(listing, ParseJobId(jobIdField.value).value)
    ensures jobIdField.Some? && jobIdField.value != "" && hasFile && ParseJobId(jobIdField.value).Some? ==>
              g == JobCheckAsWritten(listing, ParseJobId(jobIdField.value).value)
  {
    if jobIdField.None? || jobIdField.value == "" || !hasFile then BadRequest("Missing job_id or resume file.")
    else match ParseJobId(jobIdField.value)
      case None => ServerError
      case Some(id) => JobCheckAsWritten(listing, id)
  }

  /** /get_feedback and /upload with the corrected job check. */
  function FormGateCorrected(jobIdField: Option<string>, hasFile: bool, listing: Option<seq<ListedJob>>): (g: Gate)
    ensures listing.Some? ==> g == FormGate(jobIdField, hasFile, listing)
    ensures listing.None? && FormGate(jobIdField, hasFile, listing).Proceed? ==> g == ServerError
    ensures g.Proceed? ==> g.jobDesc.JobJson?
  {
    if jobIdField.None? || jobIdField.value == "" || !hasFile then BadRequest("Missing job_id or resume file.")
    else match ParseJobId(jobIdField.value)
      case None => ServerError
      case Some(id) => JobCheck(listing, id)
  }

  /**
   * With the listings file missing, the id the app sends gets the request
   * through to the prompt with the error tuple as written, and a 500 once
   * corrected.
   */
  lemma FormGateLoadFailure(id: int)
    ensures FormGate(Some(IntToString(id)), true, None) == Proceed(ErrorTuple)
    ensures StatusCode(FormGateCorrected(Some(IntToString(id)), true, None)) == 500
  {
    ParseJobIdRoundTrip(id);
    NatToStringNonEmpty(id);
  }

  /** A missing id or file is refused with 400 before the listings are consulted. */
  lemma FormGateRejectsBeforeLookup(jobIdField: Option<string>, hasFile: bool,
                                    a: Option<seq<ListedJob>>, b: Option<seq<ListedJob>>)
    requires jobIdField.None? || jobIdField.value == "" || !hasFile
    ensures FormGate(jobIdField, hasFile, a) == FormGate(jobIdField, hasFile, b)
    ensures StatusCode(FormGate(jobIdField, hasFile, a)) == 400
  {
  }

  /** The id the app sends, for a job not in the listings, is answered with 404. */
  lemma UnknownJobIs404(id: int, hasFile: bool, jobs: seq<ListedJob>)
    requires hasFile
    requires forall j :: 0 <= j < |jobs| ==> jobs[j].id != Some(id)
    ensures var g := FormGate(Some(IntToString(id)), hasFile, Some(jobs)); g == JobNotFound && StatusCode(g) == 404
  {
    ParseJobIdRoundTrip(id);
    NatToStringNonEmpty(id);
  }

  /** In /submit_data too, a usable id of a job not in the listings is answered with 404. */
  lemma SubmitUnknownJobIs404(jobId: PyValue, jobs: seq<ListedJob>)
    requires !Falsy(jobId) && PyToInt(jobId).Some?
    requires forall j :: 0 <= j < |jobs| ==> jobs[j].id != PyToInt(jobId)
    ensures var g := SubmitGate(jobId, Some(jobs)); g == JobNotFound && StatusCode(g) == 404
  {
  }

  /** The id the app sends, for a listed job, gets through with the first such listing's JSON text. */
  lemma ListedJobProceeds(id: int, jobs: seq<ListedJob>, i: nat)
    requires i < |jobs| && jobs[i].id == Some(id)
    requires forall j :: 0 <= j < i ==> jobs[j].id != Some(id)
    ensures FormGate(Some(IntToString(id)), true, Some(jobs)) == Proceed(JobJson(jobs[i].dumped))
  {
    ParseJobIdRoundTrip(id);
    NatToStringNonEmpty(id);
    LookupFirstMatch(jobs, id, i);
  }

  /** In /submit_data too, a usable id of a listed job gets through with that listing's JSON text. */
  lemma SubmitListedJobProceeds(jobId: PyValue, jobs: seq<ListedJob>, i: nat)
    requires !Falsy(jobId) && PyToInt(jobId).Some?
    requires i < |jobs| && jobs[i].id == PyToInt(jobId)
    requires forall j :: 0 <= j < i ==> jobs[j].id != PyToInt(jobId)
    ensures SubmitGate(jobId, Some(jobs)) == Proceed(JobJson(jobs[i].dumped))
  {
    LookupFirstMatch(jobs, PyToInt(jobId).value, i);
  }

  lemma NatToStringNonEmpty(i: int)
    ensures IntToString(i) != ""
  {
  }

  /** A JSON value of the /submit_data body, as far as `not` and `int()` look at it. */
  datatype PyValue = PyNone | PyInt(i: int) | PyStr(s: string) | PyBool(b: bool) | PyOther(truthy: bool)

  /** Python's `not v`. */
  predicate Falsy(v: PyValue) {
    match v
    case PyNone => true
    case PyInt(i) => i == 0
    case PyStr(s) => s == ""
    case PyBool(b) => !b
    case PyOther(truthy) => !truthy
  }

  /** Python's `int(v)`; `None` where it raises. */
  function PyToInt(v: PyValue): (r: Option<int>)
    ensures v.PyInt? ==> r == Some(v.i)
    ensures v.PyBool? ==> r == Some(if v.b then 1 else 0)
    ensures v.PyNone? || v.PyOther? ==> r.None?
  {
    match v
    case PyInt(i) => Some(i)
    case PyStr(s) => ParseJobId(s)
    case PyBool(b) => Some(if b then 1 else 0)
    case _ => None
  }

  /** /submit_data's gate on its "job_id" value as written: 400 when it is missing or falsy. */
  function SubmitGate(jobId: PyValue, listing: Option<seq<ListedJob>>): (g: Gate)
    ensures Falsy(jobId) <==> g == BadRequest("Missing job_id in JSON data.")
    ensures g.ServerError? <==> !Falsy(jobId) && PyToInt(jobId).None?
    ensures g.Proceed? ==> PyToInt(jobId).Some? && g == JobCheckAsWritten(listing, PyToInt(jobId).value)
    ensures !Falsy(jobId) && PyToInt(jobId).Some? ==> g == JobCheckAsWritten(listing, PyToInt(jobId).value)
  {
    if Falsy(jobId) then BadRequest("Missing job_id in JSON data.")
    else match PyToInt(jobId)
      case None => ServerError
      case Some(id) => JobCheckAsWritten(listing, id)
  }

  /** /submit_data with the corrected job check. */
  function SubmitGateCorrected(jobId: PyValue, listing: Option<seq<ListedJob>>): (g: Gate)
    ensures listing.Some? ==> g == SubmitGate(jobId, listing)
    ensures listing.None? && SubmitGate(jobId, listing).Proceed? ==> g == ServerError
    ensures g.Proceed? ==> g.jobDesc.JobJson?
  {
    if Falsy(jobId) then BadRequest("Missing job_id in JSON data.")
    else match PyToInt(jobId)
      case None => ServerError
      case Some(id) => JobCheck(listing, id)
  }

  /** With the listings file missing, a usable id proceeds with the error tuple as written, and is a 500 once corrected. */
  lemma SubmitGateLoadFailure(jobId: PyValue)
    requires !Falsy(jobId) && PyToInt(jobId).Some?
    ensures SubmitGate(jobId, None) == Proceed(ErrorTuple)
    ensures StatusCode(SubmitGateCorrected(jobId, None)) == 500
  {
  }

  /**
   * /generate_resume: the text from an uploaded PDF (`filename` ends with
   * ".pdf"), else the dumped JSON body when it is truthy, else nothing; no
   * text is a 400.
   */
  function GenerateText(filename: Option<string>, extracted: string, dumpedBody: Option<string>): (t: string)
    ensures filename.Some? && EndsWith(filename.value, ".pdf") ==> t == extracted
    ensures !(filename.Some? && EndsWith(filename.value, ".pdf")) ==> t == dumpedBody.GetOr("")
  {
    if filename.Some? && EndsWith(filename.value, ".pdf") then extracted
    else if dumpedBody.Some? then dumpedBody.value
    else ""
  }

  /** /generate_resume's only check: it goes on, with no job description, exactly when there is text. */
  function GenerateGate(filename: Option<string>, extracted: string, dumpedBody: Option<string>): (g: Gate)
    ensures g.BadRequest? <==> GenerateText(filename, extracted, dumpedBody) == ""
    ensures g.BadRequest? ==> g.error == "No resume text extracted or provided."
    ensures !g.BadRequest? ==> g == Proceed(NoJob)
  {
    if GenerateText(filename, extracted, dumpedBody) == "" then BadRequest("No resume text extracted or provided.")
    else Proceed(NoJob)
  }

  // ------------------------------------------------------ submitted text

  /** A field of the submitted JSON, already rendered as text; `None` when the key is absent. */
  type Field = Option<string>

  datatype PersonalInfo = PersonalInfo(name: Field, email: Field, contactNo: Field)
  datatype ObjectiveInfo = ObjectiveInfo(industry: Field, levelOfWork: Field, companyScale: Field)
  datatype Experience = Experience(company: Field, from: Field, to: Field, responsibilities: Field)
  datatype Education = Education(degree: Field, university: Field)

  /**
   * A well-shaped /submit_data body: "personal_info" and "objective" are
   * objects, the four lists are lists of objects or texts, and absent ones are empty.
   */
  datatype Submission = Submission(
    personal: PersonalInfo,
    objective: ObjectiveInfo,
    experience: seq<Experience>,
    education: seq<Education>,
    skills: seq<string>,
    languages: seq<string>)

  /** `d.get(key, 'N/A')`. */
  function OrNA(f: Field): (t: string)
    ensures f.None? ==> t == "N/A"
    ensures f.Some? ==> t == f.value
  {
    f.GetOr("N/A")
  }

  /** One line of the text: `x` and its line break. */
  function Line(x: string): string {
    x + "\n"
  }

  /** A labelled line, `tag` then the field or "N/A". */
  function Labelled(tag: string, f: Field): string {
    Line(tag + OrNA(f))
  }

  function PersonalLines(p: PersonalInfo): string {
    Line("Personal Information:") + Labelled("Name: ", p.name) + Labelled("Email: ", p.email) +
    Labelled("Contact No: ", p.contactNo)
  }

  function ObjectiveLines(o: ObjectiveInfo): string {
    Line("Objective:") + Labelled("Industry: ", o.industry) + Labelled("Level of Work: ", o.levelOfWork) +
    Labelled("Company Scale: ", o.companyScale)
  }

  /** The fixed opening of the text, through the "Experience:" heading. */
  function Opening(p: PersonalInfo, o: ObjectiveInfo): string {
    "\n" + PersonalLines(p) + "\n" + ObjectiveLines(o) + Heading("Experience:")
  }

  /** The two lines of one experience. */
  function ExperienceLines(e: Experience): string {
    Line(CompanyText(e)) + Labelled("  Responsibilities: ", e.responsibilities)
  }

  /** The first line of an experience, without its line break. */
  function CompanyText(e: Experience): string {
    "- Company: " + OrNA(e.company) + ", From: " + OrNA(e.from) + ", To: " + OrNA(e.to)
  }

  function EducationLine(e: Education): string {
    Line("- " + OrNA(e.degree) + " at " + OrNA(e.university))
  }

  function ItemLine(x: string): string {
    Line("- " + x)
  }

  /** A blank line and a section heading. */
  function Heading(title: string): string {
    "\n" + Line(title)
  }

  function AllExperience(es: seq<Experience>): string {
    if es == [] then "" else AllExperience(es[..|es| - 1]) + ExperienceLines(es[|es| - 1])
  }

  function AllEducation(es: seq<Education>): string {
    if es == [] then "" else AllEducation(es[..|es| - 1]) + EducationLine(es[|es| - 1])
  }

  function AllItems(xs: seq<string>): string {
    if xs == [] then "" else AllItems(xs[..|xs| - 1]) + ItemLine(xs[|xs| - 1])
  }

  /** The text /submit_data sends to the language model as the résumé. */
  function ResumeText(d: Submission): (t: string)
    ensures var o := Opening(d.personal, d.objective); |o| <= |t| && t[..|o|] == o
    ensures EndsWith(t, Heading("Languages:") + AllItems(d.languages))
  {
    var o := Opening(d.personal, d.objective);
    var t3 := o + AllExperience(d.experience) + Heading("Education:") + AllEducation(d.education);
    var t6 := t3 + Heading("Skills:") + AllItems(d.skills) + Heading("Languages:");
    PrefixKept(o, AllExperience(d.experience), |o|);
    PrefixKept(o + AllExperience(d.experience), Heading("Education:"), |o|);
    PrefixKept(o + AllExperience(d.experience) + Heading("Education:"), AllEducation(d.education), |o|);
    PrefixKept(t3, Heading("Skills:"), |o|);
    PrefixKept(t3 + Heading("Skills:"), AllItems(d.skills), |o|);
    PrefixKept(t3 + Heading("Skills:") + AllItems(d.skills), Heading("Languages:"), |o|);
    PrefixKept(t6, AllItems(d.languages), |o|);
    SuffixKept(t3 + Heading("Skills:") + AllItems(d.skills), Heading("Languages:"), AllItems(d.languages));
    Opening(d.personal, d.objective) + AllExperience(d.experience) +
    Heading("Education:") + AllEducation(d.education) +
    Heading("Skills:") + AllItems(d.skills) +
    Heading("Languages:") + AllItems(d.languages)
  }

  lemma PrefixKept(x: string, y: string, n: nat)
    requires n <= |x|
    ensures (x + y)[..n] == x[..n]
  {
  }

  lemma SuffixKept(x: string, y: string, z: string)
    ensures EndsWith(x + y + z, y + z)
  {
    assert (x + y + z)[|x|..] == y + z;
  }

  lemma AllExperienceStep(text: string, es: seq<Experience>, i: nat)
    requires i < |es|
    ensures text + AllExperience(es[..i + 1]) == text + AllExperience(es[..i]) + ExperienceLines(es[i])
  {
    assert es[..i + 1][..i] == es[..i];
  }

  /** The experience loop: appends the two lines of each experience. */
  method AppendExperience(text: string, es: seq<Experience>) returns (r: string)
    ensures r == text + AllExperience(es)
  {
    r := text;
    var i := 0;
    while i < |es|
      invariant 0 <= i <= |es|
      invariant r == text + AllExperience(es[..i])
    {
      AllExperienceStep(text, es, i);
      r := r + ExperienceLines(es[i]);
      i := i + 1;
    }
    assert es[..i] == es;
  }

  lemma AllEducationStep(text: string, es: seq<Education>, i: nat)
    requires i < |es|
    ensures text + AllEducation(es[..i + 1]) == text + AllEducation(es[..i]) + EducationLine(es[i])
  {
    assert es[..i + 1][..i] == es[..i];
  }

  lemma AllItemsStep(text: string, xs: seq<string>, i: nat)
    requires i < |xs|
    ensures text + AllItems(xs[..i + 1]) == text + AllItems(xs[..i]) + ItemLine(xs[i])
  {
    assert xs[..i + 1][..i] == xs[..i];
  }

  /** The education loop: appends one line per education. */
  method AppendEducation(text: string, es: seq<Education>) returns (r: string)
    ensures r == text + AllEducation(es)
  {
    r := text;
    var i := 0;
    while i < |es|
      invariant 0 <= i <= |es|
      invariant r == text + AllEducation(es[..i])
    {
      AllEducationStep(text, es, i);
      r := r + EducationLine(es[i]);
      i := i + 1;
    }
    assert es[..i] == es;
  }

  /** The skills and languages loops: appends one "- " line per item. */
  method AppendItems(text: string, xs: seq<string>) returns (r: string)
    ensures r == text + AllItems(xs)
  {
    r := text;
    var i := 0;
    while i < |xs|
      invariant 0 <= i <= |xs|
      invariant r == text + AllItems(xs[..i])
    {
      AllItemsStep(text, xs, i);
      r := r + ItemLine(xs[i]);
      i := i + 1;
    }
    assert xs[..i] == xs;
  }

  /** `submit_data`'s text: the opening, then each section's loop. */
  method BuildResumeText(d: Submission) returns (text: string)
    ensures text == ResumeText(d)
  {
    text := AppendExperience(Opening(d.personal, d.objective), d.experience);
    text := AppendEducation(text + Heading("Education:"), d.education);
    text := AppendItems(text + Heading("Skills:"), d.skills);
    text := AppendItems(text + Heading("Languages:"), d.languages);
  }

  // ------------------------------------------------ line count of the text

  predicate OneLine(s: string) {
    '\n' !in s
  }

  predicate FieldOneLine(f: Field) {
    f.None? || OneLine(f.value)
  }

  lemma LineCount(x: string)
    requires OneLine(x)
    ensures Count(Line(x), '\n') == 1
  {
    CountAbsent(x, '\n');
    CountAppend(x, "\n", '\n');
  }

  lemma HeadingCount(title: string)
    requires OneLine(title)
    ensures Count(Heading(title), '\n') == 2
  {
    LineCount(title);
    CountAppend("\n", Line(title), '\n');
  }

  lemma Count2(a: string, b: string)
    ensures Count(a + b, '\n') == Count(a, '\n') + Count(b, '\n')
  {
    CountAppend(a, b, '\n');
  }

  lemma LabelledCount(tag: string, f: Field)
    requires OneLine(tag) && FieldOneLine(f)
    ensures Count(Labelled(tag, f), '\n') == 1
  {
    LineCount(tag + OrNA(f));
  }

  predicate PersonalOneLine(p: PersonalInfo) {
    FieldOneLine(p.name) && FieldOneLine(p.email) && FieldOneLine(p.contactNo)
  }

  predicate ObjectiveOneLine(o: ObjectiveInfo) {
    FieldOneLine(o.industry) && FieldOneLine(o.levelOfWork) && FieldOneLine(o.companyScale)
  }

  lemma PersonalTagsOneLine()
    ensures OneLine("Personal Information:") && OneLine("Name: ") && OneLine("Email: ") && OneLine("Contact No: ")
  {
  }

  lemma ObjectiveTagsOneLine()
    ensures OneLine("Objective:") && OneLine("Industry: ") && OneLine("Level of Work: ") && OneLine("Company Scale: ")
  {
  }

  lemma PersonalLinesCount(p: PersonalInfo)
    requires PersonalOneLine(p)
    ensures Count(PersonalLines(p), '\n') == 4
  {
    PersonalTagsOneLine();
    var a, b := Line("Personal Information:"), Labelled("Name: ", p.name);
    var c, e := Labelled("Email: ", p.email), Labelled("Contact No: ", p.contactNo);
    LineCount("Personal Information:");
    LabelledCount("Name: ", p.name);
    LabelledCount("Email: ", p.email);
    LabelledCount("Contact No: ", p.contactNo);
    Count2(a, b);
    Count2(a + b, c);
    Count2(a + b + c, e);
  }

  lemma ObjectiveLinesCount(o: ObjectiveInfo)
    requires ObjectiveOneLine(o)
    ensures Count(ObjectiveLines(o), '\n') == 4
  {
    ObjectiveTagsOneLine();
    var a, b := Line("Objective:"), Labelled("Industry: ", o.industry);
    var c, e := Labelled("Level of Work: ", o.levelOfWork), Labelled("Company Scale: ", o.companyScale);
    LineCount("Objective:");
    LabelledCount("Industry: ", o.industry);
    LabelledCount("Level of Work: ", o.levelOfWork);
    LabelledCount("Company Scale: ", o.companyScale);
    Count2(a, b);
    Count2(a + b, c);
    Count2(a + b + c, e);
  }

  lemma OpeningLines(p: PersonalInfo, o: ObjectiveInfo)
    requires PersonalOneLine(p) && ObjectiveOneLine(o)
    ensures Count(Opening(p, o), '\n') == 12
  {
    var a, b := PersonalLines(p), ObjectiveLines(o);
    var h := Heading("Experience:");
    PersonalLinesCount(p);
    ObjectiveLinesCount(o);
    HeadingCount("Experience:");
    Count2("\n", a);
    Count2("\n" + a, "\n");
    Count2("\n" + a + "\n", b);
    Count2("\n" + a + "\n" + b, h);
  }

  predicate ExperienceOneLine(e: Experience) {
    FieldOneLine(e.company) && FieldOneLine(e.from) && FieldOneLine(e.to) && FieldOneLine(e.responsibilities)
  }

  lemma ExperienceLineCount(e: Experience)
    requires ExperienceOneLine(e)
    ensures Count(ExperienceLines(e), '\n') == 2
  {
    LineCount(CompanyText(e));
    LabelledCount("  Responsibilities: ", e.responsibilities);
    Count2(Line(CompanyText(e)), Labelled("  Responsibilities: ", e.responsibilities));
  }

  predicate AllExperienceOneLine(es: seq<Experience>) {
    forall k :: 0 <= k < |es| ==> ExperienceOneLine(es[k])
  }

  lemma {:induction false} AllExperienceLines(es: seq<Experience>)
    requires AllExperienceOneLine(es)
    ensures Count(AllExperience(es), '\n') == 2 * |es|
    decreases |es|
  {
    if es != [] {
      AllExperienceLines(es[..|es| - 1]);
      ExperienceLineCount(es[|es| - 1]);
      Count2(AllExperience(es[..|es| - 1]), ExperienceLines(es[|es| - 1]));
    }
  }

  predicate EducationOneLine(e: Education) {
    FieldOneLine(e.degree) && FieldOneLine(e.university)
  }

  predicate AllEducationOneLine(es: seq<Education>) {
    forall k :: 0 <= k < |es| ==> EducationOneLine(es[k])
  }

  lemma {:induction false} AllEducationLines(es: seq<Education>)
    requires AllEducationOneLine(es)
    ensures Count(AllEducation(es), '\n') == |es|
    decreases |es|
  {
    if es != [] {
      var e := es[|es| - 1];
      AllEducationLines(es[..|es| - 1]);
      LineCount("- " + OrNA(e.degree) + " at " + OrNA(e.university));
      Count2(AllEducation(es[..|es| - 1]), EducationLine(e));
    }
  }

  predicate AllOneLine(xs: seq<string>) {
    forall k :: 0 <= k < |xs| ==> OneLine(xs[k])
  }

  lemma {:induction false} AllItemsLines(xs: seq<string>)
    requires AllOneLine(xs)
    ensures Count(AllItems(xs), '\n') == |xs|
    decreases |xs|
  {
    if xs != [] {
      var x := xs[|xs| - 1];
      AllItemsLines(xs[..|xs| - 1]);
      LineCount("- " + x);
      Count2(AllItems(xs[..|xs| - 1]), ItemLine(x));
    }
  }

  /** Every submitted value fits on one line. */
  predicate SingleLineFields(d: Submission) {
    PersonalOneLine(d.personal) && ObjectiveOneLine(d.objective) &&
    AllExperienceOneLine(d.experience) && AllEducationOneLine(d.education) &&
    AllOneLine(d.skills) && AllOneLine(d.languages)
  }

  /** Each of the three section headings holds two line breaks. */
  lemma SectionHeadingCounts()
    ensures Count(Heading("Education:"), '\n') == 2
    ensures Count(Heading("Skills:"), '\n') == 2
    ensures Count(Heading("Languages:"), '\n') == 2
  {
    HeadingCount("Education:");
    HeadingCount("Skills:");
    HeadingCount("Languages:");
  }

  /**
   * With single-line values the text has 18 fixed line breaks, two per
   * experience, and one per education, skill and language.
   */
  lemma ResumeTextLineCount(d: Submission)
    requires SingleLineFields(d)
    ensures Count(ResumeText(d), '\n') ==
      18 + 2 * |d.experience| + |d.education| + |d.skills| + |d.languages|
  {
    var o := Opening(d.personal, d.objective);
    var ex, ed := AllExperience(d.experience), AllEducation(d.education);
    var sk, la := AllItems(d.skills), AllItems(d.languages);
    var he, hs, hl := Heading("Education:"), Heading("Skills:"), Heading("Languages:");
    OpeningLines(d.personal, d.objective);
    AllExperienceLines(d.experience);
    AllEducationLines(d.education);
    AllItemsLines(d.skills);
    AllItemsLines(d.languages);
    SectionHeadingCounts();
    var e, n, k, l := |d.experience|, |d.education|, |d.skills|, |d.languages|;
    Count2(o, ex);
    var t1 := o + ex;
    assert Count(t1, '\n') == 12 + 2 * e;
    Count2(t1, he);
    var t2 := t1 + he;
    assert Count(t2, '\n') == 14 + 2 * e;
    Count2(t2, ed);
    var t3 := t2 + ed;
    assert Count(t3, '\n') == 14 + 2 * e + n;
    Count2(t3, hs);
    var t4 := t3 + hs;
    assert Count(t4, '\n') == 16 + 2 * e + n;
    Count2(t4, sk);
    var t5 := t4 + sk;
    assert Count(t5, '\n') == 16 + 2 * e + n + k;
    Count2(t5, hl);
    var t6 := t5 + hl;
    assert Count(t6, '\n') == 18 + 2 * e + n + k;
    Count2(t6, la);
    assert ResumeText(d) == o + ex + he + ed + hs + sk + hl + la;
  }

  /** The skill lines list the skills in order: one more skill adds exactly its own line at the end. */
  lemma SkillLinesInOrder(d: Submission, skill: string)
    ensures ResumeText(d.(skills := d.skills + [skill])) ==
      Opening(d.personal, d.objective) + AllExperience(d.experience) +
      Heading("Education:") + AllEducation(d.education) +
      Heading("Skills:") + AllItems(d.skills) + ItemLine(skill) +
      Heading("Languages:") + AllItems(d.languages)
  {
    var xs := d.skills + [skill];
    assert xs[..|xs| - 1] == d.skills;
    var p := Opening(d.personal, d.objective) + AllExperience(d.experience) +
      Heading("Education:") + AllEducation(d.education) + Heading("Skills:");
    assert AllItems(xs) == AllItems(d.skills) + ItemLine(skill);
    assert p + AllItems(xs) == p + AllItems(d.skills) + ItemLine(skill);
  }
}

=== FILE: feedback_activity.dfy ===
/**
 * The feedback screen: its early exit, the overall alignment score, the
 * choice of the criteria object, the details toggle and the file icon.
 */
module Feedback {
  import opened Wrappers
  import opened JString
  import opened JsonModel
  import opened Widgets
  import opened FeedbackCards

  /** `onCreate` gives up when the résumé name is missing or the job id is the -1 default. */
  function ShouldFinishEarly(resumeFile: Option<string>, jobId: int): (finish: bool)
    ensures resumeFile.None? ==> finish
    ensures jobId == -1 ==> finish
    ensures resumeFile.Some? && jobId != -1 ==> !finish
  {
    resumeFile.None? || jobId == -1
  }

  /** The PDF icon is shown when the lower-cased file name ends with ".pdf". */
  function UsesPdfIcon(name: string): (pdf: bool)
    ensures pdf ==> |name| >= 4
    ensures EndsWith(name, ".pdf") || EndsWith(name, ".PDF") ==> pdf
  {
    EndsWith(ToLower(name), ".pdf")
  }

  /** The icon rule ignores case: it looks at the last four chars only, compared case-insensitively. */
  lemma PdfIconIgnoresCase(name: string)
    ensures UsesPdfIcon(name) <==> |name| >= 4 && EqualsIgnoreCase(name[|name| - 4..], ".pdf")
  {
    if |name| >= 4 {
      assert ToLower(name)[|name| - 4..] == ToLower(name[|name| - 4..]);
      assert ToLower(".pdf") == ".pdf";
    }
  }

  function Abs(x: int): nat {
    if x < 0 then -x else x
  }

  /** Java's `int` division: rounds toward zero, and wraps for `MIN_VALUE / -1`. */
  function JavaDiv(a: Int32, b: Int32): (q: Int32)
    requires b != 0
    ensures a == -0x8000_0000 && b == -1 ==> q == a
    ensures !(a == -0x8000_0000 && b == -1) ==> Abs(q) == Abs(a) / Abs(b)
    ensures q > 0 ==> (a < 0) == (b < 0)
    ensures q < 0 && !(a == -0x8000_0000 && b == -1) ==> (a < 0) != (b < 0)
  {
    DivFacts(Abs(a), Abs(b));
    var m := Abs(a) / Abs(b);
    Wrap32(if (a < 0) == (b < 0) then m else -m)
  }

  /**
   * Java division agrees with Dafny's for a non-negative dividend and a
   * positive divisor, and rounds toward zero for a negative dividend.
   */
  lemma JavaDivTruncates(a: Int32, b: Int32)
    requires b > 0
    ensures a >= 0 ==> JavaDiv(a, b) == a / b
    ensures a < 0 ==> JavaDiv(a, b) == -(Abs(a) / b) && a <= JavaDiv(a, b) * b <= 0
  {
    var m := Abs(a) / b;
    DivFacts(Abs(a), b);
    assert 0 <= m <= Abs(a);
    if a < 0 {
      assert Wrap32(-m) == -m;
      assert -m * b == -(m * b);
    } else {
      assert Wrap32(m) == m;
    }
  }

  /** The quotient of naturals is at most the dividend, and times the divisor it does not exceed it. */
  lemma DivFacts(n: nat, m: int)
    requires 0 < m
    ensures 0 <= n / m <= n && (n / m) * m <= n
  {
    var q := n / m;
    var r := n % m;
    assert n == q * m + r && 0 <= r < m;
    MulAtLeast(q, m);
  }

  lemma MulAtLeast(q: int, m: int)
    requires q >= 0 && m >= 1
    ensures q * m >= q
  {
    assert q * m == q + q * (m - 1);
  }

  lemma MulMono(x: int, y: int, m: int)
    requires x <= y && m >= 0
    ensures x * m <= y * m
  {
    assert y * m - x * m == (y - x) * m;
  }

  /** `score * 100 / maxScore` in Java `int` arithmetic. */
  function Percent(score: Int32, maxScore: Int32): (p: Int32)
    requires maxScore != 0
    ensures 0 < maxScore && 0 <= Wrap32(score * 100) ==> p == Wrap32(score * 100) / maxScore
    ensures 0 < maxScore && Wrap32(score * 100) < 0 ==> p <= 0
  {
    var n := Wrap32(score * 100);
    if 0 < maxScore then
      JavaDivTruncates(n, maxScore);
      JavaDiv(n, maxScore)
    else JavaDiv(n, maxScore)
  }

  /** The largest score whose product by 100 still fits in an `int`. */
  const MaxSafeScore: int := 21474836

  /** For a score that does not overflow, the percentage is the quotient of `score * 100` by a positive maximum. */
  lemma PercentIsQuotient(score: Int32, maxScore: Int32)
    requires 0 <= score <= MaxSafeScore && 0 < maxScore
    ensures Percent(score, maxScore) == (score * 100) / maxScore
  {
    var n := score * 100;
    assert 0 <= n < 0x8000_0000;
    assert Wrap32(n) == n;
    JavaDivTruncates(n, maxScore);
  }

  /** For a score between 0 and the maximum, the percentage is between 0 and 100, and a full score is 100. */
  lemma PercentBounds(score: Int32, maxScore: Int32)
    requires 0 <= score <= maxScore && 0 < maxScore && score <= MaxSafeScore
    ensures 0 <= Percent(score, maxScore) <= 100
    ensures score == maxScore ==> Percent(score, maxScore) == 100
    ensures score == 0 ==> Percent(score, maxScore) == 0
  {
    PercentIsQuotient(score, maxScore);
    var n: nat := score * 100;
    DivFacts(n, maxScore);
    MulMono(score, maxScore, 100);
    QuotientAtMost(n, maxScore, 100);
  }

  lemma QuotientAtMost(n: nat, m: int, c: nat)
    requires 0 < m && n <= m * c
    ensures n / m <= c
    ensures n == m * c ==> n / m == c
  {
    var q := n / m;
    var r := n % m;
    assert n == q * m + r && 0 <= r < m;
    if q > c {
      MulMono(c + 1, q, m);
    }
    if n == m * c {
      assert m * c == c * m;
      if q < c {
        MulMono(q + 1, c, m);
      }
    }
  }

  /** Past `MaxSafeScore` the product wraps: a full score of 21474837 shows as -99. */
  lemma PercentWraps()
    ensures Percent(21474837, 21474837) == -99
  {
    assert Wrap32(21474837 * 100) == -2147483596;
  }

  /** The overall score block: score, maximum (100 when absent) and justification. */
  datatype Overall = Overall(score: Int32, maxScore: Int32, justification: string)

  /**
   * The reads of `onPostExecute` before the bar is updated: the "feedback"
   * object and its "overall_score"; `None` where one of them throws.
   */
  function ParseOverall(full: Entries): (r: Option<(Entries, Overall)>)
    ensures r.Some? <==>
      GetObject(full, "feedback").Some? &&
      var fd := GetObject(full, "feedback").value;
      GetObject(fd, "overall_score").Some? &&
      var os := GetObject(fd, "overall_score").value;
      GetInt(os, "score").Some? && GetString(os, "justification").Some?
    ensures r.Some? ==> r.value.0 == GetObject(full, "feedback").value
    ensures r.Some? ==> var os := GetObject(r.value.0, "overall_score").value;
      r.value.1.score == GetInt(os, "score").value &&
      r.value.1.justification == GetString(os, "justification").value &&
      (!Has(os, "max_score") ==> r.value.1.maxScore == 100)
  {
    match GetObject(full, "feedback")
    case None => None
    case Some(fd) =>
      match GetObject(fd, "overall_score")
      case None => None
      case Some(os) =>
        var score := GetInt(os, "score");
        var maxScore := OptInt(os, "max_score", 100);
        var justification := GetString(os, "justification");
        if score.Some? && justification.Some? then
          Some((fd, Overall(score.value, maxScore, justification.value)))
        else None
  }

  /** Where the criteria come from: an object to list, nothing to list, or a value that throws. */
  datatype DetailChoice = UseDetails(entries: Entries) | NoDetails | BadDetails

  /**
   * "detailed_feedback" is preferred, "feedback" is the fallback, and with
   * neither the list is left alone; a present key whose value is not an
   * object throws.
   */
  function DetailSource(fd: Entries): (c: DetailChoice)
    ensures c.NoDetails? <==> !Has(fd, "detailed_feedback") && !Has(fd, "feedback")
    ensures Has(fd, "detailed_feedback") ==>
      (c.UseDetails? <==> GetObject(fd, "detailed_feedback").Some?) &&
      (c.UseDetails? ==> c.entries == GetObject(fd, "detailed_feedback").value)
    ensures !Has(fd, "detailed_feedback") && Has(fd, "feedback") ==>
      (c.UseDetails? <==> GetObject(fd, "feedback").Some?) &&
      (c.UseDetails? ==> c.entries == GetObject(fd, "feedback").value)
  {
    var key := if Has(fd, "detailed_feedback") then "detailed_feedback" else "feedback";
    if !Has(fd, key) then NoDetails
    else match GetObject(fd, key)
      case Some(d) => UseDetails(d)
      case None => BadDetails
  }

  /** `String.format("%d%% alignment. %s", percent, justification)`. */
  function SummaryText(percent: Int32, justification: string): (t: string)
    ensures var n := IntToString(percent); IndexOf(t, '%') == |n| && t[..|n|] == n
    ensures EndsWith(t, justification)
  {
    var n := IntToString(percent);
    var t := n + "% alignment. " + justification;
    assert t[|n|] == '%';
    assert forall k :: 0 <= k < |n| ==> t[k] == n[k] && n[k] != '%';
    t
  }

  /** The feedback screen's visible state. */
  class FeedbackActivity {
    var resumeFile: string
    var jobId: int
    var finished: bool
    var fetchStarted: bool
    var toast: Option<string>
    var resumeName: string
    var pdfIcon: bool
    var detailsVisible: bool
    var improveLabel: string
    var loadingVisible: bool
    var summary: string
    var scoreMax: int
    var scoreProgress: int
    const adapter: FeedbackAdapter

    /**
     * `onCreate`: reads the résumé name and job id; with either missing it
     * finishes at once; otherwise it shows the name and icon, hides the
     * details and starts the fetch, whose `onPreExecute` runs straight away.
     */
    constructor (extras: seq<(string, Extra)>)
      ensures var file := StringExtraOf(extras, "selected_resume_file");
        var id := IntExtraOr(extras, "selected_job_id", -1);
        (finished <==> ShouldFinishEarly(file, id)) &&
        (finished ==> toast == Some("Error: Missing resume or job data.") && !fetchStarted) &&
        (!finished ==> fetchStarted && toast == None && resumeFile == file.value && resumeName == file.value &&
                       pdfIcon == UsesPdfIcon(file.value) && !detailsVisible &&
                       loadingVisible && summary == "Fetching analysis..." && scoreProgress == 0)
      ensures fresh(adapter) && adapter.items == []
    {
      var file := StringExtraOf(extras, "selected_resume_file");
      var id := IntExtraOr(extras, "selected_job_id", -1);
      adapter := new FeedbackAdapter();
      jobId := id;
      resumeFile, resumeName, pdfIcon := "", "", false;
      detailsVisible, improveLabel := false, "";
      loadingVisible, summary, scoreMax, scoreProgress := false, "", 100, 0;
      if file.None? || id == -1 {
        toast := Some("Error: Missing resume or job data.");
        finished, fetchStarted := true, false;
      } else {
        toast := None;
        finished := false;
        resumeFile := file.value;
        resumeName := file.value;
        if EndsWith(ToLower(file.value), ".pdf") {
          pdfIcon := true;
        }
        fetchStarted := true;
        loadingVisible, summary, scoreProgress := true, "Fetching analysis...", 0;
      }
    }

    /** The "check what you can improve" button flips the list and its own label together. */
    method ToggleDetails()
      modifies this`detailsVisible, this`improveLabel
      ensures detailsVisible == !old(detailsVisible)
      ensures improveLabel == if detailsVisible then "Hide Details" else "Check what you can improve"
    {
      if !detailsVisible {
        detailsVisible := true;
        improveLabel := "Hide Details";
      } else {
        detailsVisible := false;
        improveLabel := "Check what you can improve";
      }
    }

    /**
     * `onPostExecute` with the response object (`None` when the fetch
     * failed). A zero maximum score would throw an uncaught
     * `ArithmeticException`, so it is excluded.
     */
    method OnPostExecute(response: Option<Entries>)
      requires response.Some? && ParseOverall(response.value).Some? ==>
               ParseOverall(response.value).value.1.maxScore != 0
      modifies this`loadingVisible, this`summary, this`toast, this`scoreMax, this`scoreProgress, adapter`items
      ensures !loadingVisible
      ensures response.None? ==>
        summary == "Failed to get feedback." &&
        toast == Some("Failed to get feedback. Check server connection or logs.") &&
        scoreMax == old(scoreMax) && scoreProgress == old(scoreProgress) && adapter.items == old(adapter.items)
      ensures response.Some? && ParseOverall(response.value).None? ==>
        summary == "Failed to parse feedback." && toast == Some("Error parsing feedback data.") &&
        scoreMax == old(scoreMax) && scoreProgress == old(scoreProgress) && adapter.items == old(adapter.items)
      ensures response.Some? && ParseOverall(response.value).Some? ==>
        var o := ParseOverall(response.value).value.1;
        scoreMax == o.maxScore && scoreProgress == o.score
      ensures response.Some? && ParseOverall(response.value).Some? ==>
        var choice := DetailSource(ParseOverall(response.value).value.0);
        (choice.UseDetails? ==> adapter.items == ParseItems(choice.entries)) &&
        (!choice.UseDetails? ==> adapter.items == old(adapter.items))
      ensures response.Some? && ParseOverall(response.value).Some? ==>
        var (fd, o) := ParseOverall(response.value).value;
        var choice := DetailSource(fd);
        (!choice.BadDetails? ==> summary == SummaryText(Percent(o.score, o.maxScore), o.justification) &&
                                 toast == old(toast)) &&
        (choice.BadDetails? ==> summary == "Failed to parse feedback." && toast == Some("Error parsing feedback data."))
    {
      loadingVisible := false;
      if response.None? {
        summary := "Failed to get feedback.";
        toast := Some("Failed to get feedback. Check server connection or logs.");
        return;
      }
      var parsed := ParseOverall(response.value);
      if parsed.None? {
        summary := "Failed to parse feedback.";
        toast := Some("Error parsing feedback data.");
        return;
      }
      ShowFeedback(parsed.value.0, parsed.value.1);
    }

    /** The success path of `onPostExecute`: the bar, the summary and the criteria cards. */
    method ShowFeedback(fd: Entries, o: Overall)
      requires o.maxScore != 0
      modifies this`summary, this`toast, this`scoreMax, this`scoreProgress, adapter`items
      ensures scoreMax == o.maxScore && scoreProgress == o.score
      ensures var choice := DetailSource(fd);
        (choice.UseDetails? ==> adapter.items == ParseItems(choice.entries)) &&
        (!choice.UseDetails? ==> adapter.items == old(adapter.items))
      ensures var choice := DetailSource(fd);
        (!choice.BadDetails? ==> summary == SummaryText(Percent(o.score, o.maxScore), o.justification) &&
                                 toast == old(toast)) &&
        (choice.BadDetails? ==> summary == "Failed to parse feedback." && toast == Some("Error parsing feedback data."))
    {
      scoreMax := o.maxScore;
      scoreProgress := o.score;
      summary := SummaryText(Percent(o.score, o.maxScore), o.justification);
      var choice := DetailSource(fd);
      if choice.UseDetails? {
        adapter.UpdateData(Some(choice.entries));
      } else if choice.BadDetails? {
        summary := "Failed to parse feedback.";
        toast := Some("Error parsing feedback data.");
      }
    }
  }
}

=== FILE: feedback_adapter.dfy ===
/** The criteria breakdown list of the feedback screen: one card per well-formed criterion. */
module FeedbackCards {
  import opened Wrappers
  import opened JString
  import opened JsonModel

  /** One criterion card: its readable name, score, maximum score and justification. */
  datatype FeedbackItem = FeedbackItem(criteriaName: string, score: Int32, maxScore: Int32, justification: string)

  /** The maximum score assumed for a criterion that gives none. */
  const DefaultMaxScore: Int32 := 10

  /** A non-empty word with its first char upper-cased and the rest lower-cased. */
  function Capitalized(w: string): (c: string)
    requires w != []
    ensures |c| == |w| && c[0] == ToUpperChar(w[0])
    ensures forall i :: 1 <= i < |w| ==> c[i] == ToLowerChar(w[i])
  {
    [ToUpperChar(w[0])] + ToLower(w[1..])
  }

  /** What the word loop appends: each non-empty word capitalised and followed by a space. */
  function Formatted(words: seq<string>): string {
    if words == [] then ""
    else
      var last := words[|words| - 1];
      Formatted(words[..|words| - 1]) + (if last == "" then "" else Capitalized(last) + " ")
  }

  /** The readable name of a criterion key: split on '_', capitalise the words, join with spaces, trim. */
  function CriteriaLabel(key: string): (name: string)
    ensures name != [] ==> !IsTrimmable(name[0]) && !IsTrimmable(name[|name| - 1])
    ensures key == [] ==> name == []
  {
    assert key == [] ==> JavaSplitChar(key, '_') == [""] && Formatted([""]) == "";
    Trim(Formatted(JavaSplitChar(key, '_')))
  }

  /** `formatCriteriaName`: the word loop over the pieces of the key. */
  method FormatCriteriaName(key: string) returns (name: string)
    ensures name == CriteriaLabel(key)
  {
    var words := JavaSplitChar(key, '_');
    var formatted := "";
    var i := 0;
    while i < |words|
      invariant 0 <= i <= |words|
      invariant formatted == Formatted(words[..i])
    {
      var word := words[i];
      if |word| > 0 {
        formatted := formatted + Capitalized(word) + " ";
      }
      assert words[..i + 1][..i] == words[..i];
      i := i + 1;
    }
    assert words[..i] == words;
    name := Trim(formatted);
  }

  predicate NoUnderscore(s: string) {
    forall i :: 0 <= i < |s| ==> s[i] != '_'
  }

  lemma {:induction false} SplitCharNoUnderscore(s: string)
    ensures forall k :: 0 <= k < |SplitChar(s, '_')| ==> NoUnderscore(SplitChar(s, '_')[k])
    decreases |s|
  {
    var k := IndexOf(s, '_');
    if k == -1 {
      assert SplitChar(s, '_') == [s];
      assert NoUnderscore(s);
    } else {
      var rest := SplitChar(s[k + 1..], '_');
      SplitCharNoUnderscore(s[k + 1..]);
      assert SplitChar(s, '_') == [s[..k]] + rest;
      assert NoUnderscore(s[..k]);
    }
  }

  lemma {:induction false} FormattedNoUnderscore(words: seq<string>)
    requires forall k :: 0 <= k < |words| ==> NoUnderscore(words[k])
    ensures NoUnderscore(Formatted(words))
    decreases |words|
  {
    if words != [] {
      FormattedNoUnderscore(words[..|words| - 1]);
    }
  }

  /** A criterion's readable name never contains '_'. */
  lemma CriteriaLabelNoUnderscore(key: string)
    ensures '_' !in CriteriaLabel(key)
  {
    var words := JavaSplitChar(key, '_');
    SplitCharNoUnderscore(key);
    if '_' !in key {
      assert NoUnderscore(key);
    }
    FormattedNoUnderscore(words);
    var f := Formatted(words);
    TrimStartFacts(f);
    TrimEndFacts(TrimStart(f));
  }

  /** The capitalised words, in order. */
  function CapitalizedAll(words: seq<string>): (r: seq<string>)
    ensures |r| == |words|
    ensures forall k :: 0 <= k < |words| && words[k] != [] ==> r[k] == Capitalized(words[k])
  {
    seq(|words|, k requires 0 <= k < |words| => if words[k] == [] then "" else Capitalized(words[k]))
  }

  /** A plain criterion key: a non-empty word of visible chars other than '_'. */
  predicate PlainWord(w: string) {
    w != [] && forall i :: 0 <= i < |w| ==> w[i] != '_' && !IsTrimmable(w[i])
  }

  lemma {:induction false} SplitCharJoin(words: seq<string>)
    requires words != [] && forall k :: 0 <= k < |words| ==> PlainWord(words[k])
    ensures SplitChar(Join("_", words), '_') == words
    decreases |words|
  {
    var w := words[0];
    if |words| == 1 {
      assert IndexOf(w, '_') == -1;
    } else {
      var rest := Join("_", words[1..]);
      var s := w + "_" + rest;
      assert s[|w|] == '_';
      assert IndexOf(s, '_') == |w| by {
        assert forall i :: 0 <= i < |w| ==> s[i] == w[i];
      }
      assert s[..|w|] == w;
      assert s[|w| + 1..] == rest;
      SplitCharJoin(words[1..]);
    }
  }

  lemma {:induction false} FormattedJoin(words: seq<string>)
    requires words != [] && forall k :: 0 <= k < |words| ==> PlainWord(words[k])
    ensures Formatted(words) == Join(" ", CapitalizedAll(words)) + " "
    decreases |words|
  {
    var init := words[..|words| - 1];
    var last := words[|words| - 1];
    var c := Capitalized(last);
    assert Formatted(words) == Formatted(init) + (c + " ");
    CapitalizedAllSnoc(words);
    if init == [] {
      assert CapitalizedAll(words) == [c];
    } else {
      FormattedJoin(init);
      var j := Join(" ", CapitalizedAll(init));
      JoinAppend(" ", CapitalizedAll(init), c);
      calc {
        Formatted(words);
        j + " " + (c + " ");
        { assert j + " " + (c + " ") == j + " " + c + " "; }
        j + " " + c + " ";
      }
    }
  }

  lemma CapitalizedAllSnoc(words: seq<string>)
    requires words != [] && words[|words| - 1] != []
    ensures CapitalizedAll(words) == CapitalizedAll(words[..|words| - 1]) + [Capitalized(words[|words| - 1])]
  {
  }

  /** Neither end of `j` is a char `trim` removes. */
  predicate EdgesVisible(j: string) {
    j != [] && !IsTrimmable(j[0]) && !IsTrimmable(j[|j| - 1])
  }

  lemma {:induction false} JoinEnds(words: seq<string>)
    requires words != [] && forall k :: 0 <= k < |words| ==> PlainWord(words[k])
    ensures EdgesVisible(Join(" ", CapitalizedAll(words)))
    decreases |words|
  {
    var caps := CapitalizedAll(words);
    var last := words[|words| - 1];
    assert !IsTrimmable(ToUpperChar(words[0][0]));
    if |last| > 1 {
      assert !IsTrimmable(ToLowerChar(last[|last| - 1]));
    } else {
      assert !IsTrimmable(ToUpperChar(last[0]));
    }
    if |words| > 1 {
      JoinEnds(words[1..]);
      assert CapitalizedAll(words[1..]) == caps[1..];
    }
  }

  /**
   * A key made of plain words joined by '_' reads as those words
   * capitalised and joined by single spaces ("skills_match" reads "Skills Match").
   */
  lemma {:induction false} CriteriaLabelOfWords(words: seq<string>)
    requires words != [] && forall k :: 0 <= k < |words| ==> PlainWord(words[k])
    ensures CriteriaLabel(Join("_", words)) == Join(" ", CapitalizedAll(words))
  {
    var j := Join(" ", CapitalizedAll(words));
    JavaSplitJoin(words);
    FormattedJoin(words);
    JoinEnds(words);
    TrimPadded(j);
    calc {
      CriteriaLabel(Join("_", words));
      Trim(Formatted(JavaSplitChar(Join("_", words), '_')));
      Trim(Formatted(words));
      Trim(j + " ");
      j;
    }
  }

  lemma JavaSplitJoin(words: seq<string>)
    requires words != [] && forall k :: 0 <= k < |words| ==> PlainWord(words[k])
    ensures JavaSplitChar(Join("_", words), '_') == words
  {
    var key := Join("_", words);
    SplitCharJoin(words);
  }

  lemma TrimPadded(j: string)
    requires EdgesVisible(j)
    ensures Trim(j + " ") == j
  {
    assert TrimStart(j + " ") == j + " ";
    assert (j + " ")[..|j|] == j;
    assert TrimEnd(j + " ") == TrimEnd(j);
  }

  /**
   * One criterion entry: its value must be an object with an int "score" and
   * a string "justification"; otherwise it is skipped. "max_score" defaults to 10.
   */
  function ParseEntry(key: string, value: Json): (item: Option<FeedbackItem>)
    ensures item.Some? <==> value.JObj? && GetInt(value.entries, "score").Some?
                            && GetString(value.entries, "justification").Some?
    ensures item.Some? ==> item.value.criteriaName == CriteriaLabel(key)
    ensures item.Some? && !Has(value.entries, "max_score") ==> item.value.maxScore == DefaultMaxScore
  {
    if value.JObj? then
      var score := GetInt(value.entries, "score");
      var maxScore := OptInt(value.entries, "max_score", DefaultMaxScore);
      var justification := GetString(value.entries, "justification");
      if score.Some? && justification.Some? then
        Some(FeedbackItem(CriteriaLabel(key), score.value, maxScore, justification.value))
      else None
    else None
  }

  /** The cards of the criteria object, in key order. */
  function ParseItems(entries: Entries): (cards: seq<FeedbackItem>)
    ensures |cards| <= |entries|
  {
    if entries == [] then []
    else
      var last := entries[|entries| - 1];
      var item := ParseEntry(last.0, last.1);
      ParseItems(entries[..|entries| - 1]) + (if item.Some? then [item.value] else [])
  }

  /** Entries are read independently: a malformed entry does not stop the ones after it. */
  lemma {:induction false} ParseItemsAppend(a: Entries, b: Entries)
    ensures ParseItems(a + b) == ParseItems(a) + ParseItems(b)
    decreases |b|
  {
    if b == [] {
      assert a + b == a;
    } else {
      var b' := b[..|b| - 1];
      assert (a + b)[..|a + b| - 1] == a + b';
      ParseItemsAppend(a, b');
    }
  }

  /** The entry yields a card. */
  predicate WellFormed(e: (string, Json)) {
    ParseEntry(e.0, e.1).Some?
  }

  lemma {:induction false} ParseItemsAllWellFormed(entries: Entries)
    requires forall k :: 0 <= k < |entries| ==> WellFormed(entries[k])
    ensures |ParseItems(entries)| == |entries|
    ensures forall k :: 0 <= k < |entries| ==> Some(ParseItems(entries)[k]) == ParseEntry(entries[k].0, entries[k].1)
    decreases |entries|
  {
    if entries != [] {
      var init := entries[..|entries| - 1];
      var last := entries[|entries| - 1];
      assert forall k :: 0 <= k < |init| ==> init[k] == entries[k];
      ParseItemsAllWellFormed(init);
      assert WellFormed(last);
      var item := ParseEntry(last.0, last.1);
      assert ParseItems(entries) == ParseItems(init) + [item.value];
      forall k | 0 <= k < |entries|
        ensures Some(ParseItems(entries)[k]) == ParseEntry(entries[k].0, entries[k].1)
      {
        if k < |init| {
          assert ParseItems(entries)[k] == ParseItems(init)[k];
        }
      }
    }
  }

  lemma ParseItemsStep(entries: Entries, i: nat)
    requires i < |entries|
    ensures var item := ParseEntry(entries[i].0, entries[i].1);
      ParseItems(entries[..i + 1]) == ParseItems(entries[..i]) + (if item.Some? then [item.value] else [])
  {
    assert entries[..i + 1][..i] == entries[..i];
  }

  /** The adapter's list of cards. */
  class FeedbackAdapter {
    var items: seq<FeedbackItem>

    constructor ()
      ensures items == []
    {
      items := [];
    }

    /** `getItemCount`. */
    function GetItemCount(): (n: nat)
      reads this
      ensures n == |items|
    {
      |items|
    }

    /**
     * `updateData`: the old cards are dropped first; a null object leaves
     * none, otherwise each entry yields its card in key order.
     */
    method UpdateData(json: Option<Entries>)
      modifies this`items
      ensures json.None? ==> items == []
      ensures json.Some? ==> items == ParseItems(json.value)
    {
      items := [];
      if json.Some? {
        var entries := json.value;
        var i := 0;
        while i < |entries|
          invariant 0 <= i <= |entries|
          invariant items == ParseItems(entries[..i])
        {
          var key := entries[i].0;
          var value := entries[i].1;
          ParseItemsStep(entries, i);
          if value.JObj? {
            var name := FormatCriteriaName(key);
            var score := GetInt(value.entries, "score");
            var maxScore := OptInt(value.entries, "max_score", DefaultMaxScore);
            var justification := GetString(value.entries, "justification");
            if score.Some? && justification.Some? {
              items := items + [FeedbackItem(name, score.value, maxScore, justification.value)];
            }
          }
          i := i + 1;
        }
        assert entries[..i] == entries;
      }
    }
  }
}

=== FILE: home.dfy ===
/** The home screen: the job list it shows, its navigation and its upload gate. */
module Home {
  import opened Wrappers
  import opened Widgets
  import opened JobModel

  const UploadRequestCode: int := 1001

  /** At most this many jobs are shown. */
  const MaxJobs: nat := 10

  /** The first `min(n, 10)` parsed jobs. */
  function FirstJobs(jobs: seq<Job>): (r: seq<Job>)
    ensures |r| == Min(|jobs|, MaxJobs)
    ensures r == jobs[..|r|]
  {
    if |jobs| > MaxJobs then jobs[..MaxJobs] else jobs
  }

  /** Truncation keeps a short list whole and is idempotent. */
  lemma FirstJobsIdempotent(jobs: seq<Job>)
    ensures |jobs| <= MaxJobs ==> FirstJobs(jobs) == jobs
    ensures FirstJobs(FirstJobs(jobs)) == FirstJobs(jobs)
  {
  }

  /** Bottom navigation of the home screen. */
  function HomeNav(item: NavItem): (r: NavResult)
    ensures r.selected <==> item == NavHome || item == NavResume
    ensures r.start.Some? <==> item == NavResume
    ensures r.start.Some? ==> r.start.value == ResumeLibraryScreen
    ensures r.finish <==> r.start.Some?
    ensures item == NavDashboard ==> r.toast == Some("Dashboard - Coming Soon")
    ensures item == NavProfile ==> r.toast == Some("Profile - Coming Soon")
    ensures item != NavDashboard && item != NavProfile ==> r.toast == None
  {
    match item
    case NavHome => NavResult(true, None, false, None)
    case NavDashboard => NavResult(false, None, false, Some("Dashboard - Coming Soon"))
    case NavResume => NavResult(true, Some(ResumeLibraryScreen), true, None)
    case NavProfile => NavResult(false, None, false, Some("Profile - Coming Soon"))
    case OtherItem => NavResult(false, None, false, None)
  }

  /** The URI `onActivityResult` hands to the upload, if any. */
  function HomeUploadUri(requestCode: int, resultCode: int, data: Option<ResultData>): (u: Option<string>)
    ensures u.Some? ==> requestCode == 1001 && resultCode == -1
    ensures u.Some? <==> requestCode == 1001 && resultCode == -1 && data.Some? && data.value.uri.Some?
  {
    PickedUri(UploadRequestCode, requestCode, resultCode, data)
  }

  /** The home screen's job list state. */
  class HomeActivity {
    var jobList: seq<Job>
    var toast: Option<string>

    constructor ()
      ensures jobList == [] && toast == None
    {
      jobList := [];
      toast := None;
    }

    /**
     * `loadJobData`, given the parsed listings file (`None` when reading the
     * asset fails): keeps the first ten jobs, or empties the list and shows a toast.
     */
    method LoadJobData(parsed: Option<seq<Job>>)
      modifies this
      ensures parsed.Some? ==> jobList == FirstJobs(parsed.value) && toast == old(toast)
      ensures parsed.None? ==> jobList == [] && toast == Some("Error loading job data")
    {
      if parsed.Some? {
        jobList := parsed.value;
        if |jobList| > 10 {
          jobList := jobList[..10];
        }
      } else {
        toast := Some("Error loading job data");
        jobList := [];
      }
    }
  }
}

=== FILE: integration.dfy ===
/**
 * Facts that span several screens: what one screen hands to the next.
 */
module Flows {
  import opened Widgets
  import opened ResumeUpload
  import opened Feedback
  import Api
  import ResumeLibrary

  /**
   * The apply form starts the upload screen with no extras, so the upload
   * screen's job id is -1 and the feedback screen it starts closes at once
   * with its missing-data message, whichever file was picked.
   */
  lemma ApplyFlowLosesJobId(file: string)
    ensures IntExtraOr([], "job_id", -1) == -1
    ensures var i := FeedbackIntent(IntExtraOr([], "job_id", -1), file);
      ShouldFinishEarly(StringExtraOf(i.extras, "selected_resume_file"),
                        IntExtraOr(i.extras, "selected_job_id", -1))
  {
  }

  /** A résumé saved by the generate call is listed in the library as a PDF. */
  lemma GeneratedResumeListedAsPdf(timestamp: string, f: ResumeLibrary.FileEntry)
    requires f.name == Api.GeneratedFileName(timestamp)
    ensures ResumeLibrary.GeneratedResume(f).fileType == "pdf"
  {
  }
}

=== FILE: job.dfy ===
/** `Job`: a job listing as parsed from the listings file, and its avatar initials. */
module JobModel {
  import opened Wrappers
  import opened JString

  /** A job listing. Gson leaves `company` null when the listing has none. */
  datatype Job = Job(
    id: Int32,
    jobTitle: string,
    company: Option<string>,
    description: string,
    responsibilities: seq<string>,
    qualifications: seq<string>,
    skills: seq<string>,
    location: string,
    employmentType: string,
    experienceLevel: string,
    remote: string,
    salaryRange: string,
    datePosted: string,
    validThrough: string)

  function Min(a: int, b: int): int {
    if a <= b then a else b
  }

  /**
   * `getCompanyInitials` returns without throwing: a null or empty company,
   * or a split into one word, or into two or more whose first two are
   * non-empty (`substring(0, 1)` of an empty word throws).
   */
  predicate InitialsDefined(company: Option<string>) {
    company == None || company.value == "" ||
    var words := JavaSplitSpaces(company.value);
    |words| == 1 || (|words| >= 2 && words[0] != "" && words[1] != "")
  }

  /** The companies getCompanyInitials accepts: null, empty, or not starting with whitespace. */
  predicate InitialsSafe(company: Option<string>) {
    company == None || company.value == "" || !IsJavaSpace(company.value[0])
  }

  lemma InitialsSafeDefined(company: Option<string>)
    ensures InitialsSafe(company) <==> InitialsDefined(company)
  {
    if company.Some? && company.value != "" {
      InitialsDefinedIff(company.value);
    }
  }

  /**
   * `Job.getCompanyInitials`: "??", or the upper-cased start of the first
   * word, or of the first two words. `InitialsSafeDefined` shows that the
   * precondition holds exactly when the Java code does not throw.
   */
  function CompanyInitials(company: Option<string>): (r: string)
    requires InitialsSafe(company)
    ensures company == None || company.value == "" ==> r == "??"
    ensures company.Some? && company.value != "" ==> forall i :: 0 <= i < |r| ==> !('a' <= r[i] <= 'z')
  {
    InitialsSafeDefined(company);
    if company == None || company.value == "" then "??"
    else
      var words := JavaSplitSpaces(company.value);
      if |words| == 1 then ToUpper(words[0][..Min(2, |words[0]|)])
      else ToUpper(words[0][..1] + words[1][..1])
  }

  lemma WordEndNoSpaces(a: string, b: string)
    requires forall i :: 0 <= i < |a| ==> !IsJavaSpace(a[i])
    requires b != [] && IsJavaSpace(b[0])
    ensures WordEnd(a + b) == |a|
  {
    if a != [] {
      assert (a + b)[1..] == a[1..] + b;
      WordEndNoSpaces(a[1..], b);
    } else {
      assert a + b == b;
    }
  }

  /** What a split on `\s` keeps of pieces whose first is non-empty. */
  lemma DropKeepsFirstTwo(ps: seq<string>)
    requires |ps| >= 1 && ps[0] != ""
    requires forall i :: 0 <= i < |ps| - 1 ==> ps[i] != ""
    ensures |DropTrailingEmpty(ps)| >= 1 && DropTrailingEmpty(ps)[0] == ps[0]
    ensures |DropTrailingEmpty(ps)| >= 2 ==> DropTrailingEmpty(ps)[1] == ps[1] != ""
  {
    var d := DropTrailingEmpty(ps);
    if |d| >= 2 && |ps| > 2 {
      assert ps[1] != "";
    }
  }

  /** The first word of a company that starts with a non-space is its maximal non-space prefix. */
  lemma FirstWord(c: string)
    requires c != [] && !IsJavaSpace(c[0])
    ensures var w := JavaSplitSpaces(c);
      |w| >= 1 && w[0] != "" && w[0][0] == c[0] && (|w| >= 2 ==> w[1] != "")
  {
    var w := JavaSplitSpaces(c);
    if !(forall i :: 0 <= i < |c| ==> !IsJavaSpace(c[i])) {
      SpacePiecesNonEmpty(c);
      DropKeepsFirstTwo(SpacePieces(c));
      assert SpacePieces(c)[0] == c[..WordEnd(c)];
    }
  }

  /** getCompanyInitials throws on exactly the companies that start with whitespace. */
  lemma {:induction false} InitialsDefinedIff(c: string)
    requires c != []
    ensures InitialsDefined(Some(c)) <==> !IsJavaSpace(c[0])
  {
    if IsJavaSpace(c[0]) {
      assert !(forall i :: 0 <= i < |c| ==> !IsJavaSpace(c[i]));
      var ps := SpacePieces(c);
      assert WordEnd(c) == 0;
      assert ps[0] == "";
      var d := DropTrailingEmpty(ps);
      if |d| == 1 {
        assert d[0] == ps[0];
      }
    } else {
      FirstWord(c);
    }
  }

  /** A company not starting with whitespace gets one or two initials, the first its upper-cased first char. */
  lemma {:induction false} InitialsShape(c: string)
    requires c != [] && !IsJavaSpace(c[0])
    ensures InitialsSafe(Some(c)) && InitialsDefined(Some(c))
    ensures 1 <= |CompanyInitials(Some(c))| <= 2
    ensures CompanyInitials(Some(c))[0] == ToUpperChar(c[0])
  {
    FirstWord(c);
  }

  /** A one-word company gives its first (at most) two chars, upper-cased. */
  lemma OneWordInitials(c: string)
    requires c != [] && forall i :: 0 <= i < |c| ==> !IsJavaSpace(c[i])
    ensures InitialsSafe(Some(c))
    ensures CompanyInitials(Some(c)) == ToUpper(c[..Min(2, |c|)])
  {
  }

  /**
   * A company of two or more words gives the upper-cased first chars of the
   * first two words; whatever follows the second word's first char is ignored.
   */
  lemma {:induction false} TwoWordInitials(a: string, space: char, b: string)
    requires a != [] && forall i :: 0 <= i < |a| ==> !IsJavaSpace(a[i])
    requires IsJavaSpace(space)
    requires b != [] && !IsJavaSpace(b[0])
    ensures InitialsSafe(Some(a + [space] + b))
    ensures CompanyInitials(Some(a + [space] + b)) == [ToUpperChar(a[0]), ToUpperChar(b[0])]
  {
    var c := a + [space] + b;
    TwoWords(a, space, b);
    var w := JavaSplitSpaces(c);
    assert CompanyInitials(Some(c)) == ToUpper(w[0][..1] + w[1][..1]);
    assert w[0][..1] + w[1][..1] == [a[0], b[0]];
  }

  /** The split of `a`, a space and `b`: its first word is `a`, its second starts with `b`'s first char. */
  lemma TwoWords(a: string, space: char, b: string)
    requires a != [] && forall i :: 0 <= i < |a| ==> !IsJavaSpace(a[i])
    requires IsJavaSpace(space)
    requires b != [] && !IsJavaSpace(b[0])
    ensures var w := JavaSplitSpaces(a + [space] + b);
      |w| >= 2 && w[0] == a && w[1] != [] && w[1][0] == b[0]
  {
    var c := a + [space] + b;
    assert c == a + ([space] + b);
    WordEndNoSpaces(a, [space] + b);
    assert c[|a|] == space;
    assert !(forall i :: 0 <= i < |c| ==> !IsJavaSpace(c[i]));
    assert c[|a|..] == [space] + b;
    assert SkipSpaces([space] + b) == b;
    var ps := SpacePieces(c);
    assert ps == [a] + SpacePieces(b);
    SpacePiecesNonEmpty(b);
    assert SpacePieces(b)[0] == b[..WordEnd(b)];
    var d := DropTrailingEmpty(ps);
    assert ps[1] != "";
    assert |d| >= 2;
    assert d[0] == a && d[1] == ps[1];
  }
}

=== FILE: job_adapter.dfy ===
/** The job card list of the home screen. */
module JobCards {
  import opened Wrappers
  import opened Widgets
  import opened JobModel

  /** The six avatar colours, as 0xRRGGBB. */
  const AvatarPalette: seq<int> := [0x5E6BFF, 0xFF6B6B, 0x4ECDC4, 0x45B7D1, 0x96CEB4, 0xFECA57]

  /** `colors[position % colors.length]`: always an index into the palette. */
  function AvatarColorIndex(position: nat): (k: nat)
    ensures k < |AvatarPalette|
    ensures position < |AvatarPalette| ==> k == position
  {
    position % |AvatarPalette|
  }

  /** Neighbouring cards never share a colour, and the colours repeat every six cards. */
  lemma AvatarColorsCycle(position: nat)
    ensures AvatarColorIndex(position) != AvatarColorIndex(position + 1)
    ensures AvatarColorIndex(position + 6) == AvatarColorIndex(position)
  {
  }

  /** The skills shown on a card: the first `min(3, |skills|)`, in order. */
  function CardSkills(skills: seq<string>): (r: seq<string>)
    ensures |r| == Min(3, |skills|) && r == skills[..|r|]
  {
    skills[..Min(3, |skills|)]
  }

  /** The visible state of one job card. */
  class JobViewHolder {
    var jobTitle: string
    var companyName: Option<string>
    var companyInitials: string
    var salaryRange: string
    var avatarColor: int
    var timePosted: string
    /** The screen and extras a click on the card starts. */
    var click: Option<Intent>
    const skillsChipGroup: ChipGroup

    constructor ()
      ensures fresh(skillsChipGroup) && skillsChipGroup.chips == [] && click == None
    {
      jobTitle, companyName, companyInitials, salaryRange := "", None, "", "";
      avatarColor, timePosted, click := 0, "", None;
      skillsChipGroup := new ChipGroup();
    }
  }

  class JobAdapter {
    var jobs: seq<Job>

    constructor (jobs: seq<Job>)
      ensures this.jobs == jobs
    {
      this.jobs := jobs;
    }

    /** `getItemCount`. */
    method GetItemCount() returns (n: nat)
      ensures n == |jobs|
    {
      n := |jobs|;
    }

    /** `onBindViewHolder`: fills one card from the job at `position`. */
    method OnBindViewHolder(holder: JobViewHolder, position: nat)
      requires position < |jobs|
      requires InitialsSafe(jobs[position].company)
      modifies holder, holder.skillsChipGroup
      ensures var job := jobs[position];
        holder.jobTitle == job.jobTitle && holder.companyName == job.company &&
        holder.companyInitials == CompanyInitials(job.company) && holder.salaryRange == job.salaryRange
      ensures holder.avatarColor == AvatarPalette[AvatarColorIndex(position)]
      ensures holder.skillsChipGroup.chips == CardSkills(jobs[position].skills)
      ensures holder.timePosted == "Posted 3 days ago"
      ensures holder.click == Some(Intent(JobDetailScreen, [("job_id", IntExtra(jobs[position].id))]))
    {
      var job := jobs[position];
      holder.jobTitle := job.jobTitle;
      holder.companyName := job.company;
      holder.companyInitials := CompanyInitials(job.company);
      holder.salaryRange := job.salaryRange;
      holder.avatarColor := AvatarPalette[position % |AvatarPalette|];
      var chips := holder.skillsChipGroup;
      chips.RemoveAllViews();
      var skillCount := Min(3, |job.skills|);
      for i := 0 to skillCount
        modifies chips
        invariant chips.chips == job.skills[..i]
      {
        chips.AddView(job.skills[i]);
      }
      holder.timePosted := "Posted 3 days ago";
      holder.click := Some(Intent(JobDetailScreen, [("job_id", IntExtra(job.id))]));
    }
  }
}

=== FILE: job_detail.dfy ===
/** The job detail screen: which job it shows, its bullet lists, skills chips and tabs. */
module JobDetail {
  import opened Wrappers
  import opened JString
  import opened Widgets
  import opened JobModel

  /** The job id the screen was started with; 1 when the intent carries none. */
  function RequestedJobId(extras: seq<(string, Extra)>): (id: int)
    ensures (forall k :: 0 <= k < |extras| ==> extras[k].0 != "job_id") ==> id == 1
    ensures forall k :: LastUnder(extras, "job_id", k) ==> id == (if extras[k].1.IntExtra? then extras[k].1.i else 1)
  {
    IntExtraOr(extras, "job_id", 1)
  }

  /** The first job with the given id, if any. */
  function FirstWithId(jobs: seq<Job>, id: int): (r: Option<nat>)
    ensures r.Some? ==> r.value < |jobs| && jobs[r.value].id == id
    ensures forall j :: 0 <= j < |jobs| && (r.None? || j < r.value) ==> jobs[j].id != id
  {
    if jobs == [] then None
    else if jobs[0].id == id then Some(0)
    else
      var k := FirstWithId(jobs[1..], id);
      if k.Some? then Some(k.value + 1) else None
  }

  /**
   * `filter(job.id == jobId).findFirst().orElse(jobs.get(0))`; `orElse`
   * evaluates `jobs.get(0)` in any case, so the list must not be empty.
   */
  function FindJob(jobs: seq<Job>, id: int): (job: Job)
    requires |jobs| > 0
    ensures job in jobs
    ensures (exists k :: 0 <= k < |jobs| && jobs[k].id == id) ==> job.id == id
    ensures (forall k :: 0 <= k < |jobs| ==> jobs[k].id != id) ==> job == jobs[0]
  {
    var k := FirstWithId(jobs, id);
    if k.Some? then jobs[k.value] else jobs[0]
  }

  /** Among several jobs with the requested id, the first in the list is shown. */
  lemma FindJobFirst(jobs: seq<Job>, id: int, i: nat)
    requires i < |jobs| && jobs[i].id == id
    requires forall j :: 0 <= j < i ==> jobs[j].id != id
    ensures FindJob(jobs, id) == jobs[i]
  {
    var k := FirstWithId(jobs, id);
    assert k.Some? && k.value == i;
  }

  /** The text the bullet loop builds before trimming: one "• item\n" line per item. */
  function BulletLines(items: seq<string>): (t: string)
    ensures items == [] <==> t == []
    ensures items != [] ==> t[|t| - 1] == '\n'
    ensures |t| >= 3 * |items|
  {
    if items == [] then ""
    else BulletLines(items[..|items| - 1]) + "• " + items[|items| - 1] + "\n"
  }

  /** The items, each prefixed with "• ". */
  function Bulleted(items: seq<string>): (r: seq<string>)
    ensures |r| == |items|
    ensures forall i :: 0 <= i < |items| ==> r[i] == "• " + items[i]
  {
    seq(|items|, i requires 0 <= i < |items| => "• " + items[i])
  }

  /** The untrimmed bullet text is the bulleted items joined by newlines, plus a final newline. */
  lemma {:induction false} BulletLinesJoin(items: seq<string>)
    requires items != []
    ensures BulletLines(items) == Join("\n", Bulleted(items)) + "\n"
    decreases |items|
  {
    var init := items[..|items| - 1];
    var last := items[|items| - 1];
    if init == [] {
      assert Bulleted(items) == ["• " + last];
    } else {
      BulletLinesJoin(init);
      var b := "• " + last;
      var bs := Bulleted(init);
      var j := Join("\n", bs);
      BulletedSnoc(items);
      JoinAppend("\n", bs, b);
      assert BulletLines(items) == BulletLines(init) + "• " + last + "\n";
      BulletRegroup(j + "\n", last);
    }
  }

  lemma BulletedSnoc(items: seq<string>)
    requires items != []
    ensures Bulleted(items) == Bulleted(items[..|items| - 1]) + ["• " + items[|items| - 1]]
  {
  }

  lemma BulletRegroup(p: string, item: string)
    ensures p + "• " + item + "\n" == p + ("• " + item) + "\n"
  {
  }

  lemma {:induction false} BulletLinesStart(items: seq<string>)
    requires items != []
    ensures |BulletLines(items)| >= 2 && BulletLines(items)[..2] == "• "
    decreases |items|
  {
    if |items| > 1 { BulletLinesStart(items[..|items| - 1]); }
  }

  /**
   * The shown bullet text: empty for no items; otherwise it starts with the
   * bullet, and when the last item does not end in whitespace it is exactly
   * the bulleted items joined by newlines.
   */
  lemma {:induction false} BulletTextShape(items: seq<string>)
    ensures items == [] ==> Trim(BulletLines(items)) == ""
    ensures items != [] ==> Trim(BulletLines(items)) != [] && Trim(BulletLines(items))[0] == '•'
    ensures items != [] && items[|items| - 1] != [] && !IsTrimmable(items[|items| - 1][|items[|items| - 1]| - 1])
      ==> Trim(BulletLines(items)) == Join("\n", Bulleted(items))
  {
    if items != [] {
      var b := BulletLines(items);
      BulletLinesStart(items);
      assert b[0] == '•';
      TrimFacts(b);
      var last := items[|items| - 1];
      if last != [] && !IsTrimmable(last[|last| - 1]) {
        BulletLinesJoin(items);
        var j := Join("\n", Bulleted(items));
        assert b == j + "\n";
        assert b[..|b| - 1] == j;
        assert |b| - 2 >= 0 && b[|b| - 2] == last[|last| - 1] by {
          assert b == BulletLines(items[..|items| - 1]) + "• " + last + "\n";
        }
        assert TrimStart(b) == b;
        assert TrimEnd(b) == TrimEnd(j);
        assert j[|j| - 1] == last[|last| - 1];
      }
    }
  }

  /** The "strong … skills" word of the AI summary: the first skill, or "technical" with none. */
  function SummarySkill(skills: seq<string>): (w: string)
    ensures skills == [] ==> w == "technical"
    ensures skills != [] ==> w == skills[0]
  {
    if |skills| == 0 then "technical" else skills[0]
  }

  /** The three tab panels' visibility. */
  datatype Panels = Panels(description: bool, company: bool, aiSummary: bool)

  /** The panels shown for a tab position. */
  function TabPanels(position: int): (p: Panels)
    ensures p.description <==> position == 0
    ensures p.company <==> position == 1
    ensures p.aiSummary <==> position == 2
  {
    Panels(position == 0, position == 1, position == 2)
  }

  /** Exactly one panel is visible for positions 0, 1 and 2, none for any other. */
  lemma TabPanelsExclusive(position: int)
    ensures var p := TabPanels(position);
      (0 <= position <= 2 ==> (if p.description then 1 else 0) + (if p.company then 1 else 0)
                               + (if p.aiSummary then 1 else 0) == 1)
      && (!(0 <= position <= 2) ==> !p.description && !p.company && !p.aiSummary)
  {
  }

  /** The detail screen's visible state. */
  class JobDetailActivity {
    var currentJob: Option<Job>
    var companyInitials: string
    var responsibilitiesText: string
    var qualificationsText: string
    var summarySkill: string
    var panels: Panels
    var toast: Option<string>
    const skillsChipGroup: ChipGroup

    constructor ()
      ensures currentJob == None && toast == None && fresh(skillsChipGroup) && skillsChipGroup.chips == []
      ensures companyInitials == "" && responsibilitiesText == "" && qualificationsText == "" && summarySkill == ""
      ensures panels == Panels(false, false, false)
    {
      currentJob, companyInitials, responsibilitiesText, qualificationsText := None, "", "", "";
      summarySkill, panels, toast := "", Panels(false, false, false), None;
      skillsChipGroup := new ChipGroup();
    }

    /** `showTabContent`: hides all three panels, then shows the one for `position`. */
    method ShowTabContent(position: int)
      modifies this`panels
      ensures panels == TabPanels(position)
      ensures currentJob == old(currentJob) && toast == old(toast)
    {
      panels := Panels(false, false, false);
      if position == 0 {
        panels := panels.(description := true);
      } else if position == 1 {
        panels := panels.(company := true);
      } else if position == 2 {
        panels := panels.(aiSummary := true);
      }
    }

    /** The bullet loop of `populateTabContent`, with the final `trim()`. */
    static method BuildBulletText(items: seq<string>) returns (text: string)
      ensures text == Trim(BulletLines(items))
    {
      var sb := "";
      for i := 0 to |items|
        invariant sb == BulletLines(items[..i])
      {
        assert items[..i + 1][..i] == items[..i];
        sb := sb + "• " + items[i] + "\n";
      }
      assert items[..|items|] == items;
      text := Trim(sb);
    }

    /** The skills chip refill of `populateJobDetails`: cleared, then one chip per skill in order. */
    method PopulateSkills(skills: seq<string>)
      modifies skillsChipGroup
      ensures skillsChipGroup.chips == skills
    {
      skillsChipGroup.RemoveAllViews();
      for i := 0 to |skills|
        invariant skillsChipGroup.chips == skills[..i]
      {
        skillsChipGroup.AddView(skills[i]);
      }
      assert skills[..|skills|] == skills;
    }

    /** `populateJobDetails` (with `populateTabContent`) for the job being shown. */
    method PopulateJobDetails(job: Job)
      requires InitialsSafe(job.company)
      modifies this, skillsChipGroup
      ensures currentJob == old(currentJob) && toast == old(toast)
      ensures companyInitials == CompanyInitials(job.company)
      ensures skillsChipGroup.chips == job.skills
      ensures responsibilitiesText == Trim(BulletLines(job.responsibilities))
      ensures qualificationsText == Trim(BulletLines(job.qualifications))
      ensures summarySkill == SummarySkill(job.skills)
    {
      companyInitials := CompanyInitials(job.company);
      PopulateSkills(job.skills);
      responsibilitiesText := BuildBulletText(job.responsibilities);
      qualificationsText := BuildBulletText(job.qualifications);
      summarySkill := if |job.skills| == 0 then "technical" else job.skills[0];
    }

    /**
     * `loadJobData`, given the parsed listings file (`None` when reading the
     * asset fails): the job with the requested id, else the first, is shown.
     */
    method LoadJobData(extras: seq<(string, Extra)>, parsed: Option<seq<Job>>)
      requires parsed.Some? ==> |parsed.value| > 0
      requires parsed.Some? ==> InitialsSafe(FindJob(parsed.value, RequestedJobId(extras)).company)
      modifies this, skillsChipGroup
      ensures parsed.None? ==> toast == Some("Error loading job data") && currentJob == old(currentJob)
                               && skillsChipGroup.chips == old(skillsChipGroup.chips)
                               && companyInitials == old(companyInitials) && summarySkill == old(summarySkill)
                               && responsibilitiesText == old(responsibilitiesText)
                               && qualificationsText == old(qualificationsText)
      ensures parsed.Some? ==> currentJob == Some(FindJob(parsed.value, RequestedJobId(extras)))
                               && toast == old(toast)
      ensures parsed.Some? ==> skillsChipGroup.chips == currentJob.value.skills
                               && companyInitials == CompanyInitials(currentJob.value.company)
                               && responsibilitiesText == Trim(BulletLines(currentJob.value.responsibilities))
                               && qualificationsText == Trim(BulletLines(currentJob.value.qualifications))
                               && summarySkill == SummarySkill(currentJob.value.skills)
    {
      var jobId := RequestedJobId(extras);
      if parsed.None? {
        toast := Some("Error loading job data");
        return;
      }
      var job := FindJob(parsed.value, jobId);
      currentJob := Some(job);
      PopulateJobDetails(job);
    }
  }
}

=== FILE: json.dfy ===
/**
 * Parsed JSON objects as the feedback screens read them: an object is its
 * entries in key order, and the typed getters either give a value or signal
 * the `JSONException` the Java code would catch (`None`).
 */
module JsonModel {
  import opened Wrappers

  datatype Json =
    | JInt(i: Int32)
    | JStr(s: string)
    | JObj(entries: seq<(string, Json)>)
    | JOther

  type Entries = seq<(string, Json)>

  /** The value stored under `key` (its first entry), if any. */
  function Lookup(entries: Entries, key: string): (v: Option<Json>)
    ensures v.None? <==> forall k :: 0 <= k < |entries| ==> entries[k].0 != key
    ensures v.Some? ==> exists k :: 0 <= k < |entries| && entries[k] == (key, v.value)
  {
    if entries == [] then None
    else if entries[0].0 == key then Some(entries[0].1)
    else
      var v := Lookup(entries[1..], key);
      assert v.Some? ==> exists k :: 1 <= k < |entries| && entries[k] == (key, v.value) by {
        if v.Some? {
          var k :| 0 <= k < |entries[1..]| && entries[1..][k] == (key, v.value);
          assert entries[k + 1] == (key, v.value);
        }
      }
      v
  }

  /** `has(key)`. */
  predicate Has(entries: Entries, key: string) {
    Lookup(entries, key).Some?
  }

  /** `getJSONObject(key)`: the entries of a nested object, or `None` where Java throws. */
  function GetObject(entries: Entries, key: string): (o: Option<Entries>)
    ensures o.Some? <==> Has(entries, key) && Lookup(entries, key).value.JObj?
    ensures o.Some? ==> Lookup(entries, key) == Some(JObj(o.value))
  {
    match Lookup(entries, key)
    case Some(JObj(e)) => Some(e)
    case _ => None
  }

  /** `getInt(key)`: an int value, or `None` where Java throws. */
  function GetInt(entries: Entries, key: string): (n: Option<Int32>)
    ensures n.Some? <==> Has(entries, key) && Lookup(entries, key).value.JInt?
    ensures n.Some? ==> Lookup(entries, key) == Some(JInt(n.value))
  {
    match Lookup(entries, key)
    case Some(JInt(i)) => Some(i)
    case _ => None
  }

  /** `getString(key)`: a string value, or `None` where Java throws. */
  function GetString(entries: Entries, key: string): (s: Option<string>)
    ensures s.Some? <==> Has(entries, key) && Lookup(entries, key).value.JStr?
    ensures s.Some? ==> Lookup(entries, key) == Some(JStr(s.value))
  {
    match Lookup(entries, key)
    case Some(JStr(t)) => Some(t)
    case _ => None
  }

  /** `optInt(key, default)`: the int value, or `default` when the key is absent or not an int. */
  function OptInt(entries: Entries, key: string, default: Int32): (n: Int32)
    ensures !Has(entries, key) ==> n == default
    ensures GetInt(entries, key).Some? ==> n == GetInt(entries, key).value
    ensures GetInt(entries, key).None? ==> n == default
  {
    GetInt(entries, key).GetOr(default)
  }
}

=== FILE: jstring.dfy ===
/**
 * The parts of `java.lang.String` (and of Python string formatting) that the
 * screens rely on, on `seq<char>`. Case mapping is ASCII only.
 */
module JString {

  // ---------------------------------------------------------------- trim

  /** `String.trim` strips every leading and trailing char whose code is at most U+0020. */
  predicate IsTrimmable(c: char) {
    c <= ' '
  }

  function TrimStart(s: string): string {
    if s != [] && IsTrimmable(s[0]) then TrimStart(s[1..]) else s
  }

  function TrimEnd(s: string): string {
    if s != [] && IsTrimmable(s[|s| - 1]) then TrimEnd(s[..|s| - 1]) else s
  }

  /** Java `s.trim()`: neither end of the result is trimmable; `TrimFacts` states the rest. */
  function Trim(s: string): (r: string)
    ensures |r| <= |s|
    ensures r != [] ==> !IsTrimmable(r[0]) && !IsTrimmable(r[|r| - 1])
  {
    TrimStartFacts(s);
    TrimEndFacts(TrimStart(s));
    TrimEnd(TrimStart(s))
  }

  /** `TrimStart` drops exactly the leading trimmable chars. */
  lemma {:induction false} TrimStartFacts(s: string)
    ensures |TrimStart(s)| <= |s|
    ensures TrimStart(s) == s[|s| - |TrimStart(s)|..]
    ensures TrimStart(s) != [] ==> !IsTrimmable(TrimStart(s)[0])
    ensures forall i :: 0 <= i < |s| - |TrimStart(s)| ==> IsTrimmable(s[i])
    decreases |s|
  {
    if s != [] && IsTrimmable(s[0]) {
      var t := s[1..];
      TrimStartFacts(t);
      var r := TrimStart(t);
      assert TrimStart(s) == r;
      assert s[|s| - |r|..] == t[|t| - |r|..];
      forall i | 0 <= i < |s| - |r|
        ensures IsTrimmable(s[i])
      {
        if i > 0 {
          assert s[i] == t[i - 1];
        }
      }
    } else {
      assert s[0..] == s;
    }
  }

  /** `TrimEnd` drops exactly the trailing trimmable chars. */
  lemma {:induction false} TrimEndFacts(s: string)
    ensures var r := TrimEnd(s);
      |r| <= |s| && r == s[..|r|] && (r != [] ==> !IsTrimmable(r[|r| - 1])) &&
      forall i :: |r| <= i < |s| ==> IsTrimmable(s[i])
  {
    if s != [] && IsTrimmable(s[|s| - 1]) {
      var t := s[..|s| - 1];
      TrimEndFacts(t);
      var r := TrimEnd(t);
      assert TrimEnd(s) == r;
      assert s[..|r|] == t[..|r|];
    }
  }

  /**
   * The trimmed text neither starts nor ends with a trimmable char, is empty
   * exactly when `s` is all trimmable, and keeps a non-trimmable first char.
   */
  lemma TrimFacts(s: string)
    ensures |Trim(s)| <= |s|
    ensures Trim(s) != [] ==> !IsTrimmable(Trim(s)[0]) && !IsTrimmable(Trim(s)[|Trim(s)| - 1])
    ensures Trim(s) == [] <==> forall i :: 0 <= i < |s| ==> IsTrimmable(s[i])
    ensures s != [] && !IsTrimmable(s[0]) ==> Trim(s) != [] && Trim(s)[0] == s[0]
  {
    var t := TrimStart(s);
    TrimStartFacts(s);
    TrimEndFacts(t);
    var r := TrimEnd(t);
    if r == [] {
      assert t == [];
    } else {
      assert r[0] == t[0];
    }
  }

  /** A text that neither starts nor ends with a trimmable char is its own trim. */
  lemma TrimUntouched(s: string)
    requires s != [] ==> !IsTrimmable(s[0]) && !IsTrimmable(s[|s| - 1])
    ensures Trim(s) == s
  {
  }

  // --------------------------------------------------------- case mapping

  function ToUpperChar(c: char): (u: char)
    ensures u != c ==> 'a' <= c <= 'z'
  {
    if 'a' <= c <= 'z' then (c as int - 32) as char else c
  }

  function ToLowerChar(c: char): (l: char)
    ensures l != c ==> 'A' <= c <= 'Z'
  {
    if 'A' <= c <= 'Z' then (c as int + 32) as char else c
  }

  /** `String.toUpperCase` restricted to ASCII letters. */
  function ToUpper(s: string): (r: string)
    ensures |r| == |s|
    ensures forall i :: 0 <= i < |s| ==> r[i] == ToUpperChar(s[i])
  {
    seq(|s|, i requires 0 <= i < |s| => ToUpperChar(s[i]))
  }

  /** `String.toLowerCase` restricted to ASCII letters. */
  function ToLower(s: string): (r: string)
    ensures |r| == |s|
    ensures forall i :: 0 <= i < |s| ==> r[i] == ToLowerChar(s[i])
  {
    seq(|s|, i requires 0 <= i < |s| => ToLowerChar(s[i]))
  }

  /** `String.equalsIgnoreCase` for ASCII text. */
  function EqualsIgnoreCase(a: string, b: string): (eq: bool)
    ensures eq <==> |a| == |b| && forall i :: 0 <= i < |a| ==> ToLowerChar(a[i]) == ToLowerChar(b[i])
  {
    ToLower(a) == ToLower(b)
  }

  // ------------------------------------------------------ prefixes, search

  predicate EndsWith(s: string, suffix: string) {
    |suffix| <= |s| && s[|s| - |suffix|..] == suffix
  }

  /** `s.lastIndexOf(c)`: the last index holding `c`, or -1. */
  function LastIndexOf(s: string, c: char): (r: int)
    ensures -1 <= r < |s|
    ensures r >= 0 ==> s[r] == c
    ensures forall i :: r < i < |s| ==> s[i] != c
  {
    if s == [] then -1
    else if s[|s| - 1] == c then |s| - 1
    else LastIndexOf(s[..|s| - 1], c)
  }

  /** `s.indexOf(c)`: the first index holding `c`, or -1. */
  function IndexOf(s: string, c: char): (r: int)
    ensures -1 <= r < |s|
    ensures r >= 0 ==> s[r] == c
    ensures forall i :: 0 <= i < |s| && (r == -1 || i < r) ==> s[i] != c
  {
    if s == [] then -1
    else if s[0] == c then 0
    else var k := IndexOf(s[1..], c); if k == -1 then -1 else k + 1
  }

  /** Number of occurrences of `c` in `s`. */
  function Count(s: string, c: char): nat {
    if s == [] then 0 else Count(s[..|s| - 1], c) + (if s[|s| - 1] == c then 1 else 0)
  }

  lemma {:induction false} CountAppend(a: string, b: string, c: char)
    ensures Count(a + b, c) == Count(a, c) + Count(b, c)
    decreases |b|
  {
    if b != [] {
      assert (a + b)[..|a + b| - 1] == a + b[..|b| - 1];
      CountAppend(a, b[..|b| - 1], c);
    } else {
      assert a + b == a;
    }
  }

  lemma {:induction false} CountAbsent(s: string, c: char)
    requires forall i :: 0 <= i < |s| ==> s[i] != c
    ensures Count(s, c) == 0
  {
    if s != [] { CountAbsent(s[..|s| - 1], c); }
  }

  // --------------------------------------------------------------- replace

  /**
   * `s.replace(target, replacement)`: every non-overlapping occurrence of
   * `target`, scanned from the left, is replaced.
   */
  function ReplaceAll(s: string, target: string, replacement: string): (r: string)
    requires target != []
    ensures (forall i :: !OccursAt(s, target, i)) ==> r == s
    decreases |s|
  {
    if |s| < |target| then s
    else if s[..|target|] == target then
      assert OccursAt(s, target, 0);
      replacement + ReplaceAll(s[|target|..], target, replacement)
    else
      OccursInTail(s, target);
      [s[0]] + ReplaceAll(s[1..], target, replacement)
  }

  /** An occurrence in the tail of `s` is an occurrence in `s`, one index later. */
  lemma OccursInTail(s: string, target: string)
    requires s != []
    ensures forall i :: OccursAt(s[1..], target, i) ==> OccursAt(s, target, i + 1)
  {
    forall i | OccursAt(s[1..], target, i)
      ensures OccursAt(s, target, i + 1)
    {
      assert s[1..][i..i + |target|] == s[i + 1..i + 1 + |target|];
    }
  }

  /** Replacing a single char by text without it leaves no occurrence of that char. */
  lemma {:induction false} ReplaceCharRemovesIt(s: string, c: char, replacement: string)
    requires c !in replacement
    ensures c !in ReplaceAll(s, [c], replacement)
    decreases |s|
  {
    if |s| >= 1 {
      ReplaceCharRemovesIt(s[1..], c, replacement);
    }
  }

  /** A single-char replacement works piecewise on a concatenation. */
  lemma {:induction false} ReplaceCharAppend(a: string, b: string, c: char, replacement: string)
    ensures ReplaceAll(a + b, [c], replacement)
         == ReplaceAll(a, [c], replacement) + ReplaceAll(b, [c], replacement)
    decreases |a|
  {
    if a == [] {
      assert a + b == b;
    } else {
      assert (a + b)[1..] == a[1..] + b;
      assert (a + b)[..1] == a[..1];
      ReplaceCharAppend(a[1..], b, c, replacement);
    }
  }

  /** Replacing a char by a char substitutes it at every position and keeps every other char. */
  lemma {:induction false} ReplaceCharByChar(s: string, c: char, d: char)
    ensures ReplaceAll(s, [c], [d]) == seq(|s|, i requires 0 <= i < |s| => if s[i] == c then d else s[i])
    decreases |s|
  {
    if s != [] {
      ReplaceCharByChar(s[1..], c, d);
      assert s[..1] == [c] <==> s[0] == c;
    }
  }

  /** Text without the target's last char holds no occurrence of the target. */
  lemma {:induction false} ReplaceAbsent(s: string, target: string, replacement: string)
    requires target != [] && target[|target| - 1] !in s
    ensures ReplaceAll(s, target, replacement) == s
    decreases |s|
  {
    if |s| >= |target| {
      assert s[..|target|][|target| - 1] in s;
      ReplaceAbsent(s[1..], target, replacement);
    }
  }

  // ------------------------------------------------------------------ join

  /** `String.join(sep, xs)`. */
  function Join(sep: string, xs: seq<string>): string {
    if xs == [] then ""
    else if |xs| == 1 then xs[0]
    else xs[0] + sep + Join(sep, xs[1..])
  }

  /** Joining one more element extends the joined text by the separator and that element. */
  lemma {:induction false} JoinAppend(sep: string, xs: seq<string>, y: string)
    requires xs != []
    ensures Join(sep, xs + [y]) == Join(sep, xs) + sep + y
    decreases |xs|
  {
    if |xs| == 1 {
      assert (xs + [y])[1..] == [y];
    } else {
      assert (xs + [y])[1..] == xs[1..] + [y];
      JoinAppend(sep, xs[1..], y);
    }
  }

  /** `sub` occurs in `s` at index `i`. */
  predicate OccursAt(s: string, sub: string, i: int) {
    0 <= i && i + |sub| <= |s| && s[i..i + |sub|] == sub
  }

  /** The first index at which `sub` occurs in `s`, or -1. */
  function IndexOfSub(s: string, sub: string): (k: int)
    requires sub != []
    ensures k == -1 || 0 <= k <= |s| - |sub|
    ensures k >= 0 ==> OccursAt(s, sub, k)
    ensures forall i :: 0 <= i < |s| && (k == -1 || i < k) ==> !OccursAt(s, sub, i)
    decreases |s|
  {
    if |s| < |sub| then -1
    else if s[..|sub|] == sub then 0
    else
      var k := IndexOfSub(s[1..], sub);
      assert forall i :: 1 <= i < |s| ==> OccursAt(s, sub, i) == OccursAt(s[1..], sub, i - 1);
      assert !OccursAt(s, sub, 0);
      if k == -1 then -1 else k + 1
  }

  /** Cuts `s` at every occurrence of `sep`: the reading-back of `Join`. */
  function SplitOn(s: string, sep: string): (r: seq<string>)
    requires sep != []
    ensures |r| >= 1
    decreases |s|
  {
    var k := IndexOfSub(s, sep);
    if k == -1 then [s] else [s[..k]] + SplitOn(s[k + |sep|..], sep)
  }

  lemma IndexOfSubAfterPiece(x: string, sep: string, rest: string)
    requires sep != [] && sep[0] !in x
    ensures IndexOfSub(x + sep + rest, sep) == |x|
  {
    var s := x + sep + rest;
    assert OccursAt(s, sep, |x|);
    forall i | 0 <= i < |x| ensures !OccursAt(s, sep, i) {
      assert s[i] == x[i];
    }
  }

  lemma IndexOfSubNone(x: string, sep: string)
    requires sep != [] && sep[0] !in x
    ensures IndexOfSub(x, sep) == -1
  {
    forall i | 0 <= i < |x| ensures !OccursAt(x, sep, i) {
      if i + |sep| <= |x| { assert x[i..i + |sep|][0] == x[i]; }
    }
  }

  /** Joined text reads back into the same entries when no entry holds the separator's first char. */
  lemma {:induction false} SplitJoin(sep: string, xs: seq<string>)
    requires sep != [] && xs != []
    requires forall i :: 0 <= i < |xs| ==> sep[0] !in xs[i]
    ensures SplitOn(Join(sep, xs), sep) == xs
  {
    if |xs| == 1 {
      IndexOfSubNone(xs[0], sep);
    } else {
      var rest := Join(sep, xs[1..]);
      IndexOfSubAfterPiece(xs[0], sep, rest);
      var s := xs[0] + sep + rest;
      assert s[..|xs[0]|] == xs[0];
      assert s[|xs[0]| + |sep|..] == rest;
      SplitJoin(sep, xs[1..]);
    }
  }

  // ------------------------------------------------------------------ split

  /** All pieces of `s` between occurrences of `c` (empty pieces kept). */
  function SplitChar(s: string, c: char): (r: seq<string>)
    ensures |r| >= 1
    ensures forall i :: 0 <= i < |r| ==> c !in r[i]
    decreases |s|
  {
    var k := IndexOf(s, c);
    if k == -1 then [s] else [s[..k]] + SplitChar(s[k + 1..], c)
  }

  /** Drops the empty pieces at the end, as `String.split` does. */
  function DropTrailingEmpty(ps: seq<string>): (r: seq<string>)
    ensures |r| <= |ps| && r == ps[..|r|]
    ensures r != [] ==> r[|r| - 1] != ""
    ensures forall i :: |r| <= i < |ps| ==> ps[i] == ""
  {
    if ps != [] && ps[|ps| - 1] == "" then DropTrailingEmpty(ps[..|ps| - 1]) else ps
  }

  /** `s.split(c)` for a one-char literal pattern. */
  function JavaSplitChar(s: string, c: char): (r: seq<string>)
    ensures c !in s ==> r == [s]
    ensures forall i :: 0 <= i < |r| ==> c !in r[i]
    ensures c in s && r != [] ==> r[|r| - 1] != ""
  {
    if c !in s then [s] else DropTrailingEmpty(SplitChar(s, c))
  }

  /** The first piece of a split is the text before the first `c`. */
  lemma SplitCharFirst(s: string, c: char)
    ensures SplitChar(s, c)[0] == if IndexOf(s, c) == -1 then s else s[..IndexOf(s, c)]
  {
  }

  /** Java's `\s`: space, tab, newline, vertical tab, form feed, carriage return. */
  predicate IsJavaSpace(c: char) {
    c == ' ' || c == '\t' || c == '\n' || c == '\U{000B}' || c == '\U{000C}' || c == '\r'
  }

  /** The number of leading non-space chars. */
  function WordEnd(s: string): (k: nat)
    ensures k <= |s|
    ensures forall i :: 0 <= i < k ==> !IsJavaSpace(s[i])
    ensures k < |s| ==> IsJavaSpace(s[k])
  {
    if s == [] || IsJavaSpace(s[0]) then 0 else WordEnd(s[1..]) + 1
  }

  function SkipSpaces(s: string): (r: string)
    ensures |r| <= |s|
    ensures r != [] ==> !IsJavaSpace(r[0])
  {
    if s != [] && IsJavaSpace(s[0]) then SkipSpaces(s[1..]) else s
  }

  /**
   * The pieces between maximal runs of `\s`, keeping an empty first piece
   * when `s` starts with a space and an empty last piece when it ends with one.
   */
  function SpacePieces(s: string): (r: seq<string>)
    ensures |r| >= 1
    ensures forall i, j :: 0 <= i < |r| && 0 <= j < |r[i]| ==> !IsJavaSpace(r[i][j])
    decreases |s|
  {
    var k := WordEnd(s);
    if k == |s| then [s] else [s[..k]] + SpacePieces(SkipSpaces(s[k..]))
  }

  /** `s.split("\\s+")`. */
  function JavaSplitSpaces(s: string): (r: seq<string>)
    ensures (forall i :: 0 <= i < |s| ==> !IsJavaSpace(s[i])) ==> r == [s]
    ensures forall i, j :: 0 <= i < |r| && 0 <= j < |r[i]| ==> !IsJavaSpace(r[i][j])
  {
    if forall i :: 0 <= i < |s| ==> !IsJavaSpace(s[i]) then [s]
    else DropTrailingEmpty(SpacePieces(s))
  }

  /** On text starting with a non-space, every piece but possibly the last is non-empty. */
  lemma {:induction false} SpacePiecesNonEmpty(s: string)
    requires s != [] && !IsJavaSpace(s[0])
    ensures forall i :: 0 <= i < |SpacePieces(s)| - 1 ==> SpacePieces(s)[i] != ""
    ensures SpacePieces(s)[0] != ""
    decreases |s|
  {
    var k := WordEnd(s);
    if k < |s| {
      var t := SkipSpaces(s[k..]);
      if t != [] {
        SpacePiecesNonEmpty(t);
      }
    }
  }

  // -------------------------------------------------------- int to string

  function DigitChar(d: nat): (c: char)
    requires d < 10
    ensures c as int - '0' as int == d
  {
    ['0', '1', '2', '3', '4', '5', '6', '7', '8', '9'][d]
  }

  function NatToString(n: nat): (r: string)
    ensures r != []
    ensures forall k :: 0 <= k < |r| ==> '0' <= r[k] <= '9'
  {
    if n < 10 then [DigitChar(n)] else NatToString(n / 10) + [DigitChar(n % 10)]
  }

  /** `Integer.toString(i)` / string concatenation of an `int`: a '-' exactly for a negative value, then digits. */
  function IntToString(i: int): (r: string)
    ensures r != [] && (r[0] == '-' <==> i < 0)
    ensures forall k :: 0 < k < |r| ==> '0' <= r[k] <= '9'
  {
    if i < 0 then "-" + NatToString(-i) else NatToString(i)
  }
}

=== FILE: resume.dfy ===
/** `Resume`: a résumé entry of the library and its display name. */
module ResumeModel {
  import opened Wrappers
  import opened JString

  /** A résumé entry; a null `name` is `None`. */
  datatype Resume = Resume(
    id: string,
    name: Option<string>,
    filename: string,
    createdDate: string,
    fileType: string,
    industry: string,
    thumbnailPath: string,
    isActive: bool)

  /** The seven-argument constructor: every argument is kept as given and the entry starts active. */
  function NewResume(id: string, name: Option<string>, filename: string, createdDate: string,
                     fileType: string, industry: string, thumbnailPath: string): (r: Resume)
    ensures r.id == id && r.name == name && r.filename == filename && r.createdDate == createdDate
    ensures r.fileType == fileType && r.industry == industry && r.thumbnailPath == thumbnailPath
    ensures r.isActive
  {
    Resume(id, name, filename, createdDate, fileType, industry, thumbnailPath, true)
  }

  /**
   * `getDisplayName` returns without throwing: with a null name,
   * `createdDate.split("-")` must leave at least one piece.
   */
  predicate DisplayNameDefined(r: Resume) {
    r.name.Some? || |JavaSplitChar(r.createdDate, '-')| > 0
  }

  /** `Resume.getDisplayName`. */
  function DisplayName(r: Resume): (d: string)
    requires DisplayNameDefined(r)
    ensures r.name.Some? ==> d == r.name.value
    ensures r.name.None? ==> |d| >= 7 && d[..7] == "Resume_"
  {
    if r.name.Some? then r.name.value else "Resume_" + JavaSplitChar(r.createdDate, '-')[0]
  }

  /** The text of `s` before its first `c` (all of `s` when there is none). */
  function Before(s: string, c: char): (p: string)
    ensures c !in p
    ensures |p| <= |s| && p == s[..|p|]
    ensures |p| < |s| ==> s[|p|] == c
  {
    var k := IndexOf(s, c);
    if k == -1 then s else s[..k]
  }

  /** Without a name, the display name is "Resume_" followed by the created date up to its first '-'. */
  lemma DisplayNameFallback(r: Resume)
    requires r.name.None? && DisplayNameDefined(r)
    ensures DisplayName(r) == "Resume_" + Before(r.createdDate, '-')
  {
    var s := r.createdDate;
    if '-' in s {
      var ps := SplitChar(s, '-');
      SplitCharFirst(s, '-');
      assert DropTrailingEmpty(ps)[0] == ps[0];
    }
  }

  predicate AllChar(s: string, c: char) {
    forall i :: 0 <= i < |s| ==> s[i] == c
  }

  predicate AllEmpty(ps: seq<string>) {
    forall i :: 0 <= i < |ps| ==> ps[i] == ""
  }

  /** Splitting on `c` gives only empty pieces exactly when every char is `c`. */
  lemma {:induction false} SplitCharAllEmpty(s: string, c: char)
    ensures AllEmpty(SplitChar(s, c)) <==> AllChar(s, c)
    decreases |s|
  {
    var k := IndexOf(s, c);
    var ps := SplitChar(s, c);
    if k != -1 {
      var rest := s[k + 1..];
      SplitCharAllEmpty(rest, c);
      assert ps == [s[..k]] + SplitChar(rest, c);
      if AllChar(s, c) {
        assert k == 0;
        assert AllChar(rest, c) by {
          forall i | 0 <= i < |rest| ensures rest[i] == c { assert rest[i] == s[i + 1]; }
        }
        assert AllEmpty(ps) by {
          forall i | 0 <= i < |ps| ensures ps[i] == "" {
            if i > 0 { assert ps[i] == SplitChar(rest, c)[i - 1]; }
          }
        }
      }
      if AllEmpty(ps) {
        assert ps[0] == s[..k];
        assert AllEmpty(SplitChar(rest, c)) by {
          forall j | 0 <= j < |SplitChar(rest, c)| ensures SplitChar(rest, c)[j] == "" {
            assert SplitChar(rest, c)[j] == ps[j + 1];
          }
        }
        assert AllChar(s, c) by {
          forall i | 0 <= i < |s| ensures s[i] == c {
            if i > 0 { assert s[i] == rest[i - 1]; }
          }
        }
      }
    } else {
      assert ps == [s];
      if s != [] {
        assert ps[0] != "";
        assert s[0] != c;
      }
    }
  }

  /** getDisplayName throws, for a null name, on exactly the non-empty created dates made only of '-'. */
  lemma {:induction false} DisplayNameDefinedIff(r: Resume)
    requires r.name.None?
    ensures DisplayNameDefined(r) <==>
      r.createdDate == "" || exists i :: 0 <= i < |r.createdDate| && r.createdDate[i] != '-'
  {
    var s := r.createdDate;
    if '-' in s {
      var ps := SplitChar(s, '-');
      var d := DropTrailingEmpty(ps);
      SplitCharAllEmpty(s, '-');
      if |d| > 0 {
        assert d[|d| - 1] == ps[|d| - 1];
        assert !AllEmpty(ps);
      } else {
        assert AllEmpty(ps);
        assert AllChar(s, '-');
      }
    } else if s != [] {
      assert s[0] != '-';
    }
  }
}

=== FILE: resume_builder.dfy ===
/**
 * The résumé builder screen: collapsible sections, the current-job checkbox,
 * the skill chips and language rows the user adds and removes, the
 * required-field check and the data sent for generation.
 */
module ResumeBuilder {
  import opened Wrappers
  import opened JString

  // ------------------------------------------------------------- sections

  /** The six collapsible cards. */
  datatype SectionId = PersonalInfo | Objectives | Experience | Education | Skills | Language

  /** A card's content visibility and its expand icon's rotation in degrees. */
  datatype SectionState = SectionState(visible: bool, rotation: int)

  /** `toggleSection`: a visible card collapses with its icon at 0°, a hidden one expands with it at 180°. */
  function Toggled(s: SectionState): (r: SectionState)
    ensures r.visible == !s.visible
    ensures r.rotation == (if r.visible then 180 else 0)
  {
    if s.visible then SectionState(false, 0) else SectionState(true, 180)
  }

  /**
   * Toggling twice restores the visibility, and restores the whole state
   * once the icon agrees with the visibility (after any first toggle).
   */
  lemma ToggleTwice(s: SectionState)
    ensures Toggled(Toggled(s)).visible == s.visible
    ensures s.rotation == (if s.visible then 180 else 0) ==> Toggled(Toggled(s)) == s
    ensures Toggled(Toggled(Toggled(s))) == Toggled(s)
  {
  }

  // ----------------------------------------------------------- skill chips

  /** Some chip already shows `text`, ignoring case. */
  predicate HasSkillIgnoringCase(skills: seq<string>, text: string) {
    exists i :: 0 <= i < |skills| && EqualsIgnoreCase(skills[i], text)
  }

  /** No two chips show the same text ignoring case. */
  predicate DistinctIgnoringCase(skills: seq<string>) {
    forall i, j :: 0 <= i < j < |skills| ==> !EqualsIgnoreCase(skills[i], skills[j])
  }

  /** The chips after `addSkillChip(text)`. */
  function AddSkill(skills: seq<string>, text: string): (r: seq<string>)
    ensures HasSkillIgnoringCase(r, text)
    ensures |skills| <= |r| <= |skills| + 1 && r[..|skills|] == skills
    ensures |r| == |skills| + 1 <==> !HasSkillIgnoringCase(skills, text)
    ensures |r| == |skills| + 1 ==> r[|skills|] == text
  {
    if HasSkillIgnoringCase(skills, text) then skills
    else
      var r := skills + [text];
      assert EqualsIgnoreCase(r[|skills|], text);
      r
  }

  /** Adding a skill keeps the chips free of case-insensitive duplicates. */
  lemma AddSkillKeepsDistinct(skills: seq<string>, text: string)
    requires DistinctIgnoringCase(skills)
    ensures DistinctIgnoringCase(AddSkill(skills, text))
  {
    var r := AddSkill(skills, text);
    if |r| == |skills| + 1 {
      forall i, j | 0 <= i < j < |r| ensures !EqualsIgnoreCase(r[i], r[j]) {
        if j == |skills| {
          assert r[i] == skills[i] && r[j] == text;
        } else {
          assert r[i] == skills[i] && r[j] == skills[j];
        }
      }
    }
  }

  /** Adding the same skill again, in any letter case, changes nothing. */
  lemma AddSkillIdempotent(skills: seq<string>, text: string, again: string)
    requires EqualsIgnoreCase(text, again)
    ensures AddSkill(AddSkill(skills, text), again) == AddSkill(skills, text)
  {
    var r := AddSkill(skills, text);
    var i :| 0 <= i < |r| && EqualsIgnoreCase(r[i], text);
    assert EqualsIgnoreCase(r[i], again);
  }

  /** The sequence without its element at `i`; the rest keep their order. */
  function RemoveAt<T>(s: seq<T>, i: nat): (r: seq<T>)
    requires i < |s|
    ensures |r| == |s| - 1
    ensures forall k :: 0 <= k < i ==> r[k] == s[k]
    ensures forall k :: i <= k < |r| ==> r[k] == s[k + 1]
  {
    s[..i] + s[i + 1..]
  }

  /** Removing a chip keeps the chips free of case-insensitive duplicates. */
  lemma RemoveKeepsDistinct(skills: seq<string>, i: nat)
    requires i < |skills| && DistinctIgnoringCase(skills)
    ensures DistinctIgnoringCase(RemoveAt(skills, i))
  {
    var r := RemoveAt(skills, i);
    forall a, b | 0 <= a < b < |r| ensures !EqualsIgnoreCase(r[a], r[b]) {
      var a' := if a < i then a else a + 1;
      var b' := if b < i then b else b + 1;
      assert r[a] == skills[a'] && r[b] == skills[b'] && a' < b';
    }
  }

  /** The popular skills offered as suggestion chips, in display order. */
  const PopularSkills: seq<string> := ["JavaScript", "Python", "Java", "React", "Node.js", "SQL", "Leadership",
    "Communication", "Project Management", "Problem Solving", "Teamwork", "Data Analysis"]

  /** `EditorInfo.IME_ACTION_DONE` and `KeyEvent.KEYCODE_ENTER`. */
  const ImeActionDone: int := 6
  const KeycodeEnter: int := 66

  /** The editor action submits the typed skill: IME "done", or a key event whose code is Enter. */
  predicate SubmitsSkill(actionId: int, keyCode: Option<int>) {
    actionId == ImeActionDone || (keyCode.Some? && keyCode.value == KeycodeEnter)
  }

  // --------------------------------------------------------- language rows

  /** A language row: its tag (the language) and the text it shows. */
  datatype LanguageRow = LanguageRow(tag: string, text: string)

  /** Some row is tagged with exactly `language` (case-sensitive). */
  predicate HasLanguageTag(rows: seq<LanguageRow>, language: string) {
    exists i :: 0 <= i < |rows| && rows[i].tag == language
  }

  /** No two rows carry the same tag. */
  predicate DistinctTags(rows: seq<LanguageRow>) {
    forall i, j :: 0 <= i < j < |rows| ==> rows[i].tag != rows[j].tag
  }

  /** The rows after `addLanguageItem(language, proficiency)`. */
  function AddLanguage(rows: seq<LanguageRow>, language: string, proficiency: string): (r: seq<LanguageRow>)
    ensures HasLanguageTag(r, language)
    ensures |rows| <= |r| <= |rows| + 1 && r[..|rows|] == rows
    ensures |r| == |rows| + 1 <==> !HasLanguageTag(rows, language)
    ensures |r| == |rows| + 1 ==> r[|rows|].tag == language && r[|rows|].text == language + " (" + proficiency + ")"
  {
    if HasLanguageTag(rows, language) then rows
    else
      var r := rows + [LanguageRow(language, language + " (" + proficiency + ")")];
      assert r[|rows|].tag == language;
      r
  }

  /** Adding a language keeps the row tags distinct. */
  lemma AddLanguageKeepsDistinct(rows: seq<LanguageRow>, language: string, proficiency: string)
    requires DistinctTags(rows)
    ensures DistinctTags(AddLanguage(rows, language, proficiency))
  {
    var r := AddLanguage(rows, language, proficiency);
    if |r| == |rows| + 1 {
      forall i, j | 0 <= i < j < |r| ensures r[i].tag != r[j].tag {
        assert r[i] == rows[i];
        if j < |rows| { assert r[j] == rows[j]; }
      }
    }
  }

  /** Removing a row keeps the row tags distinct. */
  lemma RemoveRowKeepsDistinct(rows: seq<LanguageRow>, i: nat)
    requires i < |rows| && DistinctTags(rows)
    ensures DistinctTags(RemoveAt(rows, i))
  {
    var r := RemoveAt(rows, i);
    forall a, b | 0 <= a < b < |r| ensures r[a].tag != r[b].tag {
      var a' := if a < i then a else a + 1;
      var b' := if b < i then b else b + 1;
      assert r[a] == rows[a'] && r[b] == rows[b'] && a' < b';
    }
  }

  /** The texts the rows show, in row order. */
  function RowTexts(rows: seq<LanguageRow>): (t: seq<string>)
    ensures |t| == |rows| && forall i :: 0 <= i < |rows| ==> t[i] == rows[i].text
  {
    seq(|rows|, i requires 0 <= i < |rows| => rows[i].text)
  }

  // ------------------------------------------------------------ the form

  /** The raw text of the builder's input fields and dropdowns, untrimmed. */
  datatype Form = Form(
    name: string, email: string, contactNo: string,
    industry: string, levelOfWork: string, companyScale: string,
    companyExp: string, fromDateExp: string, toDateExp: string, responsibilitiesExp: string,
    universityEdu: string, degreeEdu: string, fromDateEdu: string, toDateEdu: string, backgroundEdu: string)

  /** `hasExperienceData`. */
  function HasExperienceData(f: Form): (b: bool)
    ensures b <==> exists i :: 0 <= i < |f.companyExp| && !IsTrimmable(f.companyExp[i])
  {
    TrimFacts(f.companyExp);
    Trim(f.companyExp) != ""
  }

  /** `hasEducationData`. */
  function HasEducationData(f: Form): (b: bool)
    ensures b <==> (exists i :: 0 <= i < |f.universityEdu| && !IsTrimmable(f.universityEdu[i])) ||
                   (exists i :: 0 <= i < |f.degreeEdu| && !IsTrimmable(f.degreeEdu[i]))
  {
    TrimFacts(f.universityEdu);
    TrimFacts(f.degreeEdu);
    Trim(f.universityEdu) != "" || Trim(f.degreeEdu) != ""
  }

  const NameRequired: string := "Full name is required"
  const EmailRequired: string := "Email is required"
  const SectionRequired: string := "Please fill either Experience or Education section"

  /** Where each message sits in the fixed reporting order. */
  function MessageRank(m: string): nat {
    if m == NameRequired then 0 else if m == EmailRequired then 1 else 2
  }

  /** The messages `validateRequiredSections` reports, in the order it appends them. */
  function ValidationErrors(f: Form): (errs: seq<string>)
    ensures errs == [] <==> Trim(f.name) != "" && Trim(f.email) != "" && (HasExperienceData(f) || HasEducationData(f))
  {
    (if Trim(f.name) == "" then [NameRequired] else []) +
    (if Trim(f.email) == "" then [EmailRequired] else []) +
    (if !HasExperienceData(f) && !HasEducationData(f) then [SectionRequired] else [])
  }

  /** Each message is reported exactly when its rule fails, and the messages come in the fixed order. */
  lemma ValidationErrorsOrder(f: Form)
    ensures NameRequired in ValidationErrors(f) <==> Trim(f.name) == ""
    ensures EmailRequired in ValidationErrors(f) <==> Trim(f.email) == ""
    ensures SectionRequired in ValidationErrors(f) <==> !HasExperienceData(f) && !HasEducationData(f)
    ensures forall i, j :: 0 <= i < j < |ValidationErrors(f)| ==>
      MessageRank(ValidationErrors(f)[i]) < MessageRank(ValidationErrors(f)[j])
  {
    var n, e, x := Trim(f.name) == "", Trim(f.email) == "", !HasExperienceData(f) && !HasEducationData(f);
    assert |NameRequired| == 21 && |EmailRequired| == 17 && |SectionRequired| == 50;
    assert MessageRank(NameRequired) == 0 && MessageRank(EmailRequired) == 1 && MessageRank(SectionRequired) == 2;
    var errs := ValidationErrors(f);
    if n && e && x { assert errs == [NameRequired, EmailRequired, SectionRequired]; }
    else if n && e { assert errs == [NameRequired, EmailRequired]; }
    else if n && x { assert errs == [NameRequired, SectionRequired]; }
    else if e && x { assert errs == [EmailRequired, SectionRequired]; }
    else if n { assert errs == [NameRequired]; }
    else if e { assert errs == [EmailRequired]; }
    else if x { assert errs == [SectionRequired]; }
    else { assert errs == []; }
  }

  /** The dialog text: one "• message" line per message. */
  function ErrorText(errs: seq<string>): (t: string)
    ensures errs == [] <==> t == []
    ensures errs != [] ==> |t| >= 3 && t[..2] == "• " && t[|t| - 1] == '\n'
  {
    if errs == [] then "" else ErrorText(errs[..|errs| - 1]) + "• " + errs[|errs| - 1] + "\n"
  }

  /** The three conditional pieces the method tracks make up the reported messages. */
  lemma ValidationParts(f: Form, r1: seq<string>, r2: seq<string>, r3: seq<string>)
    requires r1 == if Trim(f.name) == "" then [NameRequired] else []
    requires r2 == if Trim(f.email) == "" then [EmailRequired] else []
    requires r3 == if !HasExperienceData(f) && !HasEducationData(f) then [SectionRequired] else []
    ensures r1 + r2 + r3 == ValidationErrors(f)
  {
  }

  /** One more message adds its own line at the end of the dialog text. */
  lemma ErrorTextAppend(errs: seq<string>, m: string)
    ensures ErrorText(errs + [m]) == ErrorText(errs) + "• " + m + "\n"
  {
    assert (errs + [m])[..|errs|] == errs;
  }

  /** One dialog line holds exactly one newline. */
  lemma ErrorLineCount(m: string)
    requires '\n' !in m
    ensures Count("• " + m + "\n", '\n') == 1
  {
    CountAppend("• " + m, "\n", '\n');
    CountAppend("• ", m, '\n');
    CountAbsent(m, '\n');
    assert Count("• ", '\n') == 0;
  }

  /** The dialog text has one line per message. */
  lemma {:induction false} ErrorTextLines(errs: seq<string>)
    requires forall i :: 0 <= i < |errs| ==> '\n' !in errs[i]
    ensures Count(ErrorText(errs), '\n') == |errs|
  {
    if errs != [] {
      var init := errs[..|errs| - 1];
      var last := errs[|errs| - 1];
      ErrorTextLines(init);
      ErrorLineCount(last);
      assert ErrorText(errs) == ErrorText(init) + ("• " + last + "\n");
      CountAppend(ErrorText(init), "• " + last + "\n", '\n');
    }
  }

  // --------------------------------------------------- collected resume data

  datatype PersonalInfoData = PersonalInfoData(name: string, email: string, phone: string, address: string)
  datatype ObjectivesData = ObjectivesData(industry: string, levelOfWork: string, companyScale: string)
  datatype ExperienceData = ExperienceData(jobTitle: string, company: string, fromDate: string, toDate: string,
                                           responsibilities: string, isCurrentJob: bool)
  datatype EducationData = EducationData(university: string, degree: string, fromDate: string, toDate: string,
                                         background: string)

  /** The JSON object `collectResumeData` builds, before Gson writes it out. */
  datatype ResumeData = ResumeData(
    personalInfo: PersonalInfoData,
    objectives: ObjectivesData,
    experience: ExperienceData,
    education: EducationData,
    skills: string,
    languages: string)

  /** What `collectResumeData` sends for a form, checkbox, chips and language rows. */
  function CollectedData(f: Form, currentJob: bool, skills: seq<string>, rows: seq<LanguageRow>): (d: ResumeData)
    ensures d.personalInfo.address == "" && d.experience.jobTitle == ""
    ensures d.personalInfo.name == Trim(f.name) && d.personalInfo.email == Trim(f.email)
    ensures d.experience.isCurrentJob == currentJob
  {
    ResumeData(
      PersonalInfoData(Trim(f.name), Trim(f.email), Trim(f.contactNo), ""),
      ObjectivesData(Trim(f.industry), Trim(f.levelOfWork), Trim(f.companyScale)),
      ExperienceData("", Trim(f.companyExp), Trim(f.fromDateExp), Trim(f.toDateExp), Trim(f.responsibilitiesExp), currentJob),
      EducationData(Trim(f.universityEdu), Trim(f.degreeEdu), Trim(f.fromDateEdu), Trim(f.toDateEdu), Trim(f.backgroundEdu)),
      Join(", ", skills),
      Join(", ", RowTexts(rows)))
  }

  /**
   * The "skills" and "languages" texts read back, split at ", ", into the
   * chip texts and row texts in order, as long as none holds a comma.
   */
  lemma CollectedListsRoundTrip(f: Form, currentJob: bool, skills: seq<string>, rows: seq<LanguageRow>)
    requires forall i :: 0 <= i < |skills| ==> ',' !in skills[i]
    requires forall i :: 0 <= i < |rows| ==> ',' !in rows[i].text
    ensures skills != [] ==> SplitOn(CollectedData(f, currentJob, skills, rows).skills, ", ") == skills
    ensures rows != [] ==> SplitOn(CollectedData(f, currentJob, skills, rows).languages, ", ") == RowTexts(rows)
    ensures skills == [] ==> CollectedData(f, currentJob, skills, rows).skills == ""
  {
    if skills != [] { SplitJoin(", ", skills); }
    if rows != [] { SplitJoin(", ", RowTexts(rows)); }
  }

  // ---------------------------------------------------------- the screen

  /** The builder screen's state. */
  class ResumeBuilderActivity {
    var form: Form
    var toDateEnabled: bool
    var currentJobChecked: bool
    var sections: map<SectionId, SectionState>
    var skills: seq<string>
    var suggestions: seq<string>
    var skillInput: string
    var languageRows: seq<LanguageRow>
    var languageInput: string
    var proficiencyInput: string
    var toast: Option<string>
    var validationDialog: Option<string>
    /** The data handed to the generation request, once one is sent. */
    var generateRequest: Option<ResumeData>

    predicate Valid()
      reads this
    {
      (forall id: SectionId :: id in sections) && DistinctIgnoringCase(skills) && DistinctTags(languageRows)
    }

    /** The screen as laid out: every card in its layout state, no chips, no rows, all suggestions. */
    constructor (layout: map<SectionId, SectionState>)
      requires forall id: SectionId :: id in layout
      ensures Valid() && sections == layout
      ensures skills == [] && languageRows == [] && suggestions == PopularSkills
      ensures generateRequest == None && toDateEnabled
    {
      form := Form("", "", "", "", "", "", "", "", "", "", "", "", "", "", "");
      toDateEnabled, currentJobChecked := true, false;
      sections := layout;
      skills, suggestions, skillInput := [], PopularSkills, "";
      languageRows, languageInput, proficiencyInput := [], "", "";
      toast, validationDialog, generateRequest := None, None, None;
    }

    /** `toggleSection` on one card. */
    method ToggleSection(id: SectionId)
      requires Valid()
      modifies this`sections
      ensures Valid()
      ensures sections == old(sections)[id := Toggled(old(sections)[id])]
    {
      var s := sections[id];
      if s.visible {
        sections := sections[id := SectionState(false, 0)];
      } else {
        sections := sections[id := SectionState(true, 180)];
      }
    }

    /** The current-job checkbox listener. */
    method OnCurrentJobChanged(isChecked: bool)
      modifies this`form, this`toDateEnabled, this`currentJobChecked
      ensures form == old(form).(toDateExp := if isChecked then "Present" else "")
      ensures toDateEnabled == !isChecked && currentJobChecked == isChecked
    {
      currentJobChecked := isChecked;
      if isChecked {
        form := form.(toDateExp := "Present");
        toDateEnabled := false;
      } else {
        form := form.(toDateExp := "");
        toDateEnabled := true;
      }
    }

    /** `addSkillChip`: a chip for `text` is appended unless one already shows it ignoring case. */
    method AddSkillChip(text: string)
      requires Valid()
      modifies this`skills
      ensures Valid()
      ensures skills == AddSkill(old(skills), text)
    {
      var i := 0;
      while i < |skills|
        invariant 0 <= i <= |skills|
        invariant forall j :: 0 <= j < i ==> !EqualsIgnoreCase(skills[j], text)
      {
        if EqualsIgnoreCase(skills[i], text) {
          return;
        }
        i := i + 1;
      }
      AddSkillKeepsDistinct(skills, text);
      skills := skills + [text];
    }

    /**
     * The skill input's editor-action listener; `keyCode` is the key event's
     * code, `None` when there is no event. Returns whether it consumed the action.
     */
    method OnSkillEditorAction(actionId: int, keyCode: Option<int>) returns (handled: bool)
      requires Valid()
      modifies this`skills, this`skillInput
      ensures Valid()
      ensures handled <==> SubmitsSkill(actionId, keyCode) && Trim(old(skillInput)) != ""
      ensures handled ==> skills == AddSkill(old(skills), Trim(old(skillInput))) && skillInput == ""
      ensures !handled ==> skills == old(skills) && skillInput == old(skillInput)
    {
      if SubmitsSkill(actionId, keyCode) {
        var skillText := Trim(skillInput);
        if skillText != "" {
          AddSkillChip(skillText);
          skillInput := "";
          return true;
        }
      }
      return false;
    }

    /** A click on suggestion chip `i`: its skill is added, and the suggestion chip is removed either way. */
    method OnSuggestionClicked(i: nat)
      requires Valid() && i < |suggestions|
      modifies this`skills, this`suggestions
      ensures Valid()
      ensures skills == AddSkill(old(skills), old(suggestions)[i])
      ensures suggestions == RemoveAt(old(suggestions), i)
    {
      AddSkillChip(suggestions[i]);
      suggestions := suggestions[..i] + suggestions[i + 1..];
    }

    /** The close icon of chip `i`. */
    method RemoveSkillChip(i: nat)
      requires Valid() && i < |skills|
      modifies this`skills
      ensures Valid()
      ensures skills == RemoveAt(old(skills), i)
    {
      RemoveKeepsDistinct(skills, i);
      skills := skills[..i] + skills[i + 1..];
    }

    /** `addLanguageItem`: a row is appended unless one is already tagged with `language`. */
    method AddLanguageItem(language: string, proficiency: string)
      requires Valid()
      modifies this`languageRows, this`toast
      ensures Valid()
      ensures languageRows == AddLanguage(old(languageRows), language, proficiency)
      ensures HasLanguageTag(old(languageRows), language) ==> toast == Some("Language already added")
      ensures !HasLanguageTag(old(languageRows), language) ==> toast == old(toast)
    {
      for i := 0 to |languageRows|
        invariant forall j :: 0 <= j < i ==> languageRows[j].tag != language
      {
        if languageRows[i].tag == language {
          toast := Some("Language already added");
          return;
        }
      }
      AddLanguageKeepsDistinct(languageRows, language, proficiency);
      languageRows := languageRows + [LanguageRow(language, language + " (" + proficiency + ")")];
    }

    /** The add-language button: both trimmed inputs must be non-empty. */
    method OnAddLanguageClicked()
      requires Valid()
      modifies this`languageRows, this`toast, this`languageInput, this`proficiencyInput
      ensures Valid()
      ensures var language, proficiency := Trim(old(languageInput)), Trim(old(proficiencyInput));
        if language != "" && proficiency != "" then
          languageRows == AddLanguage(old(languageRows), language, proficiency) &&
          languageInput == "" && proficiencyInput == "" &&
          (if HasLanguageTag(old(languageRows), language) then toast == Some("Language already added")
           else toast == old(toast))
        else
          languageRows == old(languageRows) && toast == Some("Please select both language and proficiency") &&
          languageInput == old(languageInput) && proficiencyInput == old(proficiencyInput)
    {
      var language := Trim(languageInput);
      var proficiency := Trim(proficiencyInput);
      if language != "" && proficiency != "" {
        AddLanguageItem(language, proficiency);
        languageInput := "";
        proficiencyInput := "";
      } else {
        toast := Some("Please select both language and proficiency");
      }
    }

    /** The remove button of row `i`. */
    method RemoveLanguageRow(i: nat)
      requires Valid() && i < |languageRows|
      modifies this`languageRows
      ensures Valid()
      ensures languageRows == RemoveAt(old(languageRows), i)
    {
      RemoveRowKeepsDistinct(languageRows, i);
      languageRows := languageRows[..i] + languageRows[i + 1..];
    }

    /** `errors.append("• " + message + "\n")`. */
    static method AppendErrorLine(errors: string, ghost reported: seq<string>, m: string) returns (r: string)
      requires errors == ErrorText(reported)
      ensures r == ErrorText(reported + [m])
    {
      ErrorTextAppend(reported, m);
      r := errors + "• " + m + "\n";
    }

    /** `validateRequiredSections`: the verdict, and the dialog listing what is missing. */
    method ValidateRequiredSections() returns (valid: bool)
      modifies this`validationDialog
      ensures valid <==> ValidationErrors(form) == []
      ensures valid ==> validationDialog == old(validationDialog)
      ensures !valid ==> validationDialog == Some(ErrorText(ValidationErrors(form)))
    {
      var errors := "";
      valid := true;
      var fullName := Trim(form.name);
      ghost var r1: seq<string> := [];
      if fullName == "" {
        errors := AppendErrorLine(errors, r1, NameRequired);
        r1 := [NameRequired];
        valid := false;
      }
      assert errors == ErrorText(r1) && (valid <==> r1 == []);
      var email := Trim(form.email);
      ghost var r2: seq<string> := [];
      if email == "" {
        errors := AppendErrorLine(errors, r1, EmailRequired);
        r2 := [EmailRequired];
        valid := false;
      }
      assert errors == ErrorText(r1 + r2) && (valid <==> r1 + r2 == []);
      ghost var r3: seq<string> := [];
      if !HasExperienceData(form) && !HasEducationData(form) {
        errors := AppendErrorLine(errors, r1 + r2, SectionRequired);
        r3 := [SectionRequired];
        valid := false;
      }
      assert errors == ErrorText(r1 + r2 + r3) && (valid <==> r1 + r2 + r3 == []);
      ValidationParts(form, r1, r2, r3);
      if !valid {
        validationDialog := Some(errors);
      }
    }

    /** `collectResumeData`: the chip texts and the rows' texts are gathered in order and joined with ", ". */
    method CollectResumeData() returns (d: ResumeData)
      ensures d == CollectedData(form, currentJobChecked, skills, languageRows)
    {
      var skillsList: seq<string> := [];
      for i := 0 to |skills|
        invariant skillsList == skills[..i]
      {
        skillsList := skillsList + [skills[i]];
      }
      var languagesList: seq<string> := [];
      for i := 0 to |languageRows|
        invariant languagesList == RowTexts(languageRows)[..i]
      {
        languagesList := languagesList + [languageRows[i].text];
      }
      assert skills[..|skills|] == skills;
      assert RowTexts(languageRows)[..|languageRows|] == RowTexts(languageRows);
      var f := form;
      d := ResumeData(
        PersonalInfoData(Trim(f.name), Trim(f.email), Trim(f.contactNo), ""),
        ObjectivesData(Trim(f.industry), Trim(f.levelOfWork), Trim(f.companyScale)),
        ExperienceData("", Trim(f.companyExp), Trim(f.fromDateExp), Trim(f.toDateExp), Trim(f.responsibilitiesExp),
                       currentJobChecked),
        EducationData(Trim(f.universityEdu), Trim(f.degreeEdu), Trim(f.fromDateEdu), Trim(f.toDateEdu),
                      Trim(f.backgroundEdu)),
        Join(", ", skillsList),
        Join(", ", languagesList));
    }

    /** `createResume`: nothing is sent unless the form passes validation. */
    method CreateResume()
      modifies this`validationDialog, this`generateRequest
      ensures ValidationErrors(form) != [] ==>
                generateRequest == old(generateRequest) && validationDialog == Some(ErrorText(ValidationErrors(form)))
      ensures ValidationErrors(form) == [] ==>
                generateRequest == Some(CollectedData(form, currentJobChecked, skills, languageRows))
    {
      var valid := ValidateRequiredSections();
      if !valid {
        return;
      }
      var data := CollectResumeData();
      generateRequest := Some(data);
    }
  }
}

=== FILE: resume_library.dfy ===
/** The résumé library screen: the list of generated and demo résumés, and its navigation. */
module ResumeLibrary {
  import opened Wrappers
  import opened JString
  import opened Widgets
  import opened ResumeModel

  const UploadRequestCode: int := 1002

  /**
   * A directory entry of the app's `resumes` folder: its name, whether it is
   * a regular file, its `hashCode()`, its last-modified date already
   * formatted as "MMM dd, yyyy", and its absolute path.
   */
  datatype FileEntry = FileEntry(name: string, isFile: bool, hash: Int32, modifiedLabel: string, absolutePath: string)

  /** The library title of a generated file: every ".docx" removed, then every '_' made a space. */
  function GeneratedDisplayName(fileName: string): (d: string)
    ensures '_' !in d
  {
    ReplaceCharRemovesIt(ReplaceAll(fileName, ".docx", ""), '_', " ");
    ReplaceAll(ReplaceAll(fileName, ".docx", ""), "_", " ")
  }

  /**
   * A file name in which ".docx" does not occur keeps every char but '_',
   * and each '_' becomes a space.
   */
  lemma DisplayNameSubstitutes(fileName: string)
    requires forall i :: !OccursAt(fileName, ".docx", i)
    ensures GeneratedDisplayName(fileName)
         == seq(|fileName|, i requires 0 <= i < |fileName| => if fileName[i] == '_' then ' ' else fileName[i])
  {
    ReplaceCharByChar(fileName, '_', ' ');
  }

  /** A file name holding neither '_' nor ".docx" is its own display name. */
  lemma PlainDisplayName(fileName: string)
    requires '_' !in fileName && forall i :: !OccursAt(fileName, ".docx", i)
    ensures GeneratedDisplayName(fileName) == fileName
  {
    DisplayNameSubstitutes(fileName);
  }

  /** "pdf" for a name ending in ".pdf", otherwise "docx". */
  function FileTypeOf(fileName: string): (t: string)
    ensures t == "pdf" <==> EndsWith(fileName, ".pdf")
    ensures t == "pdf" || t == "docx"
  {
    if EndsWith(fileName, ".pdf") then "pdf" else "docx"
  }

  /** The library entry `loadGeneratedResumes` builds for one regular file. */
  function GeneratedResume(f: FileEntry): (r: Resume)
    ensures r.id == "gen_" + IntToString(f.hash)
    ensures r.name.Some? && '_' !in r.name.value
    ensures EndsWith(r.name.value, " Resume") && r.name.value[..|r.name.value| - 7] == GeneratedDisplayName(f.name)
    ensures r.createdDate == "Generated " + f.modifiedLabel
    ensures r.filename == f.name && r.thumbnailPath == f.absolutePath
    ensures r.fileType == "pdf" <==> EndsWith(f.name, ".pdf")
    ensures r.industry == "Generated Resume" && r.isActive
  {
    var nameText := GeneratedDisplayName(f.name) + " Resume";
    assert nameText[..|nameText| - 7] == GeneratedDisplayName(f.name);
    NewResume("gen_" + IntToString(f.hash), Some(nameText), f.name,
              "Generated " + f.modifiedLabel, FileTypeOf(f.name), "Generated Resume", f.absolutePath)
  }

  /** The generated entries for a directory listing: one per regular file, in listing order. */
  function GeneratedEntries(files: seq<FileEntry>): (r: seq<Resume>)
    ensures |r| <= |files|
    ensures (forall i :: 0 <= i < |files| ==> !files[i].isFile) ==> r == []
  {
    if files == [] then []
    else
      var last := files[|files| - 1];
      GeneratedEntries(files[..|files| - 1]) + (if last.isFile then [GeneratedResume(last)] else [])
  }

  lemma GeneratedEntriesStep(files: seq<FileEntry>, i: nat)
    requires i < |files|
    ensures GeneratedEntries(files[..i + 1])
         == GeneratedEntries(files[..i]) + (if files[i].isFile then [GeneratedResume(files[i])] else [])
  {
    assert files[..i + 1][..i] == files[..i];
  }

  /** The number of regular files in a listing. */
  function RegularFileCount(files: seq<FileEntry>): nat {
    if files == [] then 0
    else RegularFileCount(files[..|files| - 1]) + (if files[|files| - 1].isFile then 1 else 0)
  }

  /** `r` is the entry built for one of the regular files of the listing. */
  predicate FromListing(files: seq<FileEntry>, r: Resume) {
    exists j :: 0 <= j < |files| && files[j].isFile && r == GeneratedResume(files[j])
  }

  /** An entry built from a file of a prefix of the listing is built from a file of the listing. */
  lemma FromListingPrefix(init: seq<FileEntry>, files: seq<FileEntry>, r: Resume)
    requires |init| <= |files| && init == files[..|init|]
    requires FromListing(init, r)
    ensures FromListing(files, r)
  {
    var j :| 0 <= j < |init| && init[j].isFile && r == GeneratedResume(init[j]);
    assert files[j] == init[j];
  }

  /**
   * Every generated entry comes from a regular file of the listing, and
   * there is one per regular file.
   */
  lemma {:induction false} GeneratedEntriesSound(files: seq<FileEntry>)
    ensures |GeneratedEntries(files)| == RegularFileCount(files) <= |files|
    ensures forall i :: 0 <= i < |GeneratedEntries(files)| ==> FromListing(files, GeneratedEntries(files)[i])
  {
    if files != [] {
      var init := files[..|files| - 1];
      var last := files[|files| - 1];
      GeneratedEntriesSound(init);
      var gi := GeneratedEntries(init);
      var tail := if last.isFile then [GeneratedResume(last)] else [];
      var g := GeneratedEntries(files);
      assert g == gi + tail;
      forall i | 0 <= i < |g|
        ensures FromListing(files, g[i])
      {
        if i < |gi| {
          assert g[i] == gi[i];
          FromListingPrefix(init, files, gi[i]);
        } else {
          assert g[i] == GeneratedResume(files[|files| - 1]);
        }
      }
    }
  }

  /** The entries follow the listing order: a listing split in two gives the entries of each part in turn. */
  lemma {:induction false} GeneratedEntriesAppend(a: seq<FileEntry>, b: seq<FileEntry>)
    ensures GeneratedEntries(a + b) == GeneratedEntries(a) + GeneratedEntries(b)
    decreases |b|
  {
    if b == [] {
      assert a + b == a;
    } else {
      var b' := b[..|b| - 1];
      assert (a + b)[..|a + b| - 1] == a + b';
      GeneratedEntriesAppend(a, b');
    }
  }

  /** The three demo résumés, ids "1", "2" and "3". */
  function DemoResumes(): (d: seq<Resume>)
    ensures |d| == 3
    ensures forall i :: 0 <= i < 3 ==> d[i].fileType == "pdf" && d[i].thumbnailPath == "" && d[i].isActive
  {
    [ NewResume("1", Some("Software Engineer Resume"), "tailored_resume_job_2_upload.pdf",
                "Last edited 2 days ago", "pdf", "Software Engineering", ""),
      NewResume("2", Some("Marketing Specialist Resume"), "general_resume.pdf",
                "Last edited 5 days ago", "pdf", "Marketing", ""),
      NewResume("3", Some("Data Analyst Resume"), "data_analyst_resume.pdf",
                "Last edited 1 week ago", "pdf", "Data Science", "") ]
  }

  /**
   * The whole library for a directory listing; `None` when the folder is
   * missing, is not a directory or cannot be listed.
   */
  function LibraryEntries(dir: Option<seq<FileEntry>>): (r: seq<Resume>)
    ensures |r| >= 3 && r[|r| - 3..] == DemoResumes()
    ensures dir.None? ==> r == DemoResumes()
  {
    (if dir.Some? then GeneratedEntries(dir.value) else []) + DemoResumes()
  }

  /**
   * The library is the generated entries followed by the three demos; with
   * no readable folder it is exactly the demos.
   */
  lemma LibraryEntriesShape(dir: Option<seq<FileEntry>>)
    ensures var l := LibraryEntries(dir);
      |l| >= 3 && l[|l| - 3].id == "1" && l[|l| - 2].id == "2" && l[|l| - 1].id == "3"
    ensures dir.None? ==> |LibraryEntries(dir)| == 3
    ensures dir.Some? ==> |LibraryEntries(dir)| == RegularFileCount(dir.value) + 3
    ensures dir.Some? ==> LibraryEntries(dir)[..|LibraryEntries(dir)| - 3] == GeneratedEntries(dir.value)
  {
    var l, demos := LibraryEntries(dir), DemoResumes();
    assert demos[0].id == "1" && demos[1].id == "2" && demos[2].id == "3";
    assert l[|l| - 3] == demos[0] && l[|l| - 2] == demos[1] && l[|l| - 1] == demos[2];
    if dir.Some? { GeneratedEntriesSound(dir.value); }
  }

  /** Bottom navigation of the library screen. */
  function LibraryNav(item: NavItem): (r: NavResult)
    ensures r.selected <==> item == NavHome || item == NavResume
    ensures r.start.Some? <==> item == NavHome
    ensures r.start.Some? ==> r.start.value == HomeScreen
    ensures r.finish <==> r.start.Some?
    ensures item == NavDashboard ==> r.toast == Some("Dashboard - Coming Soon")
    ensures item == NavProfile ==> r.toast == Some("Profile - Coming Soon")
    ensures item != NavDashboard && item != NavProfile ==> r.toast == None
  {
    match item
    case NavHome => NavResult(true, Some(HomeScreen), true, None)
    case NavDashboard => NavResult(false, None, false, Some("Dashboard - Coming Soon"))
    case NavResume => NavResult(true, None, false, None)
    case NavProfile => NavResult(false, None, false, Some("Profile - Coming Soon"))
    case OtherItem => NavResult(false, None, false, None)
  }

  /** The library screen's list state. */
  class ResumeLibraryActivity {
    var resumeList: seq<Resume>

    constructor ()
      ensures resumeList == []
    {
      resumeList := [];
    }

    /** `loadGeneratedResumes`: appends one entry per regular file of a readable folder. */
    method LoadGeneratedResumes(dir: Option<seq<FileEntry>>)
      modifies this
      ensures resumeList == old(resumeList) + (if dir.Some? then GeneratedEntries(dir.value) else [])
    {
      if dir.Some? {
        var files := dir.value;
        var i := 0;
        while i < |files|
          invariant 0 <= i <= |files|
          invariant resumeList == old(resumeList) + GeneratedEntries(files[..i])
        {
          GeneratedEntriesStep(files, i);
          if files[i].isFile {
            resumeList := resumeList + [GeneratedResume(files[i])];
          }
          i := i + 1;
        }
        assert files[..|files|] == files;
      }
    }

    /** `loadMockResumeData`: rebuilds the list from scratch, generated entries first, then the demos. */
    method LoadMockResumeData(dir: Option<seq<FileEntry>>)
      modifies this
      ensures resumeList == LibraryEntries(dir)
    {
      resumeList := [];
      LoadGeneratedResumes(dir);
      var demos := DemoResumes();
      resumeList := resumeList + [demos[0]];
      resumeList := resumeList + [demos[1]];
      resumeList := resumeList + [demos[2]];
      assert demos == [demos[0], demos[1], demos[2]];
    }
  }
}

=== FILE: resume_upload.dfy ===
/**
 * The résumé upload screen: the list of résumé file names, the selected one,
 * the next button, and the hand-over to the feedback screen.
 */
module ResumeUpload {
  import opened Wrappers
  import opened JString
  import opened Widgets

  /** What the file picker hands back; `path` is `Uri.getPath()`, which may be null. */
  datatype Uri = Uri(path: Option<string>)

  /** `getFileNameFromUri`: the text after the last '/', or "UnnamedFile" for a null path or one without '/'. */
  function FileNameFromUri(path: Option<string>): (n: string)
    ensures '/' !in n
    ensures path.None? || '/' !in path.value ==> n == "UnnamedFile"
    ensures path.Some? && '/' in path.value ==>
      var p := path.value;
      |n| < |p| && p[|p| - |n| - 1] == '/' && n == p[|p| - |n|..]
  {
    if path.Some? && LastIndexOf(path.value, '/') != -1 then
      var cut := LastIndexOf(path.value, '/');
      path.value[cut + 1..]
    else
      assert path.Some? ==> forall i :: 0 <= i < |path.value| ==> path.value[i] != '/';
      "UnnamedFile"
  }

  /** A path made of a directory, a '/' and a plain name gives back that name. */
  lemma FileNameOfPath(dir: string, name: string)
    requires '/' !in name
    ensures FileNameFromUri(Some(dir + "/" + name)) == name
  {
    var p := dir + "/" + name;
    assert p[|dir|] == '/';
    var cut := LastIndexOf(p, '/');
    assert forall i :: |dir| < i < |p| ==> p[i] == name[i - |dir| - 1];
    assert p[cut + 1..] == name;
  }

  /** `List.indexOf`: the first index holding `x`, or -1. */
  function FirstIndex(s: seq<string>, x: string): (r: int)
    ensures -1 <= r < |s|
    ensures r == -1 <==> x !in s
    ensures r >= 0 ==> s[r] == x && forall j :: 0 <= j < r ==> s[j] != x
  {
    if s == [] then -1
    else if s[0] == x then 0
    else var k := FirstIndex(s[1..], x); if k == -1 then -1 else k + 1
  }

  /**
   * The list and selection after the picker returns `name`: a new name goes
   * to the top and is selected; a name already listed is selected where it
   * first occurs and the list is left as it was.
   */
  function Picked(files: seq<string>, name: string): (r: (seq<string>, nat))
    ensures r.1 < |r.0| && r.0[r.1] == name
    ensures name !in files ==> r.0 == [name] + files && r.1 == 0
    ensures name in files ==> r.0 == files && forall j :: 0 <= j < r.1 ==> files[j] != name
  {
    var k := FirstIndex(files, name);
    if k == -1 then ([name] + files, 0) else (files, k)
  }

  predicate Distinct(s: seq<string>) {
    forall i, j :: 0 <= i < j < |s| ==> s[i] != s[j]
  }

  /** Picking never introduces a duplicate entry, and picking the same name again changes nothing. */
  lemma PickedKeepsDistinct(files: seq<string>, name: string)
    requires Distinct(files)
    ensures Distinct(Picked(files, name).0)
    ensures Picked(Picked(files, name).0, name) == Picked(files, name)
  {
    var r := Picked(files, name);
    if name !in files {
      forall i, j | 0 <= i < j < |r.0| ensures r.0[i] != r.0[j] {
        assert r.0[j] == files[j - 1];
        if i > 0 { assert r.0[i] == files[i - 1]; }
      }
    }
  }

  /** The intent that starts the feedback screen, carrying the job id and the selected file name. */
  function FeedbackIntent(jobId: int, file: string): (i: Intent)
    ensures i.target == FeedbackScreen
    ensures IntExtraOr(i.extras, "selected_job_id", -1) == jobId
    ensures StringExtraOf(i.extras, "selected_resume_file") == Some(file)
  {
    var i := Intent(FeedbackScreen, [("selected_job_id", IntExtra(jobId)), ("selected_resume_file", StringExtra(file))]);
    assert i.extras[..1] == [("selected_job_id", IntExtra(jobId))];
    i
  }

  /**
   * The upload screen's state. The selected position lives in the list
   * adapter, whose source is not part of this model; `selected` stands for it.
   */
  class ResumeUploadActivity {
    var selectedJobId: int
    var files: seq<string>
    var selected: Option<nat>
    var nextEnabled: bool
    var nextAlpha: real
    /** The intents started so far, oldest first. */
    var started: seq<Intent>
    var toast: Option<string>

    /** The selection is a position in the list, and the next button reflects it. */
    predicate Valid()
      reads this
    {
      (selected.Some? ==> selected.value < |files|) &&
      nextEnabled == selected.Some? &&
      nextAlpha == (if selected.Some? then 1.0 else 0.5)
    }

    /** `onCreate`: the job id from the intent (-1 when absent), an empty list and a disabled next button. */
    constructor (extras: seq<(string, Extra)>)
      ensures selectedJobId == IntExtraOr(extras, "job_id", -1)
      ensures files == [] && selected == None && started == [] && toast == None
      ensures Valid() && !nextEnabled
    {
      selectedJobId := IntExtraOr(extras, "job_id", -1);
      files, selected := [], None;
      started, toast := [], None;
      nextEnabled, nextAlpha := false, 0.5;
    }

    /** `updateNextButtonState`: enabled and opaque exactly when a file is selected. */
    method UpdateNextButtonState()
      modifies this`nextEnabled, this`nextAlpha
      ensures nextEnabled == selected.Some?
      ensures nextAlpha == (if selected.Some? then 1.0 else 0.5)
    {
      var isFileSelected := selected.Some?;
      nextEnabled := isFileSelected;
      nextAlpha := if isFileSelected then 1.0 else 0.5;
    }

    /** The file picker's callback; a cancelled pick (`uri == None`) does nothing. */
    method OnFilePicked(uri: Option<Uri>)
      requires Valid()
      modifies this`files, this`selected, this`nextEnabled, this`nextAlpha, this`toast
      ensures Valid()
      ensures uri.None? ==> files == old(files) && selected == old(selected) && toast == old(toast)
      ensures uri.Some? ==>
        var name := FileNameFromUri(uri.value.path);
        toast == Some("Selected file: " + uri.value.path.GetOr("null")) &&
        (files, selected) == (Picked(old(files), name).0, Some(Picked(old(files), name).1))
    {
      if uri.Some? {
        toast := Some("Selected file: " + uri.value.path.GetOr("null"));
        var fileName := FileNameFromUri(uri.value.path);
        var existingPos := FirstIndex(files, fileName);
        if existingPos == -1 {
          files := [fileName] + files;
          selected := Some(0);
        } else {
          selected := Some(existingPos);
        }
        UpdateNextButtonState();
      }
    }

    /** A row was tapped: the adapter selects it and the next button is refreshed. */
    method OnItemClick(position: nat)
      requires Valid() && position < |files|
      modifies this`selected, this`nextEnabled, this`nextAlpha
      ensures Valid() && selected == Some(position) && nextEnabled
    {
      selected := Some(position);
      UpdateNextButtonState();
    }

    /** `handleNextButtonClick`: with a selection, start the feedback screen; otherwise ask for one. */
    method HandleNextButtonClick()
      requires Valid()
      modifies this`started, this`toast
      ensures selected.Some? ==>
        started == old(started) + [FeedbackIntent(selectedJobId, files[selected.value])] && toast == old(toast)
      ensures selected.None? ==> started == old(started) && toast == Some("Please select a file first.")
    {
      if selected.Some? {
        started := started + [FeedbackIntent(selectedJobId, files[selected.value])];
      } else {
        toast := Some("Please select a file first.");
      }
    }

    /**
     * `onPostExecute` of the résumé list fetch, given the fetched names
     * (`None` when the fetch failed): the list is replaced, and new data
     * clears the adapter's selection.
     */
    method OnPostExecute(result: Option<seq<string>>)
      requires Valid()
      modifies this`files, this`selected, this`nextEnabled, this`nextAlpha, this`toast
      ensures Valid() && selected == None && !nextEnabled
      ensures result.Some? && result.value != [] ==> files == result.value && toast == old(toast)
      ensures result == Some([]) ==> files == [] && toast == Some("No resumes found on server.")
      ensures result.None? ==> files == [] && toast == Some("Failed to load resumes. Check Logcat for errors.")
    {
      if result.Some? && result.value != [] {
        files := result.value;
      } else if result.Some? {
        toast := Some("No resumes found on server.");
        files := [];
      } else {
        toast := Some("Failed to load resumes. Check Logcat for errors.");
        files := [];
      }
      selected := None;
      UpdateNextButtonState();
    }
  }
}

=== FILE: widgets.dfy ===
/**
 * The toolkit objects the screens touch, reduced to their visible state:
 * intents that start screens, bottom-navigation results, activity results
 * and chip groups.
 */
module Widgets {
  import opened Wrappers

  /** The app's screens (activities) that an intent can start. */
  datatype Screen =
    | HomeScreen
    | ResumeLibraryScreen
    | ResumeBuilderScreen
    | JobDetailScreen
    | ApplyFormScreen
    | ResumeUploadScreen
    | FeedbackScreen

  /** A value put into an intent with `putExtra`. */
  datatype Extra = IntExtra(i: int) | StringExtra(s: string)

  /** An explicit intent: the screen it starts and its extras in `putExtra` order. */
  datatype Intent = Intent(target: Screen, extras: seq<(string, Extra)>)

  /** Index `k` holds the last extra put under `key`. */
  predicate LastUnder(extras: seq<(string, Extra)>, key: string, k: int) {
    0 <= k < |extras| && extras[k].0 == key && forall j :: k < j < |extras| ==> extras[j].0 != key
  }

  /** The last extra under `key` is the final one when that carries `key`, and otherwise lies in the rest. */
  lemma LastUnderSplit(extras: seq<(string, Extra)>, key: string)
    requires extras != []
    ensures extras[|extras| - 1].0 == key ==> forall k :: LastUnder(extras, key, k) <==> k == |extras| - 1
    ensures extras[|extras| - 1].0 != key ==>
      forall k :: LastUnder(extras, key, k) ==> LastUnder(extras[..|extras| - 1], key, k)
  {
  }

  /** `intent.getIntExtra(key, default)`: the value last put under `key` if it is an int, else `default`. */
  function IntExtraOr(extras: seq<(string, Extra)>, key: string, default: int): (r: int)
    ensures (forall k :: 0 <= k < |extras| ==> extras[k].0 != key) ==> r == default
    ensures forall k :: LastUnder(extras, key, k) ==> r == (if extras[k].1.IntExtra? then extras[k].1.i else default)
  {
    if extras == [] then default
    else
      var last := extras[|extras| - 1];
      LastUnderSplit(extras, key);
      if last.0 == key && last.1.IntExtra? then last.1.i
      else if last.0 == key then default
      else IntExtraOr(extras[..|extras| - 1], key, default)
  }

  /** `intent.getStringExtra(key)`: the value last put under `key` if it is a string, else null. */
  function StringExtraOf(extras: seq<(string, Extra)>, key: string): (r: Option<string>)
    ensures (forall k :: 0 <= k < |extras| ==> extras[k].0 != key) ==> r == None
    ensures forall k :: LastUnder(extras, key, k) ==> r == (if extras[k].1.StringExtra? then Some(extras[k].1.s) else None)
  {
    if extras == [] then None
    else
      var last := extras[|extras| - 1];
      LastUnderSplit(extras, key);
      if last.0 == key && last.1.StringExtra? then Some(last.1.s)
      else if last.0 == key then None
      else StringExtraOf(extras[..|extras| - 1], key)
  }

  /** The bottom-navigation menu items; `OtherItem` is any other menu id. */
  datatype NavItem = NavHome | NavDashboard | NavResume | NavProfile | OtherItem

  /**
   * What a bottom-navigation listener did: the value it returned (whether the
   * item is shown as selected), the screen it started, whether it finished
   * the current screen, and the toast it showed.
   */
  datatype NavResult = NavResult(selected: bool, start: Option<Screen>, finish: bool, toast: Option<string>)

  /** `Activity.RESULT_OK`. */
  const ResultOk: int := -1

  /** The intent handed back to `onActivityResult`, reduced to its data URI. */
  datatype ResultData = ResultData(uri: Option<string>)

  /**
   * The file-picker result gate of `onActivityResult`: the picked URI is
   * uploaded only for the screen's own request code, `RESULT_OK`, a non-null
   * data intent and a non-null URI.
   */
  function PickedUri(uploadRequestCode: int, requestCode: int, resultCode: int,
                     data: Option<ResultData>): (u: Option<string>)
    ensures u.Some? <==> requestCode == uploadRequestCode && resultCode == ResultOk
                         && data.Some? && data.value.uri.Some?
    ensures u.Some? ==> u == data.value.uri
  {
    if requestCode == uploadRequestCode && resultCode == ResultOk && data.Some? then data.value.uri
    else None
  }

  /** A ChipGroup (or a LinearLayout of rows) reduced to the texts of its children, in child order. */
  class ChipGroup {
    var chips: seq<string>

    constructor ()
      ensures chips == []
    {
      chips := [];
    }

    method RemoveAllViews()
      modifies this
      ensures chips == []
    {
      chips := [];
    }

    method AddView(text: string)
      modifies this
      ensures chips == old(chips) + [text]
    {
      chips := chips + [text];
    }
  }
}

=== FILE: wrappers.dfy ===
/** Nullable values of the Java and Python sources. */
module Wrappers {

  /** `None` stands for Java's `null` or Python's `None` / an absent key. */
  datatype Option<T> = None | Some(value: T) {
    function GetOr(default: T): T {
      if Some? then value else default
    }
  }

  /** Java `int`: the values a 32-bit two's-complement integer can hold. */
  type Int32 = x: int | -0x8000_0000 <= x < 0x8000_0000

  /** Wrap an unbounded integer to 32 bits, as Java `int` arithmetic does. */
  function Wrap32(x: int): (r: Int32)
    ensures -0x8000_0000 <= x < 0x8000_0000 ==> r == x
    ensures (r - x) % 0x1_0000_0000 == 0
  {
    var m := (x + 0x8000_0000) % 0x1_0000_0000;
    m - 0x8000_0000
  }
}
